=== FILE: README.md ===
# libxq selector engine in Dafny

libxq is a small C library that queries XML documents (parsed by libxml2) with
a jQuery-like interface. This project models its selector engine and proves
properties of the model. The engine has four parts:

- **Tokenizer and compiler (search.c).** A table-driven tokenizer (`nextToken`)
  reads a selector. A recursive-descent compiler (`parseSelector`,
  `parseAttrib`, `xQSearchExpr_alloc_init`) turns it into a singly linked chain
  of steps. Each step is an operation of traverse.c with its arguments.
- **Evaluator (search.c).** `xQSearchExpr_eval` runs a chain from one node. It
  fans out over the results of each step through a temporary node list.
- **Axis operations (traverse.c).** They find descendants, children and the
  next sibling by name, and filter by attribute value or by name. Each one
  appends to an output node list.
- **Node list (nodelist.c, libxq.h).** A growable buffer of node pointers with
  `init`, `grow`, `insert`, `push`, `remove` and `assign`.
- **The xQ object (xq.c).** It holds a document and a context node list;
  `xQ_find` replaces the context by what a selector finds from it.

The XML document is an immutable arena (`XmlTree`). A node pointer is an index
into the arena, so node identity survives in every list. libxml2's accessors
(`xmlGetProp`, `xmlNextElementSibling`, `xmlStrcmp`) become pure functions over
the arena.

The imperative C code stays imperative here:

- `NodeList` and `XQ` are classes whose methods update their fields in place.
- The traverse.c operations, the evaluator, the tokenizer and the parse
  routines are methods with loops.
- Each method is proved against a specification function: `Descendants`,
  `Evaluate`, `Lex` and `Selector`/`Compile`.
- The lemmas state the promised properties about those functions.

Two independent definitions back the compiler and the evaluator:

- a grammar of selectors (`SearchGrammar`), with a round trip from rendered
  selectors through the compiler;
- a set-at-a-time `Pipeline`, shown equal to the node-at-a-time `Evaluate`.

Files and modules:

| file | module | what |
|---|---|---|
| libxq.dfy | LibXQ | status codes, Option/Outcome, prefix lemmas |
| xml_tree.dfy | XmlTree | document arena and libxml2 accessors |
| nodelist.dfy | NodeLists | class NodeList, the append predicate, the as-written node list code |
| traverse.dfy | Traverse | reference functions and methods for the axis operations |
| search_chars.dfy | SearchChars | the character-class table |
| search_tokens.dfy | SearchTokens | nextToken |
| search_expr.dfy | SearchExprs | steps and chains, expressionTail, xmlstrpos |
| search_compile.dfy | SearchCompile | parseSelector, parseAttrib, alloc_init |
| search_grammar.dfy, search_layout.dfy, search_reading.dfy, search_roundtrip.dfy | SearchGrammar, SearchLayout, SearchReading, SearchRoundTrip | selector grammar and the compile round trip |
| search_cases.dfy | SearchCases | the selectors of tests/check_search.c and the error cases |
| search_eval.dfy | SearchEval | xQSearchExpr_eval and the pipeline reading of a chain |
| xq.dfy | Xq | class XQ: xQ_init, xQ_length, xQ_find |

Where the code and its test suite or documentation disagree, the model
follows the code, with one exception:

- A `>` with nothing after it (search.c:344-360) is read as a syntax error.
  The code lets the XQ_NO_TOKEN that follows it fall through to XQ_OK, so `>`
  compiles to the copy step and `e >` compiles as `e` does
  (tests/check_search.c:336-339 expects an error). `SearchCompile.Selector`
  and `Compile` take a `Dialect`: `AsWritten` is the code, `Intended` refuses
  the trailing `>`. `SearchCompile.ParseSelector`, `SearchCompile.AllocInit`
  and `Xq.XQ.Find` compute the `Intended` reading, so the model's `xQ_find`
  answers `e >` with XQ_OUT_OF_MEMORY where the code evaluates `e`. The
  Findings table below gives both halves.

Apart from that:

- Descendant search recurses only through element nodes (traverse.c:21-28).
- `*`, `+` and `:` are identifier characters (search.c:101, 102, 117). So
  `ns:elem`, `*` and `+` are element names, not namespaces, wildcards or
  combinators. The cases in `SearchCases` state what the compiler makes of them,
  including that a lone `+` compiles (tests/check_search.c:331-334 expects an
  error).
- The step constructors set `argc = 1` (search.c:497, 526), while the test
  suite expects 2. The model has no argc; each `SearchExprs.Operation`
  constructor carries the argv strings its operation reads.
- libxq.h:15-19 lists only three status codes. The compiler also returns
  `XQ_INVALID_SEL_UNTERMINATED_STR`, `XQ_INVALID_SEL_UNEXPECTED_TOKEN` and
  `XQ_NO_TOKEN`, so `LibXQ.StatusCode` has six.
- xq.c:189 calls `xQSearchExpr_alloc_init(selector)` with one argument and
  treats a null result as out of memory. search.c:297 takes an out-pointer and
  returns a status. The model follows xq.c: a selector that does not compile
  makes `xQ_find` return `XQ_OUT_OF_MEMORY`.

## Model

| member | source | states |
|---|---|---|
| NodeLists.NodeList.constructor | nodelist.c:43-45 | a zeroed list: no buffer, no capacity, no entries |
| NodeLists.NodeList.Init | nodelist.c:40-55 | the list is empty. On XQ_OK the capacity is the requested size; otherwise the status is XQ_OUT_OF_MEMORY and there is no buffer. size <= capacity holds |
| NodeLists.NodeList.Grow | nodelist.c:76-99 | contents are never changed. It is a no-op with XQ_OK when the capacity already suffices. On XQ_OK the capacity covers the requirement. A real growth gives at least 8, quadruples a capacity of 8 or more, and keeps the old buffer as a prefix. On XQ_OUT_OF_MEMORY the buffer is untouched |
| NodeLists.NodeList.Insert | nodelist.c:106-125 | XQ_ARGUMENT_OUT_OF_BOUNDS iff atIdx > size. With room it always succeeds. On XQ_OK the node is at atIdx, the entries before are unchanged and those after are shifted up by one. On any error the contents are unchanged |
| NodeLists.NodeList.Place | nodelist.c:118-122 | the shift and store of insert: the contents become the prefix, then the node, then the rest, in the same buffer |
| NodeLists.NodeList.Push | libxq.h:32 | push is insert at the end. On XQ_OK the node is appended; otherwise nothing changes and the status is XQ_OUT_OF_MEMORY. With room it succeeds |
| NodeLists.NodeList.Remove | nodelist.c:132-144 | XQ_ARGUMENT_OUT_OF_BOUNDS iff fromIdx >= size or fromIdx + count > size, and then nothing changes. On XQ_OK the contents are the old ones with [fromIdx, fromIdx + count) cut out |
| NodeLists.NodeList.Assign | nodelist.c:151-163 | on XQ_OK the list holds exactly the source's entries. The source list is unchanged, even when it is the same list. With enough capacity it always succeeds. On XQ_OUT_OF_MEMORY the contents are unchanged |
| NodeLists.GrowLoopAsWritten | nodelist.c:83-86 | the capacity loop as written, when growth is needed from a capacity of 8 or more, never exits and never changes the capacity; from below 8 it exits after one pass when 8 suffices, and never exits, stuck at 8, when more than 8 is needed |
| NodeLists.InsertWithRoomAsWritten | nodelist.c:106-125 | insert as written with room in the buffer: XQ_ARGUMENT_OUT_OF_BOUNDS past the end; with an uninitialised status other than XQ_OK it returns that status and inserts nothing; only when the slot happens to hold XQ_OK does it do what the corrected insert does: the node at atIdx, the entries before it and after it kept, within the capacity |
| NodeLists.InsertAsWrittenRefusesWithRoom | nodelist.c:107-116 | a push onto an empty list with room for eight fails when the uninitialised status holds XQ_OUT_OF_MEMORY |
| NodeLists.RemoveAsWritten | nodelist.c:132-144 | remove as written, with the memmove of `count` entries: undefined (None) exactly when the bounds test passes, entries remain behind the gap and `endIdx + count` exceeds the buffer; otherwise XQ_ARGUMENT_OUT_OF_BOUNDS iff fromIdx >= size or fromIdx + count > size, leaving the list alone, and the buffer keeps its length and the size never grows |
| NodeLists.RemoveAsWrittenKeepsStaleEntry | nodelist.c:138-141 | removing the first of [10, 20, 30, 40] leaves [20, 20, 30], not [20, 30, 40] |
| NodeLists.RemoveAsWrittenReadsPastBuffer | nodelist.c:133-139 | on a full list of 8, `remove(1, 5)` passes the bounds test and its memmove reads past the buffer |
| NodeLists.RemoveAsWrittenAcceptsWrappedCount | nodelist.c:133-135 | with 64-bit wrap-around of fromIdx + count, removing 2^64 - 1 entries from index 1 of a two-entry list passes the bounds test |
| Traverse.Descendants | traverse.c:15-32 | every node it lists is an element of the tree |
| Traverse.DescendantsMembership | traverse.c:15-32 | a node is among the descendants of n iff it is an element reached from n through a chain of element children |
| Traverse.DescendantsByNameFiltered | traverse.c:40-59 | the name search lists exactly the element descendants, in the same preorder, that carry the name; it searches on beneath elements that do not match |
| Traverse.DescendantsByNameMembership | traverse.c:40-59 | a node is found by the name search iff it is an element below n with that name |
| Traverse.NamedElements | traverse.c:144-159 | filtering by name keeps at most as many nodes, all elements with that name |
| Traverse.NamedElementsMembership | traverse.c:144-159 | a node survives the name filter iff it was in the input and is an element with that name |
| Traverse.NamedElementsConcat | traverse.c:144-159 | filtering a concatenation is the concatenation of the filtered parts |
| Traverse.ChildrenByName | traverse.c:67-83 | every node listed is an element with that name |
| Traverse.ChildrenByNameMembership | traverse.c:67-83 | a node is found iff it is an element child of n (its parent is n) with that name, so never a deeper node |
| Traverse.ChildrenInTree | traverse.c:67-83 | every child of a node of the tree is a node of the tree |
| XmlTree.ChildPosition | traverse.c:91-102 | in a valid tree, whose children lists hold no node twice, the i-th child has its parent as parent and is found at position i, so the next element sibling is looked for after the node itself |
| Traverse.NextSiblingByName | traverse.c:91-102 | at most one node. It is found iff the node is an element whose next element sibling exists and carries the name. The node found has the same parent |
| Traverse.AttributeEquals | traverse.c:119-137 | the node or nothing; the node iff it is an element whose attribute is present with exactly that value. A missing attribute is a non-match, not an error |
| Traverse.SelfByName | traverse.c:144-159 | the node iff it is an element with that name |
| Traverse.FindDescendants | traverse.c:15-32 | appends the element descendants in preorder to the output list; on a failed push it stops with XQ_OUT_OF_MEMORY having appended a proper prefix of them |
| Traverse.VisitForDescendants | traverse.c:21-28 | the recursive visit of one child: appends that element and its element descendants, in preorder, up to the first failed push |
| Traverse.FindDescendantsByName | traverse.c:40-59 | appends the named element descendants in preorder, append-only, stopping at the first failed push |
| Traverse.VisitForDescendantsByName | traverse.c:46-56 | the recursive visit of one child for the name search: appends the named elements of that subtree in preorder |
| Traverse.FindChildrenByName | traverse.c:67-83 | appends the named element children in sibling order, append-only, stopping at the first failed push |
| Traverse.FindNextSiblingByName | traverse.c:91-102 | appends the next element sibling when it carries the name, and nothing otherwise |
| Traverse.AddToOutput | traverse.c:109-111 | appends the node itself |
| Traverse.FilterAttributeEquals | traverse.c:119-137 | appends the node iff its attribute equals the value |
| Traverse.FilterByName | traverse.c:144-159 | appends the node iff it is an element with the name |
| SearchChars.ClassTableMatchesGrammar | search.c:58-153 | the class table gives every character the class the grammar comment (search.c:34-49) asks for: NUL none; space, tab, CR and LF white space; the seven token characters tokens; every other character an identifier character |
| SearchChars.CharacterClasses | search.c:154-161 | the four class macros hold exactly for white space, token characters, identifier characters and characters that a quoted string copies as they are |
| SearchTokens.NulIndex | search.c:199-200 | xmlStrlen: the first NUL at or after the cursor, every character before it non-NUL |
| SearchTokens.SkipSpace | search.c:189-190 | the cursor after the white space, at a character that is not white space |
| SearchTokens.SkipSpaceSpan | search.c:189-190 | every character skipped is white space |
| SearchTokens.IdentEnd | search.c:244-247 | the end of the identifier run, at a character that is not an identifier character |
| SearchTokens.ScanString | search.c:196-236 | a quoted string either ends with the closing quote just behind the cursor, or is XQ_INVALID_SEL_UNTERMINATED_STR at the NUL |
| SearchTokens.Lex | search.c:180-257 | nextToken returns XQ_OK, an unterminated string or XQ_NO_TOKEN. XQ_OK strictly advances the cursor, and an IDENT or TOKEN is non-empty. A failure yields no token |
| SearchTokens.NextToken | search.c:180-257 | the loops of nextToken compute exactly the reference tokenizer Lex from the token's cursor |
| SearchTokens.ReadString | search.c:193-236 | the string branch, copying into a buffer of xmlStrlen bytes, gives exactly ScanString |
| SearchTokens.CopyEscapeOrQuote | search.c:209-230 | one step at a backslash or quote: it either closes the string with the scanned result or keeps the scan state |
| SearchTokens.CopyUnquoted | search.c:204-207 | copies the run of plain characters and keeps the scan state |
| SearchTokens.LexNoTokenIffOnlySpace | search.c:249-251 | XQ_NO_TOKEN iff nothing but white space remains |
| SearchTokens.LexTokensAndIdents | search.c:239-247 | a one-character TOKEN iff the next character is `= > [ \ ]`; an IDENT iff it is an identifier character, and the IDENT is the maximal run of identifier characters |
| SearchTokens.LexSkipsSpace | search.c:189-190 | leading white space does not change the token read |
| SearchTokens.LexAtEnd | search.c:249-251 | at the end of the selector the result is XQ_NO_TOKEN |
| SearchTokens.LexIdent | search.c:244-247 | an identifier followed by a non-identifier character is read whole as one IDENT |
| SearchTokens.LexPunct | search.c:239-241 | each token character other than a quote is read as a one-character TOKEN |
| SearchTokens.EscapePlain | search.c:204-207 | a value with no backslash and no quote is written unescaped |
| SearchTokens.ScanEscaped | search.c:209-230 | scanning an escaped value up to its closing quote gives back the value: the backslash before a quote or backslash is dropped, any other character is kept, and the string ends at the first unescaped quote |
| SearchTokens.LexQuoted | search.c:196-236 | a quoted, escaped value is read back as a STRING token holding the value |
| SearchTokens.CharValue | search.c:208-221 | the copy rules for one character of a string body: a bare character is kept, a backslash before a backslash or either quote is dropped and that character kept, a backslash before any other character is kept with it |
| SearchTokens.ScanChar | search.c:205-221 | the string loop moves past one written body character and copies exactly its value |
| SearchTokens.ScanWritten | search.c:204-232 | any body a writer may produce, with a backslash before any character it likes, followed by the closing quote, scans to the value the copy rules give it and ends just after that quote |
| SearchTokens.LexWritten | search.c:196-236 | nextToken reads any such written body between quotes as a STRING token holding its value, whatever follows |
| SearchTokens.BackslashCopyRules | search.c:208-216 | `"a\xb"` reads as `a\xb` (backslash kept before a plain character) and `"\'"` reads as `'` (backslash dropped before the other quote) |
| SearchTokens.ScanUnterminated | search.c:224-236 | with no closing quote before the end the result is XQ_INVALID_SEL_UNTERMINATED_STR |
| SearchTokens.LexUnterminated | search.c:224-236 | an opening quote that is never matched gives XQ_INVALID_SEL_UNTERMINATED_STR |
| SearchTokens.NotQuoteEnd | search.c:205-206 | the inner copy loop stops at the first character that is not a plain string character, having run over plain ones only |
| SearchTokens.StringLoopAsWritten | search.c:204-217 | the string loop as written, when the plain characters from the cursor on lead to a backslash just before the NUL, parks the cursor on that backslash after its first pass and never exits |
| SearchTokens.StringLoopReachesTrailingBackslash | search.c:204-217 | in `'a\`, the loop enters on `a` and its inner copy loop stops on the backslash just before the NUL, the stuck state above |
| SearchTokens.TrailingBackslashIsUnterminated | search.c:209-217 | the corrected tokenizer reports `'a\` as XQ_INVALID_SEL_UNTERMINATED_STR |
| SearchExprs.Steps | search.c:319-326 | a chain lists its operations first to last, starting with its own operation; a chain with no successor has one step |
| SearchExprs.FromSteps | search.c:344-370 | the chain built from a non-empty list of steps starts with the first and ends exactly when the list has one step |
| SearchExprs.StepsOfFromSteps | search.c:344-370 | building a chain from steps and listing its steps gives them back |
| SearchExprs.FromStepsOfSteps | search.c:344-370 | a chain is determined by its steps |
| SearchExprs.Tail | search.c:319-326 | the last step of a chain: the last operation, with no successor |
| SearchExprs.Link | search.c:355 | linking a chain behind another lists the first chain's steps then the second's |
| SearchExprs.ExpressionTail | search.c:319-326 | expressionTail returns null for an empty chain and the last step of a non-empty one |
| SearchExprs.StrPos | search.c:167-175 | xmlstrpos returns -1 iff the needle is not before the NUL; otherwise the index of its first occurrence |
| SearchCompile.NoTokenIsOk | search.c:341 | XQ_NO_TOKEN becomes XQ_OK and every other status passes through |
| SearchCompile.Tokens | search.c:180-257 | the token read from every cursor of the selector; each XQ_OK token moves the cursor forward |
| SearchCompile.Attribs | search.c:388-459 | the attribute tests leave the cursor within the selector |
| SearchCompile.AttribsStatus | search.c:388-459 | attribute tests end with XQ_OK, XQ_NO_TOKEN, an unterminated string or an unexpected token, and every step they make is an attribute filter |
| SearchCompile.SelectorShape | search.c:335-379 | a selector's result is XQ_OK, an unterminated string or an unexpected token (never XQ_NO_TOKEN). Its steps start with an element step, and every step is an element step or an attribute filter |
| SearchCompile.RestShape | search.c:344-370 | after an element step the steps start with that step and hold only element steps and attribute filters |
| SearchCompile.Compile | search.c:297-314 | the compiler fails only with an unterminated string or an unexpected token; on success the chain is a single copy step, or an element step followed by element steps and attribute filters |
| SearchCompile.ParseAttrib | search.c:388-459 | parseAttrib, calling nextToken, computes exactly the status, steps and cursor of the reference Attribs |
| SearchCompile.ParseSelector | search.c:335-379 | parseSelector, calling nextToken and recursing, computes exactly the reference Selector in the corrected reading, which refuses a `>` with nothing after it, alone or after a compound |
| SearchCompile.AllocInit | search.c:297-314 | XQ_OK with the chain iff the selector compiles in the corrected reading (a trailing `>`, as in `>` or `e >`, is refused); otherwise no chain and the compiler's error status |
| SearchCompile.DanglingAfterFailure | search.c:305-311 | as written, the out-pointer left non-null (and freed) by a failed alloc_init implies that the selector does not compile |
| SearchCompile.FailureAfterNameDangles | search.c:305-311 | when the first token is an element name, parseSelector has stored a step, so any failure leaves the out-pointer dangling |
| SearchCases.MissingEqualsDangles | search.c:305-311 | `elem[foo` fails and, as written, leaves the out-pointer dangling where tests/check_search.c:347-349 expects null |
| SearchRoundTrip.CompileRender | search.c:34-49 | every selector of the grammar, written out, compiles to the chain of its steps, in order, for either reading of a lone `>` |
| SearchRoundTrip.SelectorParse | search.c:335-379 | the tokens of a rendered selector parse to exactly its steps |
| SearchRoundTrip.TestsParse | search.c:388-459 | the tokens of rendered attribute tests parse to exactly their filter steps |
| SearchReading.ReadSelector | search.c:180-257 | nextToken reads a rendered selector as the grammar's token sequence |
| SearchCases.BlankSelectorIsCopy | search.c:307-308 | in the corrected reading (a `>` with nothing after it refused), a selector compiles to a single copy step with no successor iff it holds nothing but white space |
| SearchCases.EmptySelector | tests/check_search.c:14-27 | the empty selector compiles to the single copy step |
| SearchCases.FirstTokenRefused | search.c:373-375 | a selector that starts with a string or a token other than `>` fails with an unexpected token; one whose first string is unterminated fails with an unterminated string |
| SearchCases.ChildThenNonIdent | search.c:344-360 | after `>`, a token other than an element name gives XQ_INVALID_SEL_UNEXPECTED_TOKEN with no step, an unterminated string gives XQ_INVALID_SEL_UNTERMINATED_STR, and the end of the selector links no step and is XQ_OK as written, an unexpected token in the corrected reading |
| SearchCases.ChildThenRefused | search.c:344-360 | a selector starting with `>` and then anything but an element name fails: with an unexpected token, or with an unterminated string when the tokenizer reports one |
| SearchCases.ChildThenTestOrString | search.c:344-360 | `> [` fails with an unexpected token and `> 'x` with an unterminated string |
| SearchCases.CompoundThenChildThenEquals | search.c:344-360 | `e > =` fails with an unexpected token: after a compound, too, `>` needs a name |
| SearchCases.EmptySelectorIsBlank | search.c:339-341 | in the corrected reading (a `>` with nothing after it refused), parseSelector succeeds without linking a step iff its first token is XQ_NO_TOKEN |
| SearchCases.LoneChildAsWritten | search.c:344-360 | as written, `>` alone compiles to the copy step although it is not blank |
| SearchCases.LoneChildIntended | search.c:344-360 | with the evident fix, `>` alone fails with an unexpected token |
| SearchCases.TrailingChildAsWritten | search.c:344-360 | as written, `e >` compiles to the same chain as `e`: one descendant step for `e` |
| SearchCases.TrailingChildIntended | search.c:344-360 | with the evident fix, `e >` fails with an unexpected token |
| SearchCases.CompilesAs | search.c:34-49 | a well-formed selector that renders as s compiles to the chain of its steps |
| SearchCases.OneName | search.c:363-364 | a bare identifier compiles to one descendant-by-name step |
| SearchCases.TwoNames | search.c:363-370 | two identifiers compile to two descendant-by-name steps, in order |
| SearchCases.ThreeNames | search.c:363-370 | three identifiers compile to three descendant-by-name steps, in order |
| SearchCases.NameThenChild | search.c:344-355 | `a > b` compiles to a descendant step for a then a child step for b |
| SearchCases.NameWithTests | search.c:364-367 | each attribute test becomes an attribute filter placed right after its element step |
| SearchCases.TestedNameThenTwoNames | search.c:364-370 | a tested name followed by two names compiles to its element step, its filters, then the two steps |
| SearchCases.SingleSelector | tests/check_search.c:32-48 | `elem` compiles to one descendant step |
| SearchCases.NamespaceSelector | tests/check_search.c:53-69 | `ns:elem` compiles to one descendant step for the name `ns:elem` (no namespace support) |
| SearchCases.DualSelector | tests/check_search.c:74-96 | `elem1 elem2` compiles to two descendant steps in order |
| SearchCases.DualNamespaceSelector | tests/check_search.c:101-123 | `nsA:elem1 nsB:elem2` compiles to two descendant steps with the prefixed names |
| SearchCases.WildcardSelector | tests/check_search.c:128-148 | `* elem` compiles to a descendant step for the name `*` then one for `elem` |
| SearchCases.PlusCombinator | tests/check_search.c:153-175 | `elem1 + elem2` compiles to three descendant steps, the middle one for the name `+` |
| SearchCases.ChildCombinator | tests/check_search.c:180-202 | `elem1 > elem2` compiles to a descendant step then a child step |
| SearchCases.SingleAttribute | tests/check_search.c:207-249 | `elem1[attr="value"]` and `elem1[attr=value]` compile to a descendant step then one attribute filter |
| SearchCases.SingleAttributeCombinator | tests/check_search.c:254-283 | `elem1[attr="value"] + elem2` compiles to the descendant step, the filter, and descendant steps for `+` and `elem2` |
| SearchCases.DualAttribute | tests/check_search.c:288-316 | two attribute tests give two filters in selector order |
| SearchCases.StringFirst | search.c:373-375 | a selector starting with a quoted string fails with an unexpected token |
| SearchCases.EqualsFirst | search.c:373-375 | a selector starting with `=` fails with an unexpected token |
| SearchCases.TestRefused | search.c:366-370 | a failing attribute test fails the whole selector, with XQ_NO_TOKEN reported as an unexpected token |
| SearchCases.SelectorRefused | search.c:305-313 | a selector whose parse fails does not compile, with the same status |
| SearchCases.MissingEquals | search.c:413-443 | `e[a` with nothing after the name fails with an unexpected token |
| SearchCases.MissingValue | search.c:420-443 | `e[a=` with no value fails with an unexpected token |
| SearchCases.MissingClose | search.c:427-443 | `e[a=v` with no `]` fails with an unexpected token |
| SearchCases.BlankForEquals | search.c:413-418 | `e[a 'v']` (a string where `=` belongs) fails with an unexpected token |
| SearchCases.UnterminatedValue | search.c:420-422 | `e[a="v` with no closing quote fails with XQ_INVALID_SEL_UNTERMINATED_STR |
| SearchCases.QuotedSelector | tests/check_search.c:326-329 | `'elem'` fails with an unexpected token |
| SearchCases.PlusAlone | tests/check_search.c:331-334 | `+` compiles, to a descendant step for the name `+` |
| SearchCases.EqualsSelector | tests/check_search.c:341-344 | `= elem` fails with an unexpected token |
| SearchCases.IncompleteAttribute | tests/check_search.c:346-357 | `elem[foo`, `elem[foo=` and `elem[foo=bar` each fail with an unexpected token |
| SearchCases.InvalidAttribute | tests/check_search.c:359-362 | `elem[foo 'bar']` fails with an unexpected token |
| SearchCases.UnterminatedString | tests/check_search.c:364-367 | `elem[foo="bar]` fails with XQ_INVALID_SEL_UNTERMINATED_STR |
| SearchEval.OpResult | search.c:602-606 | what one step appends for a node; the copy step appends exactly the node |
| SearchEval.Evaluate | search.c:597-613 | what a chain appends from one node, every node of it in the tree |
| SearchEval.EvaluateAll | search.c:608-609 | the chain from each node of a list, concatenated in list order |
| SearchEval.EvaluateAllConcat | search.c:608-609 | evaluating over a concatenation is the concatenation of the evaluations |
| SearchEval.EvaluateAllPrefix | search.c:608-609 | evaluating over a prefix gives a prefix of the result |
| SearchEval.EvaluateAllCopy | traverse.c:109-111 | the single copy step over a list gives back the list |
| SearchEval.Apply | search.c:602-606 | calling a step's operation appends exactly that operation's result, append-only, stopping at the first failed push |
| SearchEval.Eval | search.c:597-613 | eval appends, to a list it only grows, the chain's result from the node on XQ_OK. On failure (XQ_OUT_OF_MEMORY) it appends a prefix of it |
| SearchEval.EvalEach | search.c:608-609 | the fan-out loop appends the rest of the chain for each result of the first step, in order, and stops at the first failure |
| SearchEval.Stage | search.c:608-609 | one step over a whole list of nodes, every result a node of the tree |
| SearchEval.StageMembership | search.c:608-609 | a node is in a step's output over a list iff the step yields it for some node of the list |
| SearchEval.PipelineConcat | search.c:608-609 | running steps over a concatenation is the concatenation of running them over each part |
| SearchEval.PipelineOfNothing | xq.c:186-187 | running steps over no nodes gives no nodes |
| SearchEval.EvaluateIsPipeline | search.c:597-613 | the node-at-a-time fan-out of eval equals running the steps one after the other, each over the whole output of the one before |
| SearchEval.EvaluateAllPipeline | search.c:597-613 | the same over a list of start nodes |
| Xq.Found | xq.c:180-203 | the context xQ_find produces when no allocation fails, compiling in the corrected reading (a trailing `>` is refused, so `e >` gives no context); every node of it is in the tree |
| Xq.XQ.Init | xq.c:133-136 | no document and an empty context. On XQ_OK the context has capacity 8; otherwise the status is XQ_OUT_OF_MEMORY |
| Xq.XQ.Length | xq.c:156-158 | the number of nodes in the context |
| Xq.XQ.Find | xq.c:180-203 | an empty context gives XQ_OK and is left alone. A selector that does not compile in the corrected reading (including `>` and `e >`, which the code accepts) gives XQ_OUT_OF_MEMORY. On XQ_OK the context becomes the chain's results from each old context node, concatenated in context order. On failure the context is unchanged and the document is never touched |
| Xq.XQ.EvalContext | xq.c:193-196 | the loop of xQ_find fills a fresh list with the chain's results over the context, in order, up to the first failure |
| Xq.FindBlankKeeps | xq.c:193-199 | xQ_find with an empty or blank selector keeps the same nodes in the same order |
| Xq.FindRendered | xq.c:180-203 | xQ_find with a selector of the grammar runs its steps one after the other over the whole context |

## Left out

- Xq.XQ.Find: computes the corrected reading of a `>` with nothing after it; it does not promise what the code does with `>` or `e >` (the copy step, and the chain of `e`), which `SearchCompile.Compile(AsWritten, ·)` and the Findings rows state.
- Xq.Found: computes the corrected reading of a `>` with nothing after it; it does not promise what the code does with `>` or `e >` (the copy step, and the chain of `e`), which `SearchCompile.Compile(AsWritten, ·)` and the Findings rows state.
- SearchCompile.AllocInit: computes the corrected reading of a `>` with nothing after it; it does not promise what the code does with `>` or `e >` (the copy step, and the chain of `e`), which `SearchCompile.Compile(AsWritten, ·)` and the Findings rows state.
- SearchCompile.ParseSelector: computes the corrected reading of a `>` with nothing after it; it does not promise what the code does with `>` or `e >` (the copy step, and the chain of `e`), which `SearchCompile.Compile(AsWritten, ·)` and the Findings rows state.
- SearchCases.BlankSelectorIsCopy: the iff is stated for the corrected reading; as written, `>` also compiles to the copy step without being blank (SearchCases.LoneChildAsWritten), so the "only if" half does not hold for the code.
- The libxml2 document is an immutable arena. Parsing (`xQ_alloc_initDoc`, `_File`, `_Memory`), `xQ_getText` and `xQ_free` (xq.c:40-172) are foreign calls into libxml2 and are not modelled.
- Xq.XQ.Find: the tree is a parameter, not tied to the `document` field, because xQ_find never reads the document.
- Null node pointers are not modelled: no path of the core produces one, so the null checks at traverse.c:17-19, 43-45 and 70-72 are not modelled either.
- Allocation failure is modelled only for the node list buffer (malloc/realloc in init and grow). The tokenizer's buffer, the step constructors and xmlStrdup (search.c:467-569) always succeed here.
- The step constructors' `argc` and the strdup'ed argument copies are not modelled; a step carries its arguments as values in its `SearchExprs.Operation`.
- `xQSearchExpr_free` (search.c:576-590), `xQNodeList_free` (nodelist.c:62-69) and `xQNodeList_alloc_init` only manage memory and are not modelled.
- The check at search.c:548 (`!self` where `!*self` is meant) only matters when malloc fails, which the step constructors do not do here.
- The commented-out debug printer `dumpAST` (search.c:261-287) is not modelled.
- NodeLists.NodeList.Grow: capacities are unbounded, so the overflow guard at nodelist.c:88-89 (XQ_ARGUMENT_OUT_OF_BOUNDS when the capacity would wrap) never fires.
- NodeLists.NodeList.Remove: indices are unbounded, so `fromIdx + count` does not wrap. The wrap of the code as written is the finding below.
- Xq.XQ.EvalContext: the loop counters of xQ_find and eval are `unsigned int`. Lists of 2^32 entries or more are not considered.
- Behaviour that appears only in the test suite is not modelled: namespaces, `addNamespace`, the `*` wildcard, the `+` combinator, and the script-level filter/children/parents operations. For `*`, `+` and `ns:` the model states what search.c does with them instead.
- The node.js binding layer (ext/, index.js) is not modelled.

## Findings

| source | as written | input that shows it | evidently intended | confidence | as-written member | corrected member |
|---|---|---|---|---|---|---|
| search.c:209-217 | at a backslash, the string loop advances only when the next character is not NUL | `'a\` (a backslash just before the end) loops forever | a backslash at the end is an unterminated string | not executed | SearchTokens.StringLoopAsWritten | SearchTokens.TrailingBackslashIsUnterminated |
| nodelist.c:86 | `newCapacity << 2;` throws its result away | pushing onto a full list of capacity 8 loops forever | `newCapacity <<= 2` | not executed | NodeLists.GrowLoopAsWritten | NodeLists.NodeList.Grow |
| nodelist.c:107-116 | `result` is read uninitialised when no growth is needed | a push onto an empty list with room for 8, when the stack slot holds XQ_OUT_OF_MEMORY | `result` starts as XQ_OK | not executed | NodeLists.InsertAsWrittenRefusesWithRoom | NodeLists.NodeList.Insert |
| nodelist.c:139 | memmove moves `count` entries | removing 1 entry at 0 from [10, 20, 30, 40] leaves [20, 20, 30] | move `size - endIdx` entries | not executed | NodeLists.RemoveAsWrittenKeepsStaleEntry | NodeLists.NodeList.Remove |
| nodelist.c:139 | the memmove reads `count` entries from `endIdx`, past the end of the buffer when `endIdx + count` exceeds the capacity | on a full list of 8 (capacity 8, size 8), `remove(1, 5)` reads entries 6 to 10 | move `size - endIdx` entries, which stay inside the list | not executed | NodeLists.RemoveAsWrittenReadsPastBuffer | NodeLists.NodeList.Remove |
| nodelist.c:133-135 | `fromIdx + count` is computed in unsigned long and may wrap | size 2, fromIdx 1, count 2^64 - 1 passes the bounds test | refuse any count above `size - fromIdx` | not executed | NodeLists.RemoveAsWrittenAcceptsWrappedCount | NodeLists.NodeList.Remove |
| search.c:344-360 | after `>`, XQ_NO_TOKEN falls through and becomes XQ_OK | `>` alone compiles to the copy step (tests/check_search.c:336-339 expects an error) | XQ_INVALID_SEL_UNEXPECTED_TOKEN for any `>` with nothing after it, alone or after a compound | not executed | SearchCases.LoneChildAsWritten | SearchCases.LoneChildIntended |
| search.c:344-360 | after `>`, XQ_NO_TOKEN falls through and becomes XQ_OK | `e >`, a `>` with nothing after it following a compound, compiles as `e` | XQ_INVALID_SEL_UNEXPECTED_TOKEN for any `>` with nothing after it, alone or after a compound | not executed | SearchCases.TrailingChildAsWritten | SearchCases.TrailingChildIntended |
| search.c:310-311 | on failure `*self` is freed but not reset to null | `elem[foo`: parseSelector has stored the step for `elem`, so the caller gets a dangling non-null pointer (tests/check_search.c:347-349 expects null) | set `*self` to null after freeing it | not executed | SearchCases.MissingEqualsDangles | SearchCompile.AllocInit |

=== FILE: libxq.dfy ===
/**
 * Status codes and small shared definitions of libxq (libxq.h).
 */
module LibXQ {

  /** The library's result codes. XQ_OK is zero; the last three are used by the
      selector compiler (search.c) and NoToken never leaves it. */
  datatype StatusCode =
    | Ok
    | OutOfMemory
    | ArgumentOutOfBounds
    | UnterminatedStr
    | UnexpectedToken
    | NoToken

  /** A nullable value: libxml2 and libxq use null pointers for "absent". */
  datatype Option<+T> = None | Some(value: T)

  /** Either a value or the status code of the failure that prevented it. */
  datatype Outcome<+T> = Success(value: T) | Failure(status: StatusCode)

  /** Width of C's `unsigned long` on the platforms libxq targets. */
  const ULONG_LIMIT: nat := 0x1_0000_0000_0000_0000

  /** `a <= b` on sequences is "a is a prefix of b"; these are the steps the
      append-only contracts of the traversal code need. */
  lemma PrefixTransitive<T>(a: seq<T>, b: seq<T>, c: seq<T>)
    requires a <= b && b <= c
    ensures a <= c
  {
    assert c[..|b|][..|a|] == c[..|a|];
  }

  lemma PrefixOfAppend<T>(a: seq<T>, b: seq<T>, c: seq<T>)
    requires a <= b
    ensures a <= b + c
  {
    assert (b + c)[..|a|] == b[..|a|];
  }

  lemma PrefixOfSelf<T>(a: seq<T>, c: seq<T>)
    ensures a <= a + c
  {
    assert (a + c)[..|a|] == a;
  }

  lemma StrictPrefixOfAppend<T>(a: seq<T>, b: seq<T>, c: seq<T>)
    requires a < b
    ensures a < b + c
  {
    assert (b + c)[..|a|] == b[..|a|];
  }

  lemma StrictPrefixOfExtension<T>(a: seq<T>, c: seq<T>)
    requires c != []
    ensures a < a + c
  {
    assert (a + c)[..|a|] == a;
  }

  lemma ConcatAssociative<T>(a: seq<T>, b: seq<T>, c: seq<T>)
    ensures a + b + c == a + (b + c)
  {
  }

  /** Moving the head of `v` to the end of `acc`. */
  lemma MoveHead<T>(acc: seq<T>, v: seq<T>)
    requires v != []
    ensures acc + v == (acc + [v[0]]) + v[1..]
  {
    assert v == [v[0]] + v[1..];
  }

  /** What follows a prefix `w` of `s[p..]`. */
  lemma Suffix<T>(s: seq<T>, p: nat, w: seq<T>, t: seq<T>)
    requires p <= |s| && s[p..] == w + t
    ensures p + |w| <= |s| && s[p + |w|..] == t
  {
    assert s[p + |w|..] == s[p..][|w|..];
  }

  /** A piece `w` of `s` at `p`. */
  lemma Piece<T>(s: seq<T>, p: nat, w: seq<T>, t: seq<T>)
    requires p <= |s| && s[p..] == w + t
    ensures p + |w| <= |s| && s[p..p + |w|] == w
  {
    assert s[p..p + |w|] == s[p..][..|w|];
  }
}

=== FILE: nodelist.dfy ===
/**
 * The growable node list of libxq (nodelist.c, and the xQNodeList struct and
 * xQNodeList_push macro of libxq.h).
 *
 * The list holds node ids; `list` is the malloc'ed buffer, its length is the
 * capacity, and `size` counts the entries in use. malloc and realloc may refuse
 * an allocation: the model lets every allocation fail, and the contracts say
 * what the list looks like when one does.
 */
module NodeLists {
  import opened LibXQ
  import opened XmlTree

  class NodeList {
    var list: array<NodeId>
    var size: nat
    ghost var Repr: set<object>

    /** The struct invariant: size <= capacity. */
    ghost predicate Valid()
      reads this, Repr
    {
      this in Repr && list in Repr && Repr == {this, list} && size <= list.Length
    }

    function Capacity(): nat
      reads this
    {
      list.Length
    }

    /** The entries in use, in order. */
    ghost function Contents(): seq<NodeId>
      reads this, Repr
      requires Valid()
    {
      list[..size]
    }

    /** A zeroed struct: no buffer, no capacity, no entries. */
    constructor ()
      ensures Valid() && fresh(Repr)
      ensures Contents() == [] && Capacity() == 0
    {
      list := new NodeId[0];
      size := 0;
      Repr := {this, list};
    }

    /** xQNodeList_init: an empty list with room for `capacity` entries. */
    method Init(capacity: nat) returns (status: StatusCode)
      requires Valid()
      modifies Repr
      ensures Valid() && fresh(Repr - old(Repr))
      ensures Contents() == []
      ensures status == Ok ==> Capacity() == capacity
      ensures status != Ok ==> status == OutOfMemory && Capacity() == 0
    {
      list := new NodeId[0];
      size := 0;
      Repr := {this, list};
      var granted: bool := *;  // malloc may refuse
      if !granted {
        return OutOfMemory;
      }
      list := new NodeId[capacity];
      Repr := {this, list};
      status := Ok;
    }

    /** xQNodeList_grow: make room for at least `required` entries, growing
        geometrically from a minimum of 8. The loop multiplies by four, which is
        what the discarded `newCapacity << 2` at nodelist.c:86 evidently meant. */
    method Grow(required: nat) returns (status: StatusCode)
      requires Valid()
      modifies Repr
      ensures Valid() && fresh(Repr - old(Repr))
      ensures size == old(size) && Contents() == old(Contents())
      ensures old(Capacity()) >= required ==> status == Ok && list == old(list)
      ensures status == Ok || status == OutOfMemory
      ensures status == Ok ==> Capacity() >= required
      ensures status == Ok && old(Capacity()) < required ==>
        && Capacity() >= 8
        && (old(Capacity()) >= 8 ==> Capacity() >= 4 * old(Capacity()))
        && (Capacity() == 8 || Capacity() < 4 * required)
        && list[..old(Capacity())] == old(list[..])
      ensures status != Ok ==> list == old(list)
    {
      if list.Length >= required {
        return Ok;
      }
      var start := if list.Length < 8 then 8 else list.Length;
      var newCapacity := start;
      while newCapacity < required
        invariant newCapacity >= start
        invariant list.Length >= 8 ==> newCapacity == list.Length || newCapacity >= 4 * list.Length
        invariant newCapacity == start || newCapacity < 4 * required
        decreases required - newCapacity
      {
        newCapacity := newCapacity * 4;
      }
      var granted: bool := *;  // realloc may refuse
      if !granted {
        return OutOfMemory;
      }
      var buff := new NodeId[newCapacity];
      forall i | 0 <= i < list.Length {
        buff[i] := list[i];
      }
      list := buff;
      Repr := {this, list};
      status := Ok;
    }

    /** xQNodeList_insert: put `node` at `atIdx`, shifting the entries from
        there on up by one. The status starts out as XQ_OK, which is what the
        uninitialised `result` at nodelist.c:107 evidently meant. */
    method Insert(node: NodeId, atIdx: nat) returns (status: StatusCode)
      requires Valid()
      modifies Repr
      ensures Valid() && fresh(Repr - old(Repr))
      ensures status == Ok || status == OutOfMemory || status == ArgumentOutOfBounds
      ensures atIdx > old(size) <==> status == ArgumentOutOfBounds
      ensures atIdx <= old(size) && old(size) < old(Capacity()) ==> status == Ok
      ensures status == Ok ==>
        atIdx <= old(size) && Contents() == old(Contents())[..atIdx] + [node] + old(Contents())[atIdx..]
      ensures status != Ok ==> Contents() == old(Contents())
    {
      if atIdx > size {
        return ArgumentOutOfBounds;
      }
      status := Ok;
      if list.Length < size + 1 {
        status := Grow(size + 1);
      }
      if status == Ok {
        Place(node, atIdx);
      }
    }

    /** The last step of xQNodeList_insert, once there is room: move the
        entries from `atIdx` on up by one (the memmove) and store `node` in the
        gap. */
    method Place(node: NodeId, atIdx: nat)
      requires Valid() && atIdx <= size < Capacity()
      modifies this, list
      ensures Valid() && Repr == old(Repr) && list == old(list)
      ensures Contents() == old(Contents())[..atIdx] + [node] + old(Contents())[atIdx..]
    {
      if atIdx != size {
        forall j | atIdx < j <= size {
          list[j] := list[j - 1];
        }
      }
      list[atIdx] := node;
      size := size + 1;
    }

    /** xQNodeList_push (libxq.h): insert at the end. */
    method Push(node: NodeId) returns (status: StatusCode)
      requires Valid()
      modifies Repr
      ensures Valid() && fresh(Repr - old(Repr))
      ensures status == Ok || status == OutOfMemory
      ensures old(size) < old(Capacity()) ==> status == Ok
      ensures status == Ok ==> Contents() == old(Contents()) + [node]
      ensures status != Ok ==> Contents() == old(Contents())
      ensures Appended(old(Contents()), Contents(), [node], status)
    {
      status := Insert(node, size);
      PrefixOfSelf(old(Contents()), [node]);
      StrictPrefixOfExtension(old(Contents()), [node]);
    }

    /** xQNodeList_remove: drop `count` entries starting at `fromIdx`, moving
        the `size - endIdx` entries behind them down. */
    method Remove(fromIdx: nat, count: nat) returns (status: StatusCode)
      requires Valid()
      modifies Repr
      ensures Valid() && Repr == old(Repr) && list == old(list)
      ensures status == Ok || status == ArgumentOutOfBounds
      ensures fromIdx >= old(size) || fromIdx + count > old(size) <==> status == ArgumentOutOfBounds
      ensures status == Ok ==>
        Contents() == old(Contents())[..fromIdx] + old(Contents())[fromIdx + count..]
      ensures status != Ok ==> Contents() == old(Contents())
    {
      var endIdx := fromIdx + count;
      if fromIdx >= size || endIdx > size {
        return ArgumentOutOfBounds;
      }
      if endIdx < size {
        forall j | fromIdx <= j < size - count {
          list[j] := list[j + count];
        }
      }
      size := size - count;
      status := Ok;
    }

    /** xQNodeList_assign: make this list a copy of `from`, growing first if
        needed; `from` may be this very list. */
    method Assign(from: NodeList) returns (status: StatusCode)
      requires Valid() && from.Valid()
      requires from == this || from.Repr !! Repr
      modifies Repr
      ensures Valid() && fresh(Repr - old(Repr))
      ensures from.Valid() && from.Contents() == old(from.Contents())
      ensures status == Ok || status == OutOfMemory
      ensures old(from.size) <= old(Capacity()) ==> status == Ok
      ensures status == Ok ==> Contents() == old(from.Contents())
      ensures status != Ok ==> Contents() == old(Contents())
    {
      status := Ok;
      if list.Length < from.size {
        status := Grow(from.size);
      }
      if status == Ok {
        forall i | 0 <= i < from.size {
          list[i] := from.list[i];
        }
        size := from.size;
      }
    }
  }

  /** The outcome of an operation that pushes the nodes `r` onto a list, one
      at a time, and stops at the first push that fails: the status is XQ_OK or
      XQ_OUT_OF_MEMORY, the list only grows, on XQ_OK it gained exactly `r`, and
      on failure it gained a proper prefix of `r`. */
  ghost predicate Appended(before: seq<NodeId>, after: seq<NodeId>, r: seq<NodeId>, status: StatusCode) {
    && (status == Ok || status == OutOfMemory)
    && before <= after
    && (status == Ok ==> after == before + r)
    && (status != Ok ==> after < before + r)
  }

  /** Doing nothing appends nothing. */
  lemma AppendedNothing(before: seq<NodeId>)
    ensures Appended(before, before, [], Ok)
  {
    assert before + [] == before;
  }

  /** Appending `r1` and then, if that succeeded, `r2` appends `r1 + r2`. */
  lemma AppendedThen(b0: seq<NodeId>, b1: seq<NodeId>, b2: seq<NodeId>, r1: seq<NodeId>, r2: seq<NodeId>,
                     s1: StatusCode, s2: StatusCode)
    requires Appended(b0, b1, r1, s1)
    requires s1 == Ok ==> Appended(b1, b2, r2, s2)
    requires s1 != Ok ==> b2 == b1 && s2 == s1
    ensures Appended(b0, b2, r1 + r2, s2)
  {
    if s1 == Ok {
      PrefixOfSelf(b0, r1);
      PrefixTransitive(b0, b1, b2);
      assert b0 + r1 + r2 == b0 + (r1 + r2);
      if s2 != Ok {
        assert b2 < b0 + (r1 + r2);
      }
    } else {
      StrictPrefixOfAppend(b1, b0 + r1, r2);
      assert b0 + r1 + r2 == b0 + (r1 + r2);
    }
  }

  /** A failure part-way through `r` is a failure part-way through any `r'`
      that `r` begins. */
  lemma AppendedWithin(before: seq<NodeId>, after: seq<NodeId>, r: seq<NodeId>, r': seq<NodeId>, status: StatusCode)
    requires Appended(before, after, r, status) && status != Ok && r <= r'
    ensures Appended(before, after, r', status)
  {
    assert (before + r')[..|before + r|] == before + r;
  }

  /** The capacity loop of xQNodeList_grow as written (nodelist.c:83-86), run
      for at most `passes` passes; `exited` tells whether its guard failed. The
      statement `newCapacity << 2;` computes a value and throws it away, so a
      pass leaves newCapacity unchanged. */
  method GrowLoopAsWritten(capacity: nat, required: nat, passes: nat) returns (newCapacity: nat, exited: bool)
    requires capacity < required
    ensures capacity >= 8 ==> !exited && newCapacity == capacity
    ensures capacity < 8 && required <= 8 && passes > 0 ==> exited
    ensures capacity < 8 && required > 8 ==> !exited && newCapacity == 8
  {
    newCapacity := if capacity < 8 then 8 else capacity;
    exited := false;
    var pass := 0;
    while pass < passes && !exited
      invariant pass <= passes
      invariant capacity >= 8 ==> !exited
      invariant capacity < 8 && required <= 8 && pass > 0 ==> exited
      invariant capacity < 8 && required > 8 ==> !exited && newCapacity == 8
    {
      if !(newCapacity < required && newCapacity >= capacity) {
        exited := true;
      }
      pass := pass + 1;
    }
  }

  /** xQNodeList_insert as written (nodelist.c:106-125) when the buffer has
      room: `result` is never assigned on that path, so the call returns
      whatever the stack slot held (`uninitialised`) and inserts only if that
      happened to be XQ_OK. */
  function InsertWithRoomAsWritten(items: seq<NodeId>, capacity: nat, node: NodeId, atIdx: nat,
                                   uninitialised: StatusCode): (r: (StatusCode, seq<NodeId>))
    requires |items| < capacity
    ensures atIdx > |items| ==> r == (ArgumentOutOfBounds, items)
    ensures atIdx <= |items| && uninitialised != Ok ==> r == (uninitialised, items)
    ensures r.0 == Ok && uninitialised == Ok <==> atIdx <= |items| && uninitialised == Ok
    ensures r.0 == Ok && uninitialised == Ok ==>
      |r.1| == |items| + 1 <= capacity && r.1[atIdx] == node &&
      r.1[..atIdx] == items[..atIdx] && r.1[atIdx + 1..] == items[atIdx..]
  {
    if atIdx > |items| then (ArgumentOutOfBounds, items)
    else if uninitialised != Ok then (uninitialised, items)
    else (Ok, items[..atIdx] + [node] + items[atIdx..])
  }

  /** With room for eight entries, pushing onto an empty list fails when the
      stack slot happens to hold XQ_OUT_OF_MEMORY. */
  lemma InsertAsWrittenRefusesWithRoom()
    ensures InsertWithRoomAsWritten([], 8, 1, 0, OutOfMemory) == (OutOfMemory, [])
  {
  }

  /** xQNodeList_remove as written (nodelist.c:132-144) on the whole buffer:
      the memmove at line 139 moves `count` entries instead of `size - endIdx`.
      Gives the status, the buffer afterwards and the new size, or None when
      that memmove reads past the end of the buffer (behaviour undefined in C). */
  function RemoveAsWritten(buffer: seq<NodeId>, size: nat, fromIdx: nat, count: nat)
    : (r: Option<(StatusCode, seq<NodeId>, nat)>)
    requires size <= |buffer|
    ensures r.None? <==> fromIdx < size && fromIdx + count < size && fromIdx + 2 * count > |buffer|
    ensures r.Some? ==> |r.value.1| == |buffer| && r.value.2 <= size
    ensures r.Some? ==> (r.value.0 == ArgumentOutOfBounds <==> fromIdx >= size || fromIdx + count > size)
    ensures r.Some? && r.value.0 == ArgumentOutOfBounds ==> r.value.1 == buffer && r.value.2 == size
  {
    var endIdx := fromIdx + count;
    if fromIdx >= size || endIdx > size then Some((ArgumentOutOfBounds, buffer, size))
    else if endIdx < size then
      if endIdx + count > |buffer| then None
      else Some((Ok, buffer[..fromIdx] + buffer[endIdx..endIdx + count] + buffer[fromIdx + count..], size - count))
    else Some((Ok, buffer, size - count))
  }

  /** Removing the first of four entries leaves a stale copy of the second one
      where the fourth belongs. */
  lemma RemoveAsWrittenKeepsStaleEntry()
    ensures var r := RemoveAsWritten([10, 20, 30, 40], 4, 0, 1);
      r.Some? && r.value.0 == Ok && r.value.1[..r.value.2] == [20, 20, 30] &&
      r.value.1[..r.value.2] != [20, 30, 40]
  {
    var buffer: seq<NodeId> := [10, 20, 30, 40];
    assert buffer[..0] + buffer[1..2] + buffer[1..] == [20, 20, 30, 40];
    var r := RemoveAsWritten(buffer, 4, 0, 1).value;
    assert r.1[..r.2] == [20, 20, 30];
    assert r.1[..r.2][1] != [20, 30, 40][1];
  }

  /** On a full list of eight entries, removing five from index 1 passes the
      bounds test, and the memmove then copies entries 6 to 10 of an
      eight-entry buffer. */
  lemma RemoveAsWrittenReadsPastBuffer()
    ensures !RemoveRefusedAsWritten(8, 1, 5)
    ensures RemoveAsWritten([10, 20, 30, 40, 50, 60, 70, 80], 8, 1, 5).None?
  {
  }

  /** The bounds test of xQNodeList_remove as written (nodelist.c:133-135):
      `endIdx` is an unsigned long, so `fromIdx + count` wraps modulo 2^64.
      True when the call is refused. */
  predicate RemoveRefusedAsWritten(size: nat, fromIdx: nat, count: nat)
    requires fromIdx < ULONG_LIMIT && count < ULONG_LIMIT
  {
    var endIdx := (fromIdx + count) % ULONG_LIMIT;
    fromIdx >= size || endIdx > size
  }

  /** On a list of two entries, removing 2^64 - 1 entries from index 1 passes
      the test as written. */
  lemma RemoveAsWrittenAcceptsWrappedCount()
    ensures !RemoveRefusedAsWritten(2, 1, ULONG_LIMIT - 1)
  {
  }
}

=== FILE: search_cases.dfy ===
/**
 * What the compiler of search.c makes of the selectors of the library's test
 * suite (tests/check_search.c), and of selectors that hold nothing but white
 * space.
 *
 * Each selector of the suite is an instance of a lemma that holds for all
 * names and values of its shape (OneName, TwoNames, MissingClose, ...); the
 * lemma named after the test fills in the suite's own names.
 *
 * Where the tests expect what search.c does not implement (namespaces, `*`,
 * the `+` combinator), the lemma states what the compiler does: `:`, `*` and
 * `+` are identifier characters, so they end up in element names.
 */
module SearchCases {
  import opened LibXQ
  import opened SearchChars
  import opened SearchTokens
  import opened SearchExprs
  import opened SearchCompile
  import opened SearchGrammar
  import opened SearchReading
  import opened SearchRoundTrip

  /** The compiler refuses every selector whose parse refuses its first
      token, whatever follows. */
  lemma FirstTokenRefused(d: Dialect, s: string)
    requires |s| > 0
    requires Lex(s, 0).status == UnterminatedStr
      || (Lex(s, 0).status == Ok && Lex(s, 0).token.kind != TtIdent && !IsPunct(Lex(s, 0), '>'))
    ensures Compile(d, s).Failure?
    ensures Compile(d, s).status == if Lex(s, 0).status == Ok then UnexpectedToken else UnterminatedStr
  {
    TokenTable(s);
    assert Tokens(s)[0] == Lex(s, 0);
  }

  /** After `>`, parseSelector wants an element name (search.c:344-360): any
      other token is a syntax error, a tokenizer error is passed on, and
      running out of tokens is an error in the corrected reading only. */
  lemma ChildThenNonIdent(d: Dialect, toks: seq<Lexed>, p: nat)
    requires IsTokenTable(toks) && p < |toks| && IsPunct(toks[p], '>')
    ensures var u := toks[toks[p].token.strPtr]; var r := Selector(d, toks, p);
      && (u.status == Ok && u.token.kind != TtIdent ==> r == Parsed(UnexpectedToken, [], u.token.strPtr))
      && (u.status == UnterminatedStr ==> r == Parsed(UnterminatedStr, [], u.token.strPtr))
      && (u.status == NoToken ==> r.steps == [] && r.status == (if d == Intended then UnexpectedToken else Ok))
  {
  }

  /** A selector that starts with `>` followed by anything but an element
      name is refused: with an unexpected token, or with the tokenizer's
      unterminated string. */
  lemma ChildThenRefused(d: Dialect, s: string)
    requires |s| > 0 && s[0] == '>'
    requires Lex(s, 1).status == UnterminatedStr || (Lex(s, 1).status == Ok && Lex(s, 1).token.kind != TtIdent)
    ensures Compile(d, s) == Failure(if Lex(s, 1).status == Ok then UnexpectedToken else UnterminatedStr)
  {
    TokenTable(s);
    LexPunct(s, 0, '>');
    assert Tokens(s)[0] == Lex(s, 0) && Tokens(s)[1] == Lex(s, 1);
    ChildThenNonIdent(d, Tokens(s), 0);
  }

  /** `> [` and `> 'x`: a test or a string where the name should be. */
  lemma ChildThenTestOrString(d: Dialect)
    ensures Compile(d, "> [") == Failure(UnexpectedToken)
    ensures Compile(d, "> 'x") == Failure(UnterminatedStr)
  {
    var s := "> [";
    LexSkipsSpace(s, 1);
    LexPunct(s, 2, '[');
    ChildThenRefused(d, s);
    var s' := "> 'x";
    LexSkipsSpace(s', 1);
    LexUnterminated(s', 2);
    ChildThenRefused(d, s');
  }

  /** `e > =`: after a compound, too, `>` must be followed by a name. */
  lemma CompoundThenChildThenEquals(d: Dialect)
    ensures Compile(d, "e > =") == Failure(UnexpectedToken)
  {
    var s := "e > =";
    TokenTable(s);
    CharacterClasses('e');
    LexIdent(s, 0, 1);
    LexSkipsSpace(s, 1);
    LexPunct(s, 2, '>');
    LexSkipsSpace(s, 3);
    LexPunct(s, 4, '=');
    var toks := Tokens(s);
    assert s[0..1] == "e";
    assert toks[0] == Lexed(Ok, Token(TtIdent, "e", 1));
    assert toks[1] == Lexed(Ok, Token(TtToken, ">", 3));
    assert toks[3] == Lexed(Ok, Token(TtToken, "=", 5));
    assert Attribs(toks, 1) == Parsed(Ok, [], 1);
    ChildThenNonIdent(d, toks, 1);
    assert Selector(d, toks, 0) == Rest(d, toks, FindDescendantsByName("e"), 1);
  }

  /** An empty or blank selector compiles to the single copy step, and, with
      a lone `>` refused, no other selector does. */
  lemma BlankSelectorIsCopy(s: string)
    ensures Compile(Intended, s) == Success(Expr(AddToOutput, None)) <==> OnlySpaceLeft(s, 0)
  {
    var toks := Tokens(s);
    TokenTable(s);
    LexNoTokenIffOnlySpace(s, 0);
    assert toks[0] == Lex(s, 0);
    var r := Selector(Intended, toks, 0);
    SelectorShape(Intended, toks, 0);
    EmptySelectorIsBlank(toks);
  }

  /** With a lone `>` refused, parseSelector succeeds without linking a step
      exactly when no token is left. */
  lemma EmptySelectorIsBlank(toks: seq<Lexed>)
    requires IsTokenTable(toks) && |toks| > 0
    ensures var r := Selector(Intended, toks, 0);
      r.status == Ok && r.steps == [] <==> toks[0].status == NoToken
  {
    var t := toks[0];
    var r := Selector(Intended, toks, 0);
    if t.status != Ok {
      assert r.status == NoTokenIsOk(t.status) && r.steps == [];
    } else if IsPunct(t, '>') {
      var u := toks[t.token.strPtr];
      if u.status == Ok && u.token.kind == TtIdent {
        var x := Rest(Intended, toks, FindChildrenByName(u.token.content), u.token.strPtr);
        assert r == x && x.steps != [];
      }
    } else if t.token.kind == TtIdent {
      var x := Rest(Intended, toks, FindDescendantsByName(t.token.content), t.token.strPtr);
      assert r == x && x.steps != [];
    }
  }

  /** Finding, as written: `>` alone compiles to the copy step, although it
      is not blank. */
  lemma LoneChildAsWritten()
    ensures Compile(AsWritten, ">") == Success(Expr(AddToOutput, None))
    ensures !OnlySpaceLeft(">", 0)
  {
    var s := ">";
    TokenTable(s);
    LexPunct(s, 0, '>');
    LexAtEnd(s);
    CharacterClasses('>');
    assert NulIndex(s, 0) == 1;
    assert !IsWhiteSpaceChar(At(s, 0));
  }

  /** Corrected: `>` alone is a syntax error (tests/check_search.c:336-339). */
  lemma LoneChildIntended()
    ensures Compile(Intended, ">") == Failure(UnexpectedToken)
  {
    var s := ">";
    TokenTable(s);
    LexPunct(s, 0, '>');
    LexAtEnd(s);
  }

  /** Finding, as written: a `>` with nothing after it ends the selector
      without a step, so `e >` compiles as `e` does. */
  lemma TrailingChildAsWritten()
    ensures Compile(AsWritten, "e >") == Success(Expr(FindDescendantsByName("e"), None))
    ensures Compile(AsWritten, "e >") == Compile(AsWritten, "e")
  {
    var s := "e >";
    TokenTable(s);
    CharacterClasses('e');
    LexIdent(s, 0, 1);
    LexSkipsSpace(s, 1);
    LexPunct(s, 2, '>');
    LexAtEnd(s);
    var toks := Tokens(s);
    assert s[0..1] == "e";
    assert toks[0] == Lexed(Ok, Token(TtIdent, "e", 1));
    assert toks[1] == toks[2] == Lexed(Ok, Token(TtToken, ">", 3));
    assert toks[3].status == NoToken;
    var e := FindDescendantsByName("e");
    assert Attribs(toks, 1) == Parsed(Ok, [], 1);
    assert Selector(AsWritten, toks, 1) == Parsed(Ok, [], 3);
    assert Selector(AsWritten, toks, 0) == Rest(AsWritten, toks, e, 1) == Parsed(Ok, [e], 3);
    var s' := "e";
    TokenTable(s');
    LexIdent(s', 0, 1);
    LexAtEnd(s');
    var toks' := Tokens(s');
    assert s'[0..1] == "e";
    assert toks'[0] == Lexed(Ok, Token(TtIdent, "e", 1));
    assert Attribs(toks', 1) == Parsed(NoToken, [], 1);
    assert Selector(AsWritten, toks', 1) == Parsed(Ok, [], 1);
    assert Selector(AsWritten, toks', 0) == Rest(AsWritten, toks', e, 1) == Parsed(Ok, [e], 1);
  }

  /** Corrected: a `>` with nothing after it is a syntax error after a
      compound as well. */
  lemma TrailingChildIntended()
    ensures Compile(Intended, "e >") == Failure(UnexpectedToken)
  {
    var s := "e >";
    TokenTable(s);
    CharacterClasses('e');
    LexIdent(s, 0, 1);
    LexSkipsSpace(s, 1);
    LexPunct(s, 2, '>');
    LexAtEnd(s);
  }

  /** tests/check_search.c:14-27: the empty selector. */
  lemma EmptySelector(d: Dialect)
    ensures Compile(d, "") == Success(Expr(AddToOutput, None))
  {
    TokenTable("");
    LexAtEnd("");
  }

  // Selectors the compiler accepts.

  lemma CompilesAs(d: Dialect, cs: seq<Compound>, s: string, steps: seq<Operation>)
    requires var ok := WellFormed(cs); ok
    requires Render(cs) == s && SelectorSteps(cs) == steps
    ensures Compile(d, s) == Success(FromSteps(steps))
  {
    CompileRender(d, cs);
  }

  /** A compound with no child combinator, alone: its name and tests. */
  lemma DescendantAlone(e: string, ts: seq<AttrTest>)
    ensures Render([Compound(Descendant, e, ts)]) == e + RenderTests(ts)
    ensures SelectorSteps([Compound(Descendant, e, ts)]) == [FindDescendantsByName(e)] + TestSteps(ts)
  {
    var cs := [Compound(Descendant, e, ts)];
    assert SelectorSteps(cs[1..]) == [];
  }

  /** A compound with no child combinator: its name, then its tests. */
  lemma DescendantCompound(e: string, ts: seq<AttrTest>)
    ensures RenderCompound(Compound(Descendant, e, ts)) == e + RenderTests(ts)
    ensures ElementStep(Compound(Descendant, e, ts)) == FindDescendantsByName(e)
  {
    assert "" + e == e;
  }

  /** A compound followed by others, one blank between them. */
  lemma CompoundThenOthers(c: Compound, cs: seq<Compound>)
    requires cs != []
    ensures Render([c] + cs) == RenderCompound(c) + " " + Render(cs)
    ensures SelectorSteps([c] + cs) == [ElementStep(c)] + TestSteps(c.tests) + SelectorSteps(cs)
  {
    assert ([c] + cs)[1..] == cs;
  }

  lemma WellFormedCons(c: Compound, cs: seq<Compound>)
    requires WellFormedCompound(c) && (cs != [] ==> WellFormed(cs))
    ensures WellFormed([c] + cs)
  {
    assert ([c] + cs)[1..] == cs;
  }

  /** An element name alone is one findDescendantsByName step. */
  lemma OneName(d: Dialect, e: string)
    requires IsIdent(e)
    ensures Compile(d, e) == Success(Expr(FindDescendantsByName(e), None))
  {
    DescendantAlone(e, []);
    CompilesAs(d, [Compound(Descendant, e, [])], e, [FindDescendantsByName(e)]);
  }

  /** Two names, a blank between them, are two findDescendantsByName steps. */
  lemma TwoNames(d: Dialect, e1: string, e2: string)
    requires IsIdent(e1) && IsIdent(e2)
    ensures Compile(d, e1 + " " + e2) == Success(FromSteps([FindDescendantsByName(e1), FindDescendantsByName(e2)]))
  {
    var c1, c2 := Compound(Descendant, e1, []), Compound(Descendant, e2, []);
    DescendantAlone(e2, []);
    CompoundThenOthers(c1, [c2]);
    assert [c1] + [c2] == [c1, c2];
    CompilesAs(d, [c1, c2], e1 + " " + e2, [FindDescendantsByName(e1), FindDescendantsByName(e2)]);
  }

  /** Two names as the rest of a selector. */
  lemma TwoNamesParts(e1: string, e2: string)
    requires IsIdent(e1) && IsIdent(e2)
    ensures var cs := [Compound(Descendant, e1, []), Compound(Descendant, e2, [])];
      && WellFormed(cs)
      && Render(cs) == e1 + " " + e2
      && SelectorSteps(cs) == [FindDescendantsByName(e1), FindDescendantsByName(e2)]
  {
    var c1, c2 := Compound(Descendant, e1, []), Compound(Descendant, e2, []);
    DescendantAlone(e2, []);
    CompoundThenOthers(c1, [c2]);
    assert [c1] + [c2] == [c1, c2];
    WellFormedCons(c1, [c2]);
  }

  /** Three names are three findDescendantsByName steps. */
  lemma ThreeNames(d: Dialect, e1: string, e2: string, e3: string)
    requires IsIdent(e1) && IsIdent(e2) && IsIdent(e3)
    ensures Compile(d, e1 + " " + (e2 + " " + e3))
      == Success(FromSteps([FindDescendantsByName(e1), FindDescendantsByName(e2), FindDescendantsByName(e3)]))
  {
    var c1, c2, c3 := Compound(Descendant, e1, []), Compound(Descendant, e2, []), Compound(Descendant, e3, []);
    TwoNamesParts(e2, e3);
    CompoundThenOthers(c1, [c2, c3]);
    WellFormedCons(c1, [c2, c3]);
    assert [c1] + [c2, c3] == [c1, c2, c3];
    CompilesAs(d, [c1, c2, c3], e1 + " " + (e2 + " " + e3),
      [FindDescendantsByName(e1), FindDescendantsByName(e2), FindDescendantsByName(e3)]);
  }

  /** `e1 > e2` finds the descendants named e1, then their children named
      e2. */
  lemma NameThenChild(d: Dialect, e1: string, e2: string)
    requires IsIdent(e1) && IsIdent(e2)
    ensures Compile(d, e1 + " > " + e2) == Success(FromSteps([FindDescendantsByName(e1), FindChildrenByName(e2)]))
  {
    var c1, c2 := Compound(Descendant, e1, []), Compound(Child, e2, []);
    assert Render([c2]) == "> " + e2 && SelectorSteps([c2][1..]) == [];
    CompoundThenOthers(c1, [c2]);
    assert [c1] + [c2] == [c1, c2];
    assert e1 + " " + ("> " + e2) == e1 + " > " + e2;
    CompilesAs(d, [c1, c2], e1 + " > " + e2, [FindDescendantsByName(e1), FindChildrenByName(e2)]);
  }

  /** A name and its attribute tests: the name's step, then one filter step
      per test, in the order written. */
  lemma NameWithTests(d: Dialect, e: string, ts: seq<AttrTest>)
    requires IsIdent(e) && WellFormedTests(ts)
    ensures Compile(d, e + RenderTests(ts)) == Success(FromSteps([FindDescendantsByName(e)] + TestSteps(ts)))
  {
    DescendantAlone(e, ts);
    CompilesAs(d, [Compound(Descendant, e, ts)], e + RenderTests(ts), [FindDescendantsByName(e)] + TestSteps(ts));
  }

  /** A name with tests, then two names. */
  lemma TestedNameThenTwoNames(d: Dialect, e1: string, ts: seq<AttrTest>, e2: string, e3: string)
    requires IsIdent(e1) && WellFormedTests(ts) && IsIdent(e2) && IsIdent(e3)
    ensures Compile(d, e1 + RenderTests(ts) + " " + (e2 + " " + e3))
      == Success(FromSteps([FindDescendantsByName(e1)] + TestSteps(ts) + [FindDescendantsByName(e2), FindDescendantsByName(e3)]))
  {
    var c1, c2, c3 := Compound(Descendant, e1, ts), Compound(Descendant, e2, []), Compound(Descendant, e3, []);
    TwoNamesParts(e2, e3);
    CompoundThenOthers(c1, [c2, c3]);
    WellFormedCons(c1, [c2, c3]);
    assert [c1] + [c2, c3] == [c1, c2, c3];
    DescendantCompound(e1, ts);
    var steps := [FindDescendantsByName(e1)] + TestSteps(ts) + [FindDescendantsByName(e2), FindDescendantsByName(e3)];
    assert SelectorSteps([c1, c2, c3]) == steps;
    assert Render([c1, c2, c3]) == e1 + RenderTests(ts) + " " + (e2 + " " + e3);
    CompilesAs(d, [c1, c2, c3], e1 + RenderTests(ts) + " " + (e2 + " " + e3),
      [FindDescendantsByName(e1)] + TestSteps(ts) + [FindDescendantsByName(e2), FindDescendantsByName(e3)]);
  }

  /** An attribute test whose value needs no escape, written out. */
  lemma PlainTest(name: string, value: string, quoted: bool)
    requires '\\' !in value && '"' !in value
    ensures RenderTest(AttrTest(name, value, quoted))
      == "[" + name + "=" + (if quoted then "\"" + value + "\"" else value) + "]"
  {
    EscapePlain(value, '"');
  }

  /** One attribute test. */
  lemma OneTest(t: AttrTest)
    ensures RenderTests([t]) == RenderTest(t)
    ensures TestSteps([t]) == [FilterAttributeEquals(t.name, t.value)]
    ensures WellFormedTest(t) ==> WellFormedTests([t])
  {
    assert [t][1..] == [];
  }

  /** Two attribute tests, one after the other. */
  lemma TwoTests(t1: AttrTest, t2: AttrTest)
    ensures RenderTests([t1, t2]) == RenderTest(t1) + RenderTest(t2)
    ensures TestSteps([t1, t2]) == [FilterAttributeEquals(t1.name, t1.value), FilterAttributeEquals(t2.name, t2.value)]
    ensures WellFormedTest(t1) && WellFormedTest(t2) ==> WellFormedTests([t1, t2])
  {
    assert [t1, t2][1..] == [t2];
    OneTest(t2);
  }

  // The selectors of the test suite. Each text lemma puts a selector's
  // pieces together into the suite's string.

  /** tests/check_search.c:32-48. */
  lemma SingleSelector(d: Dialect)
    ensures Compile(d, "elem") == Success(Expr(FindDescendantsByName("elem"), None))
  {
    var e := "elem";
    OneName(d, e);
  }

  /** tests/check_search.c:53-69 expects the name `elem` in namespace `ns`;
      search.c reads `ns:elem` as one element name. */
  lemma NamespaceSelector(d: Dialect)
    ensures Compile(d, "ns:elem") == Success(Expr(FindDescendantsByName("ns:elem"), None))
  {
    var e := "ns:elem";
    OneName(d, e);
  }

  lemma TwoNamesText()
    ensures "elem1" + " " + "elem2" == "elem1 elem2"
    ensures "nsA:elem1" + " " + "nsB:elem2" == "nsA:elem1 nsB:elem2"
    ensures "*" + " " + "elem" == "* elem"
  {
  }

  /** tests/check_search.c:74-96. */
  lemma DualSelector(d: Dialect)
    ensures Compile(d, "elem1 elem2")
      == Success(FromSteps([FindDescendantsByName("elem1"), FindDescendantsByName("elem2")]))
  {
    var e1, e2 := "elem1", "elem2";
    TwoNames(d, e1, e2);
    TwoNamesText();
  }

  /** tests/check_search.c:101-123 expects two names in namespaces; search.c
      reads each `ns:name` as one element name. */
  lemma DualNamespaceSelector(d: Dialect)
    ensures Compile(d, "nsA:elem1 nsB:elem2")
      == Success(FromSteps([FindDescendantsByName("nsA:elem1"), FindDescendantsByName("nsB:elem2")]))
  {
    var e1, e2 := "nsA:elem1", "nsB:elem2";
    TwoNames(d, e1, e2);
    TwoNamesText();
  }

  /** tests/check_search.c:128-148 expects a findDescendants step for `*`;
      search.c reads `*` as an element name. */
  lemma WildcardSelector(d: Dialect)
    ensures Compile(d, "* elem")
      == Success(FromSteps([FindDescendantsByName("*"), FindDescendantsByName("elem")]))
  {
    var e1, e2 := "*", "elem";
    TwoNames(d, e1, e2);
    TwoNamesText();
  }

  lemma PlusText()
    ensures "elem1" + " " + ("+" + " " + "elem2") == "elem1 + elem2"
  {
  }

  /** tests/check_search.c:153-175 expects a findNextSiblingByName step;
      search.c reads `+` as an element name. */
  lemma PlusCombinator(d: Dialect)
    ensures Compile(d, "elem1 + elem2")
      == Success(FromSteps([FindDescendantsByName("elem1"), FindDescendantsByName("+"), FindDescendantsByName("elem2")]))
  {
    var e1, e2, e3 := "elem1", "+", "elem2";
    ThreeNames(d, e1, e2, e3);
    PlusText();
  }

  lemma ChildText()
    ensures "elem1" + " > " + "elem2" == "elem1 > elem2"
  {
  }

  /** tests/check_search.c:180-202. */
  lemma ChildCombinator(d: Dialect)
    ensures Compile(d, "elem1 > elem2")
      == Success(FromSteps([FindDescendantsByName("elem1"), FindChildrenByName("elem2")]))
  {
    var e1, e2 := "elem1", "elem2";
    NameThenChild(d, e1, e2);
    ChildText();
  }

  lemma SingleAttributeNames()
    ensures IsIdent("elem1") && WellFormedTest(AttrTest("attr", "value", true))
    ensures WellFormedTest(AttrTest("attr", "value", false))
    ensures '\\' !in "value" && '"' !in "value"
  {
  }

  lemma SingleAttributeText()
    ensures "elem1" + ("[" + "attr" + "=" + ("\"" + "value" + "\"") + "]") == "elem1[attr=\"value\"]"
    ensures "elem1" + ("[" + "attr" + "=" + "value" + "]") == "elem1[attr=value]"
  {
  }

  /** tests/check_search.c:207-249: a quoted and a bare value. */
  lemma SingleAttribute(d: Dialect)
    ensures Compile(d, "elem1[attr=\"value\"]")
      == Success(FromSteps([FindDescendantsByName("elem1"), FilterAttributeEquals("attr", "value")]))
    ensures Compile(d, "elem1[attr=value]")
      == Success(FromSteps([FindDescendantsByName("elem1"), FilterAttributeEquals("attr", "value")]))
  {
    var e, a, v := "elem1", "attr", "value";
    SingleAttributeNames();
    SingleAttributeText();
    var quoted, bare := AttrTest(a, v, true), AttrTest(a, v, false);
    PlainTest(a, v, true);
    OneTest(quoted);
    NameWithTests(d, e, [quoted]);
    PlainTest(a, v, false);
    OneTest(bare);
    NameWithTests(d, e, [bare]);
  }

  lemma SingleAttributeCombinatorNames()
    ensures IsIdent("elem1") && WellFormedTest(AttrTest("attr", "value", true))
    ensures IsIdent("+") && IsIdent("elem2")
    ensures '\\' !in "value" && '"' !in "value"
  {
  }

  lemma SingleAttributeCombinatorText()
    ensures "elem1" + ("[" + "attr" + "=" + ("\"" + "value" + "\"") + "]") + " " + ("+" + " " + "elem2")
      == "elem1[attr=\"value\"] + elem2"
  {
  }

  /** tests/check_search.c:254-283, with `+` read as an element name. */
  lemma SingleAttributeCombinator(d: Dialect)
    ensures Compile(d, "elem1[attr=\"value\"] + elem2")
      == Success(FromSteps([FindDescendantsByName("elem1"), FilterAttributeEquals("attr", "value"),
                            FindDescendantsByName("+"), FindDescendantsByName("elem2")]))
  {
    var e1, a, v, e2, e3 := "elem1", "attr", "value", "+", "elem2";
    SingleAttributeCombinatorNames();
    SingleAttributeCombinatorText();
    var t := AttrTest(a, v, true);
    PlainTest(a, v, true);
    OneTest(t);
    TestedNameThenTwoNames(d, e1, [t], e2, e3);
    FourSteps(FindDescendantsByName(e1), FilterAttributeEquals(a, v), FindDescendantsByName(e2), FindDescendantsByName(e3));
  }

  lemma FourSteps(x: Operation, y: Operation, z: Operation, w: Operation)
    ensures [x] + [y] + [z, w] == [x, y, z, w]
  {
  }

  lemma DualAttributeNames()
    ensures IsIdent("elem1") && WellFormedTest(AttrTest("attr", "value", true))
    ensures WellFormedTest(AttrTest("attr2", "value2", true))
    ensures '\\' !in "value" && '"' !in "value" && '\\' !in "value2" && '"' !in "value2"
  {
  }

  lemma DualAttributeText()
    ensures "elem1" + (("[" + "attr" + "=" + ("\"" + "value" + "\"") + "]") + ("[" + "attr2" + "=" + ("\"" + "value2" + "\"") + "]"))
      == "elem1[attr=\"value\"][attr2=\"value2\"]"
  {
  }

  /** tests/check_search.c:288-316. */
  lemma DualAttribute(d: Dialect)
    ensures Compile(d, "elem1[attr=\"value\"][attr2=\"value2\"]")
      == Success(FromSteps([FindDescendantsByName("elem1"), FilterAttributeEquals("attr", "value"),
                            FilterAttributeEquals("attr2", "value2")]))
  {
    var e, a1, v1, a2, v2 := "elem1", "attr", "value", "attr2", "value2";
    DualAttributeNames();
    DualAttributeText();
    var t1, t2 := AttrTest(a1, v1, true), AttrTest(a2, v2, true);
    PlainTest(a1, v1, true);
    PlainTest(a2, v2, true);
    TwoTests(t1, t2);
    NameWithTests(d, e, [t1, t2]);
  }

  // Selectors the compiler refuses.

  /** A selector that starts with a string is refused. */
  lemma StringFirst(d: Dialect, v: string, quote: char, rest: string)
    requires (quote == '"' || quote == '\'') && '\0' !in v
    ensures Compile(d, Quote(v, quote) + rest) == Failure(UnexpectedToken)
  {
    var s := Quote(v, quote) + rest;
    assert s[0..] == Quote(v, quote) + rest;
    LexQuoted(s, 0, v, quote, rest);
    FirstTokenRefused(d, s);
  }

  /** A selector that starts with '=' is refused. */
  lemma EqualsFirst(d: Dialect, rest: string)
    ensures Compile(d, "=" + rest) == Failure(UnexpectedToken)
  {
    var s := "=" + rest;
    LexPunct(s, 0, '=');
    FirstTokenRefused(d, s);
  }

  /** An element name and a '[' whose test parseAttrib refuses: the
      selector is refused with the status parseAttrib gives, XQ_NO_TOKEN read
      as a syntax error. */
  lemma TestRefused(d: Dialect, toks: seq<Lexed>, e: string)
    requires IsTokenTable(toks) && |e| + 1 < |toks|
    requires toks[0] == Lexed(Ok, Token(TtIdent, e, |e|))
    requires toks[|e|] == Lexed(Ok, Token(TtToken, "[", |e| + 1))
    requires Attrib(toks, |e| + 1).status != Ok
    ensures var st := Attrib(toks, |e| + 1).status;
      Selector(d, toks, 0).status == if st == NoToken then UnexpectedToken else st
  {
    var st := Attrib(toks, |e| + 1).status;
    assert IsPunct(toks[|e|], '[');
    assert Attribs(toks, |e|).status == if st == NoToken then UnexpectedToken else st;
  }

  /** The compiler fails where parseSelector does. */
  lemma SelectorRefused(d: Dialect, s: string, st: StatusCode)
    requires st != Ok && Selector(d, Tokens(s), 0).status == st
    ensures Compile(d, s) == Failure(st)
  {
  }

  /** The first tokens of `e[a` followed by `rest`. */
  lemma TestNameTokens(s: string, toks: seq<Lexed>, e: string, a: string, rest: string)
    requires TokensOf(s, toks) && IsIdent(e) && IsIdent(a) && s == e + "[" + a + rest
    requires rest == [] || !IsIdentChar(rest[0])
    ensures toks[0] == Lexed(Ok, Token(TtIdent, e, |e|))
    ensures toks[|e|] == Lexed(Ok, Token(TtToken, "[", |e| + 1))
    ensures toks[|e| + 1] == Lexed(Ok, Token(TtIdent, a, |e| + 1 + |a|))
    ensures |e| + 1 + |a| <= |s| && s[|e| + 1 + |a|..] == rest
  {
    assert s[0..] == e + ("[" + (a + rest));
    ReadIdent(s, toks, 0, e, "[" + (a + rest));
    ReadPunct(s, toks, |e|, '[', a + rest);
    ReadIdent(s, toks, |e| + 1, a, rest);
  }

  /** `e[a` is refused: no '=' follows the attribute name. */
  lemma MissingEquals(d: Dialect, e: string, a: string)
    requires IsIdent(e) && IsIdent(a)
    ensures Compile(d, e + "[" + a) == Failure(UnexpectedToken)
  {
    var s := e + "[" + a;
    TokenTable(s);
    MissingEqualsParse(d, s, Tokens(s), e, a);
    SelectorRefused(d, s, UnexpectedToken);
  }

  lemma MissingEqualsParse(d: Dialect, s: string, toks: seq<Lexed>, e: string, a: string)
    requires TokensOf(s, toks) && IsTokenTable(toks) && IsIdent(e) && IsIdent(a) && s == e + "[" + a
    ensures Selector(d, toks, 0).status == UnexpectedToken
  {
    TestNameTokens(s, toks, e, a, "");
    ReadEnd(s, toks, |s|);
    TestRefused(d, toks, e);
  }

  lemma MissingValueTokens(s: string, toks: seq<Lexed>, e: string, a: string)
    requires TokensOf(s, toks) && IsIdent(e) && IsIdent(a) && s == e + "[" + a + "="
    ensures toks[0] == Lexed(Ok, Token(TtIdent, e, |e|))
    ensures toks[|e|] == Lexed(Ok, Token(TtToken, "[", |e| + 1))
    ensures toks[|e| + 1] == Lexed(Ok, Token(TtIdent, a, |e| + 1 + |a|))
    ensures toks[|e| + 1 + |a|] == Lexed(Ok, Token(TtToken, "=", |s|))
    ensures toks[|s|].status == NoToken
  {
    TestNameTokens(s, toks, e, a, "=");
    ReadPunct(s, toks, |e| + 1 + |a|, '=', "");
    ReadEnd(s, toks, |s|);
  }

  /** `e[a=` is refused: no value follows the '='. */
  lemma MissingValue(d: Dialect, e: string, a: string)
    requires IsIdent(e) && IsIdent(a)
    ensures Compile(d, e + "[" + a + "=") == Failure(UnexpectedToken)
  {
    var s := e + "[" + a + "=";
    TokenTable(s);
    MissingValueParse(d, s, Tokens(s), e, a);
    SelectorRefused(d, s, UnexpectedToken);
  }

  lemma MissingValueParse(d: Dialect, s: string, toks: seq<Lexed>, e: string, a: string)
    requires TokensOf(s, toks) && IsTokenTable(toks) && IsIdent(e) && IsIdent(a) && s == e + "[" + a + "="
    ensures Selector(d, toks, 0).status == UnexpectedToken
  {
    MissingValueTokens(s, toks, e, a);
    TestRefused(d, toks, e);
  }

  lemma MissingCloseTokens(s: string, toks: seq<Lexed>, e: string, a: string, v: string)
    requires TokensOf(s, toks) && IsIdent(e) && IsIdent(a) && IsIdent(v) && s == e + "[" + a + "=" + v
    ensures toks[0] == Lexed(Ok, Token(TtIdent, e, |e|))
    ensures toks[|e|] == Lexed(Ok, Token(TtToken, "[", |e| + 1))
    ensures toks[|e| + 1] == Lexed(Ok, Token(TtIdent, a, |e| + 1 + |a|))
    ensures toks[|e| + 1 + |a|] == Lexed(Ok, Token(TtToken, "=", |e| + 2 + |a|))
    ensures toks[|e| + 2 + |a|] == Lexed(Ok, Token(TtIdent, v, |s|))
    ensures toks[|s|].status == NoToken
  {
    assert s == e + "[" + a + ("=" + v);
    TestNameTokens(s, toks, e, a, "=" + v);
    EqualsValueTokens(s, toks, |e| + 1 + |a|, v);
  }

  /** `=v` at the end of the text. */
  lemma EqualsValueTokens(s: string, toks: seq<Lexed>, r: nat, v: string)
    requires TokensOf(s, toks) && IsIdent(v) && r <= |s| && s[r..] == "=" + v
    ensures toks[r] == Lexed(Ok, Token(TtToken, "=", r + 1))
    ensures toks[r + 1] == Lexed(Ok, Token(TtIdent, v, |s|))
    ensures toks[|s|].status == NoToken
  {
    assert s[r..] == "=" + (v + "");
    ReadPunct(s, toks, r, '=', v + "");
    ReadIdent(s, toks, r + 1, v, "");
    ReadEnd(s, toks, |s|);
  }

  /** `e[a=v` is refused: no ']' closes the test. */
  lemma MissingClose(d: Dialect, e: string, a: string, v: string)
    requires IsIdent(e) && IsIdent(a) && IsIdent(v)
    ensures Compile(d, e + "[" + a + "=" + v) == Failure(UnexpectedToken)
  {
    var s := e + "[" + a + "=" + v;
    TokenTable(s);
    MissingCloseParse(d, s, Tokens(s), e, a, v);
    SelectorRefused(d, s, UnexpectedToken);
  }

  lemma MissingCloseParse(d: Dialect, s: string, toks: seq<Lexed>, e: string, a: string, v: string)
    requires TokensOf(s, toks) && IsTokenTable(toks) && IsIdent(e) && IsIdent(a) && IsIdent(v) && s == e + "[" + a + "=" + v
    ensures Selector(d, toks, 0).status == UnexpectedToken
  {
    MissingCloseTokens(s, toks, e, a, v);
    TestRefused(d, toks, e);
  }

  /** A blank and a quoted string: nextToken skips the blank. */
  lemma BlankThenString(s: string, toks: seq<Lexed>, p: nat, v: string, rest: string)
    requires TokensOf(s, toks) && '\0' !in v && p <= |s| && s[p..] == " " + (Quote(v, '\'') + rest)
    ensures toks[p] == Lexed(Ok, Token(TtString, v, p + 1 + |Quote(v, '\'')|))
  {
    ReadBlank(s, toks, p, Quote(v, '\'') + rest);
    LexQuoted(s, p + 1, v, '\'', rest);
  }

  lemma BlankForEqualsTokens(s: string, toks: seq<Lexed>, e: string, a: string, v: string)
    requires TokensOf(s, toks) && IsIdent(e) && IsIdent(a) && '\0' !in v
    requires s == e + "[" + a + (" " + (Quote(v, '\'') + "]"))
    ensures toks[0] == Lexed(Ok, Token(TtIdent, e, |e|))
    ensures toks[|e|] == Lexed(Ok, Token(TtToken, "[", |e| + 1))
    ensures toks[|e| + 1] == Lexed(Ok, Token(TtIdent, a, |e| + 1 + |a|))
    ensures toks[|e| + 1 + |a|] == Lexed(Ok, Token(TtString, v, |e| + 2 + |a| + |Quote(v, '\'')|))
  {
    TestNameTokens(s, toks, e, a, " " + (Quote(v, '\'') + "]"));
    BlankThenString(s, toks, |e| + 1 + |a|, v, "]");
  }

  /** `e[a 'v']` is refused: a string stands where the '=' should. */
  lemma BlankForEquals(d: Dialect, e: string, a: string, v: string)
    requires IsIdent(e) && IsIdent(a) && '\0' !in v
    ensures Compile(d, e + "[" + a + (" " + (Quote(v, '\'') + "]"))) == Failure(UnexpectedToken)
  {
    var s := e + "[" + a + (" " + (Quote(v, '\'') + "]"));
    TokenTable(s);
    BlankForEqualsParse(d, s, Tokens(s), e, a, v);
    SelectorRefused(d, s, UnexpectedToken);
  }

  lemma BlankForEqualsParse(d: Dialect, s: string, toks: seq<Lexed>, e: string, a: string, v: string)
    requires TokensOf(s, toks) && IsTokenTable(toks) && IsIdent(e) && IsIdent(a) && '\0' !in v
    requires s == e + "[" + a + (" " + (Quote(v, '\'') + "]"))
    ensures Selector(d, toks, 0).status == UnexpectedToken
  {
    BlankForEqualsTokens(s, toks, e, a, v);
    TestRefused(d, toks, e);
  }

  /** A '"' with no other '"' behind it. */
  lemma NoQuoteBehind(s: string, p: nat, v: string)
    requires p <= |s| && s[p..] == "\"" + v && '"' !in v
    ensures p < |s| && s[p] == '"'
    ensures forall i :: p < i < |s| ==> s[i] != s[p]
  {
    assert s[p] == s[p..][0];
    forall i | p < i < |s|
      ensures s[i] != s[p]
    {
      assert s[i] == s[p..][i - p] == v[i - p - 1];
    }
  }

  /** A '=' and a string that no quote closes. */
  lemma EqualsThenOpenString(s: string, toks: seq<Lexed>, p: nat, v: string)
    requires TokensOf(s, toks) && p <= |s| && s[p..] == "=" + ("\"" + v) && '"' !in v
    ensures toks[p] == Lexed(Ok, Token(TtToken, "=", p + 1))
    ensures toks[p + 1].status == UnterminatedStr
  {
    ReadPunct(s, toks, p, '=', "\"" + v);
    NoQuoteBehind(s, p + 1, v);
    LexUnterminated(s, p + 1);
  }

  lemma UnterminatedValueTokens(s: string, toks: seq<Lexed>, e: string, a: string, v: string)
    requires TokensOf(s, toks) && IsIdent(e) && IsIdent(a) && '"' !in v && s == e + "[" + a + ("=" + ("\"" + v))
    ensures toks[0] == Lexed(Ok, Token(TtIdent, e, |e|))
    ensures toks[|e|] == Lexed(Ok, Token(TtToken, "[", |e| + 1))
    ensures toks[|e| + 1] == Lexed(Ok, Token(TtIdent, a, |e| + 1 + |a|))
    ensures toks[|e| + 1 + |a|] == Lexed(Ok, Token(TtToken, "=", |e| + 2 + |a|))
    ensures toks[|e| + 2 + |a|].status == UnterminatedStr
  {
    TestNameTokens(s, toks, e, a, "=" + ("\"" + v));
    EqualsThenOpenString(s, toks, |e| + 1 + |a|, v);
  }


  /** `e[a="v` is refused with XQ_INVALID_SEL_UNTERMINATED_STR: no quote
      closes the value. */
  lemma UnterminatedValue(d: Dialect, e: string, a: string, v: string)
    requires IsIdent(e) && IsIdent(a) && '"' !in v
    ensures Compile(d, e + "[" + a + ("=" + ("\"" + v))) == Failure(UnterminatedStr)
  {
    var s := e + "[" + a + ("=" + ("\"" + v));
    TokenTable(s);
    UnterminatedValueParse(d, s, Tokens(s), e, a, v);
    SelectorRefused(d, s, UnterminatedStr);
  }

  lemma UnterminatedValueParse(d: Dialect, s: string, toks: seq<Lexed>, e: string, a: string, v: string)
    requires TokensOf(s, toks) && IsTokenTable(toks) && IsIdent(e) && IsIdent(a) && '"' !in v && s == e + "[" + a + ("=" + ("\"" + v))
    ensures Selector(d, toks, 0).status == UnterminatedStr
  {
    UnterminatedValueTokens(s, toks, e, a, v);
    TestRefused(d, toks, e);
  }


  lemma QuotedText()
    ensures '\0' !in "elem" && Quote("elem", '\'') + "" == "'elem'"
  {
    EscapePlain("elem", '\'');
  }

  /** tests/check_search.c:326-329: a string is not a selector. */
  lemma QuotedSelector(d: Dialect)
    ensures Compile(d, "'elem'") == Failure(UnexpectedToken)
  {
    var v := "elem";
    QuotedText();
    StringFirst(d, v, '\'', "");
  }

  /** tests/check_search.c:331-334 expects `+` alone to be refused; search.c
      reads it as an element name. */
  lemma PlusAlone(d: Dialect)
    ensures Compile(d, "+") == Success(Expr(FindDescendantsByName("+"), None))
  {
    var e := "+";
    OneName(d, e);
  }

  lemma EqualsText()
    ensures "=" + " elem" == "= elem"
  {
  }

  /** tests/check_search.c:341-344. */
  lemma EqualsSelector(d: Dialect)
    ensures Compile(d, "= elem") == Failure(UnexpectedToken)
  {
    var rest := " elem";
    EqualsText();
    EqualsFirst(d, rest);
  }

  lemma IncompleteNames()
    ensures IsIdent("elem") && IsIdent("foo") && IsIdent("bar") && '\0' !in "bar" && '"' !in "bar]"
  {
  }

  lemma IncompleteText()
    ensures "elem" + "[" + "foo" == "elem[foo"
    ensures "elem" + "[" + "foo" + "=" == "elem[foo="
    ensures "elem" + "[" + "foo" + "=" + "bar" == "elem[foo=bar"
  {
  }

  /** tests/check_search.c:346-357: tests cut short. */
  lemma IncompleteAttribute(d: Dialect)
    ensures Compile(d, "elem[foo") == Failure(UnexpectedToken)
    ensures Compile(d, "elem[foo=") == Failure(UnexpectedToken)
    ensures Compile(d, "elem[foo=bar") == Failure(UnexpectedToken)
  {
    var e, a, v := "elem", "foo", "bar";
    IncompleteNames();
    IncompleteText();
    MissingEquals(d, e, a);
    MissingValue(d, e, a);
    MissingClose(d, e, a, v);
  }

  lemma InvalidText()
    ensures "elem" + "[" + "foo" + (" " + (Quote("bar", '\'') + "]")) == "elem[foo 'bar']"
  {
    EscapePlain("bar", '\'');
  }

  /** tests/check_search.c:359-362: a blank where the '=' should be. */
  lemma InvalidAttribute(d: Dialect)
    ensures Compile(d, "elem[foo 'bar']") == Failure(UnexpectedToken)
  {
    var e, a, v := "elem", "foo", "bar";
    IncompleteNames();
    InvalidText();
    BlankForEquals(d, e, a, v);
  }

  lemma UnterminatedText()
    ensures "elem" + "[" + "foo" + ("=" + ("\"" + "bar]")) == "elem[foo=\"bar]"
  {
  }

  /** tests/check_search.c:364-367: the string is never closed. */
  lemma UnterminatedString(d: Dialect)
    ensures Compile(d, "elem[foo=\"bar]") == Failure(UnterminatedStr)
  {
    var e, a, v := "elem", "foo", "bar]";
    IncompleteNames();
    UnterminatedText();
    UnterminatedValue(d, e, a, v);
  }

  /** A selector that starts with `elem[` starts with the name `elem`. */
  lemma ElemThenBracket(s: string)
    requires |s| > 4 && s[0..4] == "elem" && s[4] == '['
    ensures Lex(s, 0) == Lexed(Ok, Token(TtIdent, "elem", 4))
  {
    IncompleteNames();
    CharacterClasses('[');
    LexIdent(s, 0, 4);
  }

  /** tests/check_search.c:346-349 expects the out-pointer to be null after
      `elem[foo` fails; as written it is left dangling. */
  lemma MissingEqualsDangles(d: Dialect)
    ensures DanglingAfterFailure(d, "elem[foo")
  {
    var s := "elem[foo";
    IncompleteNames();
    IncompleteText();
    MissingEquals(d, "elem", "foo");
    ElemThenBracket(s);
    FailureAfterNameDangles(d, s);
  }
}

=== FILE: search_chars.dfy ===
/**
 * The character classes of the selector tokenizer (search.c): a table for the
 * characters up to ']' and one default class for everything above it.
 *
 * libxq works on UTF-8 bytes. Characters stand for bytes here: every entry of
 * the table is an ASCII character, and every byte of a multi-byte UTF-8
 * sequence is above ']', so a non-ASCII character falls in the default class
 * exactly as each of its bytes does.
 */
module SearchChars {

  /** The class bits. */
  const NS: bv8 := 1      // part of an identifier: not space, not a token
  const SPACE: bv8 := 2   // white space
  const NQ: bv8 := 4      // may be copied into a quoted string as it is
  const TOKEN: bv8 := 8   // a one-character token

  /** The class of every character above the table. */
  const DEFAULT_CLASS: bv8 := NS | NQ

  /** characterClassTable: the class of each character code from 0 to ']',
      sixteen codes to a row. D abbreviates the class of identifier
      characters. */
  const D: bv8 := NS | NQ

  const Codes00To0F: seq<bv8> := [
    0 /* NUL */,
    D, D, D, D, D, D, D, D,
    SPACE | NQ /* tab */,
    SPACE | NQ /* nl */,
    D, D,
    SPACE | NQ /* cr */,
    D, D
  ]
  const Codes10To1F: seq<bv8> := [
    D, D, D, D, D, D, D, D, D, D, D, D, D, D, D, D
  ]
  const Codes20To2F: seq<bv8> := [
    SPACE | NQ /* space */,
    D,
    TOKEN /* " */,
    D, D, D, D,
    TOKEN /* ' */,
    D, D, D, D, D, D, D, D
  ]
  const Codes30To3F: seq<bv8> := [
    D, D, D, D, D, D, D, D, D, D, D, D, D,
    TOKEN | NQ /* = */,
    TOKEN | NQ /* > */,
    D
  ]
  const Codes40To4F: seq<bv8> := [
    D, D, D, D, D, D, D, D, D, D, D, D, D, D, D, D
  ]
  const Codes50To5D: seq<bv8> := [
    D, D, D, D, D, D, D, D, D, D, D,
    TOKEN | NQ /* [ */,
    TOKEN /* backslash */,
    TOKEN | NQ /* ] */
  ]

  const CharacterClassTable: seq<bv8> :=
    Codes00To0F + Codes10To1F + Codes20To2F + Codes30To3F + Codes40To4F + Codes50To5D

  /** xqCharacterClass: the table entry, or the default above ']'. */
  function CharacterClass(c: char): bv8 {
    if c > ']' then DEFAULT_CLASS
    else
      assert |CharacterClassTable| == 94;
      Entry(CharacterClassTable, c as int)
  }

  /** Entry `k` of a table, counted off one entry at a time. Written as a walk,
      the table is only read as far as a proof asks; EntryIsIndex says it is
      the entry at index `k`. */
  function Entry(table: seq<bv8>, k: nat): bv8
    requires k < |table|
  {
    if k == 0 then table[0] else Entry(table[1..], k - 1)
  }

  lemma {:induction false} EntryIsIndex(table: seq<bv8>, k: nat)
    requires k < |table|
    ensures Entry(table, k) == table[k]
  {
    if k > 0 {
      EntryIsIndex(table[1..], k - 1);
    }
  }

  predicate IsSpace(c: char) { CharacterClass(c) & SPACE != 0 }
  predicate IsNotSpace(c: char) { CharacterClass(c) & NS != 0 }
  predicate IsToken(c: char) { CharacterClass(c) & TOKEN != 0 }
  predicate IsNotQuote(c: char) { CharacterClass(c) & NQ != 0 }

  /** The terminals of the selector grammar, written out. */
  predicate IsWhiteSpaceChar(c: char) { c == ' ' || c == '\t' || c == '\r' || c == '\n' }
  predicate IsTokenChar(c: char) {
    c == '"' || c == '\'' || c == '=' || c == '>' || c == '[' || c == '\\' || c == ']'
  }

  /** The class each character should have by the grammar: NUL has none;
      S is white space that may be quoted; the quotes and backslash are tokens
      that may not be quoted; the other tokens may be; everything else is an
      identifier character that may be quoted. */
  function GrammarClass(c: char): bv8 {
    if c == '\0' then 0
    else if IsWhiteSpaceChar(c) then SPACE | NQ
    else if c == '"' || c == '\'' || c == '\\' then TOKEN
    else if IsTokenChar(c) then TOKEN | NQ
    else NS | NQ
  }

  /** The table gives every character the class the grammar asks for. */
  lemma ClassTableMatchesGrammar(c: char)
    ensures CharacterClass(c) == GrammarClass(c)
  {
    if c <= ']' {
      var k := c as int;
      EntryIsIndex(CharacterClassTable, k);
      if k < 0x10 {
        assert CharacterClassTable[k] == Codes00To0F[k - 0x00];
        Codes00To0FMatchesGrammar(k);
      } else if k < 0x20 {
        assert CharacterClassTable[k] == Codes10To1F[k - 0x10];
        Codes10To1FMatchesGrammar(k);
      } else if k < 0x30 {
        assert CharacterClassTable[k] == Codes20To2F[k - 0x20];
        Codes20To2FMatchesGrammar(k);
      } else if k < 0x40 {
        assert CharacterClassTable[k] == Codes30To3F[k - 0x30];
        Codes30To3FMatchesGrammar(k);
      } else if k < 0x50 {
        assert CharacterClassTable[k] == Codes40To4F[k - 0x40];
        Codes40To4FMatchesGrammar(k);
      } else {
        assert CharacterClassTable[k] == Codes50To5D[k - 0x50];
        Codes50To5DMatchesGrammar(k);
      }
    }
  }

  /** Each row of the table agrees with the grammar. */
  lemma Codes00To0FMatchesGrammar(k: nat)
    requires 0x00 <= k < 0x10
    ensures Codes00To0F[k - 0x00] == GrammarClass(k as char)
  {
  }

  lemma Codes10To1FMatchesGrammar(k: nat)
    requires 0x10 <= k < 0x20
    ensures Codes10To1F[k - 0x10] == GrammarClass(k as char)
  {
  }

  lemma Codes20To2FMatchesGrammar(k: nat)
    requires 0x20 <= k < 0x30
    ensures Codes20To2F[k - 0x20] == GrammarClass(k as char)
  {
  }

  lemma Codes30To3FMatchesGrammar(k: nat)
    requires 0x30 <= k < 0x40
    ensures Codes30To3F[k - 0x30] == GrammarClass(k as char)
  {
  }

  lemma Codes40To4FMatchesGrammar(k: nat)
    requires 0x40 <= k < 0x50
    ensures Codes40To4F[k - 0x40] == GrammarClass(k as char)
  {
  }

  lemma Codes50To5DMatchesGrammar(k: nat)
    requires 0x50 <= k < 0x5E
    ensures Codes50To5D[k - 0x50] == GrammarClass(k as char)
  {
  }

  /** The table encodes the grammar's terminals: S is space, tab, CR and LF;
      the tokens are the quotes, '=', '>', '[', backslash and ']'; an
      identifier character is anything else but NUL; and a quoted string may
      hold anything but NUL, backslash and the two quotes unescaped. */
  lemma CharacterClasses(c: char)
    ensures IsSpace(c) <==> IsWhiteSpaceChar(c)
    ensures IsToken(c) <==> IsTokenChar(c)
    ensures IsNotSpace(c) <==> c != '\0' && !IsWhiteSpaceChar(c) && !IsTokenChar(c)
    ensures IsNotQuote(c) <==> c != '\0' && c != '\\' && c != '"' && c != '\''
  {
    ClassTableMatchesGrammar(c);
  }
}

=== FILE: search_compile.dfy ===
/**
 * The selector compiler of search.c: a recursive-descent parser over the
 * tokens of nextToken that builds the chain of steps.
 *
 * The parse routines are specified by functions over the token table of the
 * selector and a cursor (Selector, Rest, Attribs, Attrib) and implemented by
 * methods that call NextToken as the C code does (ParseSelector, ParseAttrib,
 * AllocInit).
 * A routine's result is its status, the steps it linked, and the cursor of the
 * token it leaves behind.
 */
module SearchCompile {
  import opened LibXQ
  import opened SearchTokens
  import opened SearchExprs

  datatype Parsed = Parsed(status: StatusCode, steps: seq<Operation>, strPtr: nat)

  /** How a `>` with nothing after it is read: search.c:344-360 lets the
      XQ_NO_TOKEN through, so the compiler accepts it (AsWritten); the
      evident intent is a syntax error (Intended). */
  datatype Dialect = AsWritten | Intended

  /** `status == XQ_NO_TOKEN ? XQ_OK : status`: running out of tokens ends a
      selector without error. */
  function NoTokenIsOk(status: StatusCode): (r: StatusCode)
    ensures r != NoToken
    ensures status != NoToken ==> r == status
  {
    if status == NoToken then Ok else status
  }

  /** The lexed token is the one-character token `c`. */
  predicate IsPunct(t: Lexed, c: char) {
    t.status == Ok && t.token.kind == TtToken && t.token.content != [] && t.token.content[0] == c
  }

  /** The token nextToken reads from every cursor of `s`, its end included.
      The parse routines read their tokens from this table: nextToken depends
      on nothing but the cursor it starts from. */
  function Tokens(s: string): (toks: seq<Lexed>)
    ensures |toks| == |s| + 1 && IsTokenTable(toks)
  {
    seq(|s| + 1, i requires 0 <= i <= |s| => Lex(s, i))
  }

  /** What every entry of a token table keeps of nextToken's contract: one of
      its three statuses, and a cursor that stays in the string and moves on
      past every token read. */
  predicate IsTokenTable(toks: seq<Lexed>) {
    forall i :: 0 <= i < |toks| ==>
      && (toks[i].status == Ok || toks[i].status == NoToken || toks[i].status == UnterminatedStr)
      && i <= toks[i].token.strPtr < |toks|
      && (toks[i].status == Ok ==> i < toks[i].token.strPtr)
  }

  /** The part of an attribute test after its '[' (search.c:404-434):
      IDENT, '=', a string or IDENT, and ']'. The first token that is not
      what the grammar asks for gives XQ_INVALID_SEL_UNEXPECTED_TOKEN; a
      tokenizer error is passed on. */
  function Attrib(toks: seq<Lexed>, q: nat): (r: Parsed)
    requires IsTokenTable(toks) && q < |toks|
    ensures r.status == Ok ==> q < r.strPtr < |toks|
    ensures r.status != Ok ==> r.strPtr == q && r.steps == []
  {
    var n := toks[q];
    if n.status != Ok then Parsed(n.status, [], q)
    else if n.token.kind != TtIdent then Parsed(UnexpectedToken, [], q)
    else
      var o := toks[n.token.strPtr];
      if o.status != Ok then Parsed(o.status, [], q)
      else if !IsPunct(o, '=') then Parsed(UnexpectedToken, [], q)
      else
        var v := toks[o.token.strPtr];
        if v.status != Ok then Parsed(v.status, [], q)
        else if v.token.kind != TtString && v.token.kind != TtIdent then Parsed(UnexpectedToken, [], q)
        else
          var e := toks[v.token.strPtr];
          if e.status != Ok then Parsed(e.status, [], q)
          else if !IsPunct(e, ']') then Parsed(UnexpectedToken, [], q)
          else Parsed(Ok, [FilterAttributeEquals(n.token.content, v.token.content)], e.token.strPtr)
  }

  /** parseAttrib (search.c:388-459): any number of `[name=value]` tests. A
      token other than '[' ends them and is left for the caller (the cursor
      stays at `p`); XQ_NO_TOKEN there is passed on, inside the brackets it
      becomes XQ_INVALID_SEL_UNEXPECTED_TOKEN. */
  function Attribs(toks: seq<Lexed>, p: nat): (r: Parsed)
    requires IsTokenTable(toks) && p < |toks|
    decreases |toks| - p
    ensures p <= r.strPtr < |toks|
  {
    var peek := toks[p];
    if IsPunct(peek, '[') then
      var a := Attrib(toks, peek.token.strPtr);
      if a.status == NoToken then Parsed(UnexpectedToken, [], p)
      else if a.status != Ok then Parsed(a.status, [], p)
      else
        var rest := Attribs(toks, a.strPtr);
        Parsed(rest.status, a.steps + rest.steps, rest.strPtr)
    else Parsed(peek.status, [], p)
  }

  /** parseSelector (search.c:335-379): an element name, or `>` and an
      element name, then its attribute tests and the rest of the selector.
      The end of the selector is not an error. */
  function Selector(d: Dialect, toks: seq<Lexed>, p: nat): (r: Parsed)
    requires IsTokenTable(toks) && p < |toks|
    decreases |toks| - p, 1
    ensures p <= r.strPtr < |toks|
  {
    var t := toks[p];
    if t.status != Ok then Parsed(NoTokenIsOk(t.status), [], t.token.strPtr)
    else if IsPunct(t, '>') then
      var u := toks[t.token.strPtr];
      if u.status == Ok && u.token.kind == TtIdent then Rest(d, toks, FindChildrenByName(u.token.content), u.token.strPtr)
      else if u.status == Ok then Parsed(UnexpectedToken, [], u.token.strPtr)
      else if u.status == NoToken && d == Intended then Parsed(UnexpectedToken, [], u.token.strPtr)
      else Parsed(NoTokenIsOk(u.status), [], u.token.strPtr)
    else if t.token.kind == TtIdent then Rest(d, toks, FindDescendantsByName(t.token.content), t.token.strPtr)
    else Parsed(UnexpectedToken, [], t.token.strPtr)
  }

  /** What parseSelector does once it has the element step `op`: parse the
      attribute tests behind it and then, if that succeeded, the rest of the
      selector, linking both behind `op`. */
  function Rest(d: Dialect, toks: seq<Lexed>, op: Operation, q: nat): (r: Parsed)
    requires IsTokenTable(toks) && q < |toks|
    decreases |toks| - q + 1, 0
    ensures q <= r.strPtr < |toks|
  {
    var a := Attribs(toks, q);
    if a.status != Ok then Parsed(NoTokenIsOk(a.status), [op] + a.steps, a.strPtr)
    else
      var rest := Selector(d, toks, a.strPtr);
      Parsed(NoTokenIsOk(rest.status), [op] + a.steps + rest.steps, rest.strPtr)
  }

  /** The statuses the parse routines end with: a tokenizer error, a syntax
      error, or success; XQ_NO_TOKEN only where parseAttrib ran out of
      tokens, never from parseSelector. */
  lemma {:induction false} AttribsStatus(toks: seq<Lexed>, p: nat)
    requires IsTokenTable(toks) && p < |toks|
    decreases |toks| - p
    ensures var r := Attribs(toks, p);
      r.status == Ok || r.status == NoToken || r.status == UnterminatedStr || r.status == UnexpectedToken
    ensures forall i :: 0 <= i < |Attribs(toks, p).steps| ==> Attribs(toks, p).steps[i].FilterAttributeEquals?
  {
    var peek := toks[p];
    if IsPunct(peek, '[') {
      var a := Attrib(toks, peek.token.strPtr);
      if a.status == Ok {
        AttribsStatus(toks, a.strPtr);
      }
    }
  }

  /** A selector's steps are element steps and attribute tests, and the
      first is an element step. */
  lemma {:induction false} SelectorShape(d: Dialect, toks: seq<Lexed>, p: nat)
    requires IsTokenTable(toks) && p < |toks|
    decreases |toks| - p, 1
    ensures var r := Selector(d, toks, p);
      && (r.status == Ok || r.status == UnterminatedStr || r.status == UnexpectedToken)
      && (r.steps != [] ==> IsElementStep(r.steps[0]))
      && forall i :: 0 <= i < |r.steps| ==> IsElementStep(r.steps[i]) || r.steps[i].FilterAttributeEquals?
  {
    var t := toks[p];
    if t.status == Ok {
      if IsPunct(t, '>') {
        var u := toks[t.token.strPtr];
        if u.status == Ok && u.token.kind == TtIdent {
          RestShape(d, toks, FindChildrenByName(u.token.content), u.token.strPtr);
        }
      } else if t.token.kind == TtIdent {
        RestShape(d, toks, FindDescendantsByName(t.token.content), t.token.strPtr);
      }
    }
  }

  lemma {:induction false} RestShape(d: Dialect, toks: seq<Lexed>, op: Operation, q: nat)
    requires IsTokenTable(toks) && q < |toks| && IsElementStep(op)
    decreases |toks| - q + 1, 0
    ensures var r := Rest(d, toks, op, q);
      && (r.status == Ok || r.status == UnterminatedStr || r.status == UnexpectedToken)
      && r.steps != [] && r.steps[0] == op
      && forall i :: 0 <= i < |r.steps| ==> IsElementStep(r.steps[i]) || r.steps[i].FilterAttributeEquals?
  {
    var a := Attribs(toks, q);
    AttribsStatus(toks, q);
    if a.status == Ok {
      SelectorShape(d, toks, a.strPtr);
      LinkedShape(op, a.steps, Selector(d, toks, a.strPtr).steps);
    } else {
      LinkedShape(op, a.steps, []);
      assert [op] + a.steps + [] == [op] + a.steps;
    }
  }

  /** An element step, attribute tests behind it, and steps of either kind
      behind those. */
  lemma LinkedShape(op: Operation, xs: seq<Operation>, ys: seq<Operation>)
    requires IsElementStep(op) && forall i :: 0 <= i < |xs| ==> xs[i].FilterAttributeEquals?
    requires forall i :: 0 <= i < |ys| ==> IsElementStep(ys[i]) || ys[i].FilterAttributeEquals?
    ensures var steps := [op] + xs + ys;
      && steps[0] == op
      && forall i :: 0 <= i < |steps| ==> IsElementStep(steps[i]) || steps[i].FilterAttributeEquals?
  {
    var steps := [op] + xs + ys;
    forall i | 0 <= i < |steps| ensures IsElementStep(steps[i]) || steps[i].FilterAttributeEquals? {
      if i == 0 {
      } else if i < 1 + |xs| {
        assert steps[i] == xs[i - 1];
      } else {
        assert steps[i] == ys[i - 1 - |xs|];
      }
    }
  }

  /** The steps a selector names elements with. */
  predicate IsElementStep(op: Operation) {
    op.FindDescendantsByName? || op.FindChildrenByName?
  }

  /** The chains the compiler builds: a single copy step, or an element step
      followed by element steps and attribute tests. */
  ghost predicate IsCompiledChain(ops: seq<Operation>) {
    || ops == [AddToOutput]
    || (&& ops != []
        && IsElementStep(ops[0])
        && forall i :: 0 <= i < |ops| ==> IsElementStep(ops[i]) || ops[i].FilterAttributeEquals?)
  }

  /** xQSearchExpr_alloc_init (search.c:297-314): parse the whole selector;
      a selector with no steps becomes a single copy step. NoToken never
      leaves the compiler. */
  function Compile(d: Dialect, s: string): (r: Outcome<Expr>)
    ensures r.Failure? ==> r.status == UnterminatedStr || r.status == UnexpectedToken
    ensures r.Success? ==> IsCompiledChain(Steps(r.value))
  {
    var r := Selector(d, Tokens(s), 0);
    SelectorShape(d, Tokens(s), 0);
    if r.status != Ok then Failure(r.status)
    else if r.steps == [] then Success(Expr(AddToOutput, None))
    else
      StepsOfFromSteps(r.steps);
      Success(FromSteps(r.steps))
  }

  /** parseAttrib (search.c:388-459) on the token `tok`: it peeks with a copy
      of `tok` and hands the copy back only when a test was read. */
  method ParseAttrib(s: string, tok: Token) returns (status: StatusCode, steps: seq<Operation>, next: Token)
    requires tok.strPtr <= |s|
    decreases |s| - tok.strPtr
    ensures Parsed(status, steps, next.strPtr) == Attribs(Tokens(s), tok.strPtr)
  {
    var peek;
    status, peek := NextToken(s, tok);
    if !(status == Ok && peek.kind == TtToken && peek.content[0] == '[') {
      return status, [], tok;
    }
    ghost var open := peek.strPtr;
    status, peek := NextToken(s, peek);
    var attrName := peek.content;
    if status == Ok && peek.kind != TtIdent {
      status := UnexpectedToken;
    }
    if status == Ok {
      status, peek := NextToken(s, peek);
    }
    if status == Ok && (peek.kind != TtToken || peek.content[0] != '=') {
      status := UnexpectedToken;
    }
    var attrValue := "";
    if status == Ok {
      status, peek := NextToken(s, peek);
      attrValue := peek.content;
    }
    if status == Ok && peek.kind != TtString && peek.kind != TtIdent {
      status := UnexpectedToken;
    }
    if status == Ok {
      status, peek := NextToken(s, peek);
    }
    if status == Ok && (peek.kind != TtToken || peek.content[0] != ']') {
      status := UnexpectedToken;
    }
    if status == NoToken {
      status := UnexpectedToken;
    }
    if status != Ok {
      return status, [], tok;
    }
    assert Attrib(Tokens(s), open) == Parsed(Ok, [FilterAttributeEquals(attrName, attrValue)], peek.strPtr);
    var rest;
    status, rest, next := ParseAttrib(s, peek);
    steps := [FilterAttributeEquals(attrName, attrValue)] + rest;
  }

  /** parseSelector (search.c:335-379) on the token `tok`, with a lone `>`
      refused. */
  method ParseSelector(s: string, tok: Token) returns (status: StatusCode, steps: seq<Operation>, next: Token)
    requires tok.strPtr <= |s|
    decreases |s| - tok.strPtr
    ensures Parsed(status, steps, next.strPtr) == Selector(Intended, Tokens(s), tok.strPtr)
  {
    status, next := NextToken(s, tok);
    if status != Ok {
      return NoTokenIsOk(status), [], next;
    }
    var op;
    if next.kind == TtToken && next.content[0] == '>' {
      status, next := NextToken(s, next);
      if status == Ok && next.kind == TtIdent {
        op := FindChildrenByName(next.content);
      } else if status == Ok {
        return UnexpectedToken, [], next;
      } else if status == NoToken {
        return UnexpectedToken, [], next;
      } else {
        return status, [], next;
      }
    } else if next.kind == TtIdent {
      op := FindDescendantsByName(next.content);
    } else {
      return UnexpectedToken, [], next;
    }
    var attribs, rest;
    status, attribs, next := ParseAttrib(s, next);
    if status != Ok {
      return NoTokenIsOk(status), [op] + attribs, next;
    }
    status, rest, next := ParseSelector(s, next);
    return NoTokenIsOk(status), [op] + attribs + rest, next;
  }

  /** The out-pointer of xQSearchExpr_alloc_init as written, on failure:
      parseSelector has stored its first step in `*self` before the error,
      and search.c:310-311 frees that chain without resetting `*self`, so the
      caller gets a dangling non-null pointer. True when that happens. */
  function DanglingAfterFailure(d: Dialect, s: string): (dangling: bool)
    ensures dangling ==> Compile(d, s).Failure?
  {
    var r := Selector(d, Tokens(s), 0);
    r.status != Ok && r.steps != []
  }

  /** Once the first token is an element name, parseSelector has linked a
      step, so every failure from there on leaves the pointer dangling. */
  lemma FailureAfterNameDangles(d: Dialect, s: string)
    requires Lex(s, 0).status == Ok && Lex(s, 0).token.kind == TtIdent
    requires Compile(d, s).Failure?
    ensures DanglingAfterFailure(d, s)
  {
    assert Tokens(s)[0] == Lex(s, 0);
  }

  /** xQSearchExpr_alloc_init (search.c:297-314): the compiled chain, or the
      status of the first error and no chain. */
  method AllocInit(s: string) returns (status: StatusCode, expr: Option<Expr>)
    ensures status == Ok ==> expr.Some? && Compile(Intended, s) == Success(expr.value)
    ensures status != Ok ==> expr.None? && Compile(Intended, s) == Failure(status)
  {
    var steps, tok;
    status, steps, tok := ParseSelector(s, Token(TtNone, "", 0));
    if status != Ok {
      return status, None;
    }
    if steps == [] {
      steps := [AddToOutput];  // xQSearchExpr_alloc_init_copy
    }
    expr := Some(FromSteps(steps));
  }
}

=== FILE: search_eval.dfy ===
/**
 * The evaluator of search.c: xQSearchExpr_eval runs a compiled chain from
 * one node, fanning out over the results of each step.
 *
 * Evaluate is the reference definition of what a chain appends, Eval the
 * method that walks the chain the way the C code does through a temporary
 * node list. Pipeline is an independent definition, step by step over whole
 * lists of nodes; EvaluateIsPipeline shows the two agree.
 */
module SearchEval {
  import opened LibXQ
  import opened XmlTree
  import opened NodeLists
  import opened SearchExprs
  import Traverse

  /** What the operation of one step appends for `node`: the reference result
      of the traverse.c function the step points to. */
  function OpResult(t: Tree, op: Operation, node: NodeId): (r: seq<NodeId>)
    requires ValidTree(t) && node < |t|
    ensures AllNodesIn(t, r)
    ensures op.AddToOutput? ==> r == [node]
  {
    Traverse.ChildrenInTree(t, node);
    Traverse.DescendantsByNameFiltered(t, node, if op.FindDescendantsByName? then op.name else []);
    match op
    case AddToOutput => [node]
    case FindDescendantsByName(name) => Traverse.DescendantsByName(t, node, name)
    case FindChildrenByName(name) => Traverse.ChildrenByName(t, node, name)
    case FilterAttributeEquals(attr, value) => Traverse.AttributeEquals(t, node, attr, value)
    case FindDescendants => Traverse.Descendants(t, node)
    case FindNextSiblingByName(name) => Traverse.NextSiblingByName(t, node, name)
    case FilterByName(name) => Traverse.SelfByName(t, node, name)
  }

  /** What xQSearchExpr_eval appends for `node`: the result of the first
      step when it is the only one; otherwise, for each node of that result
      in order, what the rest of the chain appends for it. */
  function Evaluate(t: Tree, e: Expr, node: NodeId): (r: seq<NodeId>)
    requires ValidTree(t) && node < |t|
    ensures AllNodesIn(t, r)
    decreases e, 0
  {
    match e.next
    case None => OpResult(t, e.operation, node)
    case Some(n) => EvaluateAll(t, n, OpResult(t, e.operation, node))
  }

  /** The chain `e` evaluated on each node of `ns` in turn, results
      concatenated. */
  function EvaluateAll(t: Tree, e: Expr, ns: seq<NodeId>): (r: seq<NodeId>)
    requires ValidTree(t) && AllNodesIn(t, ns)
    ensures AllNodesIn(t, r)
    decreases e, 1, |ns|
  {
    if ns == [] then [] else Evaluate(t, e, ns[0]) + EvaluateAll(t, e, ns[1..])
  }

  /** The outcome of an evaluation that may stop at the first failing push,
      anywhere inside the chain: the status is XQ_OK or XQ_OUT_OF_MEMORY, the
      list only grows and never beyond `before + r`, and on XQ_OK it gained
      exactly `r`. Unlike Appended, a failure may leave nothing of `r` out:
      the failing push may be one into a temporary list whose entries would
      all have led nowhere. */
  ghost predicate AppendedAtMost(before: seq<NodeId>, after: seq<NodeId>, r: seq<NodeId>, status: StatusCode) {
    && (status == Ok || status == OutOfMemory)
    && before <= after
    && after <= before + r
    && (status == Ok ==> after == before + r)
  }

  lemma AtMostOfAppended(before: seq<NodeId>, after: seq<NodeId>, r: seq<NodeId>, status: StatusCode)
    requires Appended(before, after, r, status)
    ensures AppendedAtMost(before, after, r, status)
  {
  }

  lemma AtMostNothing(before: seq<NodeId>, status: StatusCode)
    requires status == Ok || status == OutOfMemory
    ensures AppendedAtMost(before, before, [], status)
  {
    assert before + [] == before;
  }

  /** Having appended `r1` and then, if that succeeded, `r2`, is having
      appended `r1 + r2`. */
  lemma AtMostThen(b0: seq<NodeId>, b1: seq<NodeId>, b2: seq<NodeId>, r1: seq<NodeId>, r2: seq<NodeId>,
                   s1: StatusCode, s2: StatusCode)
    requires AppendedAtMost(b0, b1, r1, s1)
    requires s1 == Ok ==> AppendedAtMost(b1, b2, r2, s2)
    requires s1 != Ok ==> b2 == b1 && s2 == s1
    ensures AppendedAtMost(b0, b2, r1 + r2, s2)
  {
    ConcatAssociative(b0, r1, r2);
    PrefixOfAppend(b1, b0 + r1, r2);
    if s1 == Ok {
      PrefixTransitive(b0, b1, b2);
    }
  }

  /** A failure part-way through `r` is a failure part-way through any `r'`
      that `r` begins. */
  lemma AtMostWithin(before: seq<NodeId>, after: seq<NodeId>, r: seq<NodeId>, r': seq<NodeId>, status: StatusCode)
    requires AppendedAtMost(before, after, r, status) && status != Ok && r <= r'
    ensures AppendedAtMost(before, after, r', status)
  {
    assert (before + r')[..|before + r|] == before + r;
    PrefixTransitive(after, before + r, before + r');
  }

  /** EvaluateAll distributes over concatenation. */
  lemma {:induction false} EvaluateAllConcat(t: Tree, e: Expr, a: seq<NodeId>, b: seq<NodeId>)
    requires ValidTree(t) && AllNodesIn(t, a) && AllNodesIn(t, b)
    ensures AllNodesIn(t, a + b)
    ensures EvaluateAll(t, e, a + b) == EvaluateAll(t, e, a) + EvaluateAll(t, e, b)
    decreases |a|
  {
    if a == [] {
      assert a + b == b;
    } else {
      assert (a + b)[1..] == a[1..] + b;
      EvaluateAllConcat(t, e, a[1..], b);
    }
  }

  /** Evaluating on a prefix of a list gives a prefix of the results. */
  lemma EvaluateAllPrefix(t: Tree, e: Expr, a: seq<NodeId>, b: seq<NodeId>)
    requires ValidTree(t) && AllNodesIn(t, b) && a <= b
    ensures AllNodesIn(t, a)
    ensures EvaluateAll(t, e, a) <= EvaluateAll(t, e, b)
  {
    var rest := b[|a|..];
    assert b == a + rest;
    EvaluateAllConcat(t, e, a, rest);
    PrefixOfSelf(EvaluateAll(t, e, a), EvaluateAll(t, e, rest));
  }

  /** One more node of the list. */
  lemma EvaluateAllSnoc(t: Tree, e: Expr, ns: seq<NodeId>, i: nat)
    requires ValidTree(t) && AllNodesIn(t, ns) && i < |ns|
    ensures AllNodesIn(t, ns[..i]) && ns[i] < |t|
    ensures EvaluateAll(t, e, ns[..i + 1]) == EvaluateAll(t, e, ns[..i]) + Evaluate(t, e, ns[i])
  {
    assert ns[..i + 1] == ns[..i] + [ns[i]];
    EvaluateAllConcat(t, e, ns[..i], [ns[i]]);
    assert [ns[i]][1..] == [];
  }

  /** The indirect call `self->operation(context, self->argv, node, outList)`
      (search.c:602, 606): the traverse.c function of the step, on its
      arguments. */
  method Apply(t: Tree, op: Operation, node: NodeId, outList: NodeList) returns (status: StatusCode)
    requires ValidTree(t) && node < |t| && outList.Valid()
    modifies outList.Repr
    ensures outList.Valid() && fresh(outList.Repr - old(outList.Repr))
    ensures Appended(old(outList.Contents()), outList.Contents(), OpResult(t, op, node), status)
  {
    match op
    case AddToOutput =>
      status := Traverse.AddToOutput(t, node, outList);
    case FindDescendantsByName(name) =>
      status := Traverse.FindDescendantsByName(t, name, node, outList);
    case FindChildrenByName(name) =>
      Traverse.ChildrenInTree(t, node);
      status := Traverse.FindChildrenByName(t, name, node, outList);
    case FilterAttributeEquals(attr, value) =>
      status := Traverse.FilterAttributeEquals(t, attr, value, node, outList);
    case FindDescendants =>
      status := Traverse.FindDescendants(t, node, outList);
    case FindNextSiblingByName(name) =>
      status := Traverse.FindNextSiblingByName(t, name, node, outList);
    case FilterByName(name) =>
      status := Traverse.FilterByName(t, name, node, outList);
  }

  /** xQSearchExpr_eval (search.c:597-613): a one-step chain appends its
      step's result to `outList`; a longer one collects the first step's
      result in a temporary list and evaluates the rest of the chain on each
      of its nodes. The status of xQNodeList_init is not looked at: a
      temporary list without a buffer gets one on its first push. */
  method Eval(t: Tree, e: Expr, node: NodeId, outList: NodeList) returns (status: StatusCode)
    requires ValidTree(t) && node < |t| && outList.Valid()
    modifies outList.Repr
    ensures outList.Valid() && fresh(outList.Repr - old(outList.Repr))
    ensures AppendedAtMost(old(outList.Contents()), outList.Contents(), Evaluate(t, e, node), status)
    decreases e, 0
  {
    if e.next.None? {
      status := Apply(t, e.operation, node, outList);
      AtMostOfAppended(old(outList.Contents()), outList.Contents(), OpResult(t, e.operation, node), status);
      return;
    }
    var next := e.next.value;
    ghost var firsts := OpResult(t, e.operation, node);
    var tmpList := new NodeList();
    var _ := tmpList.Init(8);
    ghost var empty := tmpList.Contents();
    status := Apply(t, e.operation, node, tmpList);
    assert empty + firsts == firsts;
    if status == Ok {
      status := EvalEach(t, next, tmpList, outList);
    } else {
      AtMostNothing(outList.Contents(), status);
      EvaluateAllPrefix(t, next, [], firsts);
      AtMostWithin(outList.Contents(), outList.Contents(), [], Evaluate(t, e, node), status);
    }
  }

  /** The loop of xQSearchExpr_eval (search.c:608-609): the chain `e` on
      each node of `from` in turn, until one evaluation fails. */
  method EvalEach(t: Tree, e: Expr, from: NodeList, outList: NodeList) returns (status: StatusCode)
    requires ValidTree(t) && from.Valid() && outList.Valid() && from.Repr !! outList.Repr
    requires AllNodesIn(t, from.Contents())
    modifies outList.Repr
    ensures outList.Valid() && fresh(outList.Repr - old(outList.Repr))
    ensures AppendedAtMost(old(outList.Contents()), outList.Contents(), EvaluateAll(t, e, from.Contents()), status)
    decreases e, 1
  {
    ghost var before := outList.Contents();
    ghost var ns := from.Contents();
    status := Ok;
    var i := 0;
    AtMostNothing(before, status);
    while status == Ok && i < from.size
      invariant from.Repr !! outList.Repr
      invariant outList.Valid() && fresh(outList.Repr - old(outList.Repr))
      invariant 0 <= i <= |ns|
      invariant AppendedAtMost(before, outList.Contents(), EvaluateAll(t, e, ns[..i]), status)
    {
      ghost var prior := outList.Contents();
      EvaluateAllSnoc(t, e, ns, i);
      status := Eval(t, e, from.list[i], outList);
      AtMostThen(before, prior, outList.Contents(), EvaluateAll(t, e, ns[..i]), Evaluate(t, e, ns[i]), Ok, status);
      i := i + 1;
    }
    if status == Ok {
      assert ns[..i] == ns;
    } else {
      EvaluateAllPrefix(t, e, ns[..i], ns);
      AtMostWithin(before, outList.Contents(), EvaluateAll(t, e, ns[..i]), EvaluateAll(t, e, ns), status);
    }
  }

  // The chain, step by step.

  /** One step of a set-at-a-time evaluation: the results of `op` for each
      node of `ns`, concatenated in order. */
  function Stage(t: Tree, op: Operation, ns: seq<NodeId>): (r: seq<NodeId>)
    requires ValidTree(t) && AllNodesIn(t, ns)
    ensures AllNodesIn(t, r)
  {
    if ns == [] then [] else OpResult(t, op, ns[0]) + Stage(t, op, ns[1..])
  }

  /** The steps `ops` run one after the other, each on the whole output of
      the one before. */
  function Pipeline(t: Tree, ops: seq<Operation>, ns: seq<NodeId>): (r: seq<NodeId>)
    requires ValidTree(t) && AllNodesIn(t, ns)
    ensures AllNodesIn(t, r)
  {
    if ops == [] then ns else Pipeline(t, ops[1..], Stage(t, ops[0], ns))
  }

  /** A node is in the output of a stage exactly when the step gives it for
      some node of the input. */
  lemma {:induction false} StageMembership(t: Tree, op: Operation, ns: seq<NodeId>, x: NodeId)
    requires ValidTree(t) && AllNodesIn(t, ns)
    ensures x in Stage(t, op, ns) <==> exists k :: 0 <= k < |ns| && x in OpResult(t, op, ns[k])
    decreases |ns|
  {
    if ns != [] {
      StageMembership(t, op, ns[1..], x);
      if x in Stage(t, op, ns[1..]) {
        var k :| 0 <= k < |ns[1..]| && x in OpResult(t, op, ns[1..][k]);
        assert ns[k + 1] == ns[1..][k];
      }
      if exists k :: 0 <= k < |ns| && x in OpResult(t, op, ns[k]) {
        var k :| 0 <= k < |ns| && x in OpResult(t, op, ns[k]);
        if k > 0 {
          assert ns[1..][k - 1] == ns[k];
        }
      }
    }
  }

  lemma {:induction false} StageConcat(t: Tree, op: Operation, a: seq<NodeId>, b: seq<NodeId>)
    requires ValidTree(t) && AllNodesIn(t, a) && AllNodesIn(t, b)
    ensures AllNodesIn(t, a + b)
    ensures Stage(t, op, a + b) == Stage(t, op, a) + Stage(t, op, b)
    decreases |a|
  {
    if a == [] {
      assert a + b == b;
    } else {
      var x, rest := a[0], a[1..];
      assert (a + b)[0] == x && (a + b)[1..] == rest + b;
      StageConcat(t, op, rest, b);
      assert Stage(t, op, a + b) == OpResult(t, op, x) + Stage(t, op, rest + b);
      assert Stage(t, op, a) == OpResult(t, op, x) + Stage(t, op, rest);
      ConcatAssociative(OpResult(t, op, x), Stage(t, op, rest), Stage(t, op, b));
    }
  }

  /** The pipeline distributes over concatenation of its input. */
  lemma {:induction false} PipelineConcat(t: Tree, ops: seq<Operation>, a: seq<NodeId>, b: seq<NodeId>)
    requires ValidTree(t) && AllNodesIn(t, a) && AllNodesIn(t, b)
    ensures AllNodesIn(t, a + b)
    ensures Pipeline(t, ops, a + b) == Pipeline(t, ops, a) + Pipeline(t, ops, b)
    decreases |ops|
  {
    StageConcat(t, if ops == [] then AddToOutput else ops[0], a, b);
    if ops != [] {
      PipelineConcat(t, ops[1..], Stage(t, ops[0], a), Stage(t, ops[0], b));
    }
  }

  lemma StageSingle(t: Tree, op: Operation, x: NodeId)
    requires ValidTree(t) && x < |t|
    ensures AllNodesIn(t, [x]) && Stage(t, op, [x]) == OpResult(t, op, x)
  {
    assert [x][1..] == [];
  }

  lemma {:induction false} PipelineOfNothing(t: Tree, ops: seq<Operation>)
    requires ValidTree(t)
    ensures Pipeline(t, ops, []) == []
    decreases |ops|
  {
    if ops != [] {
      PipelineOfNothing(t, ops[1..]);
    }
  }

  /** Evaluating a chain on one node is running its steps as a pipeline
      from that node. */
  lemma {:induction false} EvaluateOnePipeline(t: Tree, e: Expr, x: NodeId)
    requires ValidTree(t) && x < |t|
    ensures AllNodesIn(t, [x]) && Evaluate(t, e, x) == Pipeline(t, Steps(e), [x])
    decreases e, 0
  {
    StageSingle(t, e.operation, x);
    match e.next
    case None =>
    case Some(n) =>
      EvaluateAllPipeline(t, n, OpResult(t, e.operation, x));
      assert Steps(e)[1..] == Steps(n);
  }

  /** The fan-out evaluation of a chain over a list is the pipeline of its
      steps over that list. */
  lemma {:induction false} EvaluateAllPipeline(t: Tree, e: Expr, ns: seq<NodeId>)
    requires ValidTree(t) && AllNodesIn(t, ns)
    ensures EvaluateAll(t, e, ns) == Pipeline(t, Steps(e), ns)
    decreases e, 1, |ns|
  {
    if ns == [] {
      PipelineOfNothing(t, Steps(e));
    } else {
      var x, rest := ns[0], ns[1..];
      assert EvaluateAll(t, e, ns) == Evaluate(t, e, x) + EvaluateAll(t, e, rest);
      EvaluateOnePipeline(t, e, x);
      EvaluateAllPipeline(t, e, rest);
      PipelineConcat(t, Steps(e), [x], rest);
      assert [x] + rest == ns;
    }
  }

  /** xQSearchExpr_eval on one node runs the steps of the chain one after
      the other: each step on every result of the step before, in order. */
  lemma EvaluateIsPipeline(t: Tree, e: Expr, node: NodeId)
    requires ValidTree(t) && node < |t|
    ensures AllNodesIn(t, [node])
    ensures Evaluate(t, e, node) == Pipeline(t, Steps(e), [node])
  {
    EvaluateOnePipeline(t, e, node);
  }

  /** The copy step gives back every node it is evaluated on, in order. */
  lemma {:induction false} EvaluateAllCopy(t: Tree, ns: seq<NodeId>)
    requires ValidTree(t) && AllNodesIn(t, ns)
    ensures EvaluateAll(t, Expr(AddToOutput, None), ns) == ns
    decreases |ns|
  {
    if ns != [] {
      EvaluateAllCopy(t, ns[1..]);
    }
  }
}

=== FILE: search_expr.dfy ===
/**
 * Compiled selectors (libxq.h, search.c): a singly linked chain of steps,
 * each an operation of traverse.c with its arguments.
 */
module SearchExprs {
  import opened LibXQ
  import opened SearchTokens

  /** The operation of a step; its fields are the argv strings the
      operation reads (argv[0], then argv[1]). The compiler builds
      the first four; the other three are operations of traverse.c that no
      selector produces. */
  datatype Operation =
    | AddToOutput
    | FindDescendantsByName(name: string)
    | FindChildrenByName(name: string)
    | FilterAttributeEquals(attr: string, value: string)
    | FindDescendants
    | FindNextSiblingByName(sibling: string)
    | FilterByName(element: string)

  /** xQSearchExpr: a step and the rest of the chain (null at the end). */
  datatype Expr = Expr(operation: Operation, next: Option<Expr>)

  /** The operations of a chain, first to last. */
  function Steps(e: Expr): (ops: seq<Operation>)
    ensures |ops| >= 1 && ops[0] == e.operation
    ensures e.next.None? <==> |ops| == 1
  {
    match e.next
    case None => [e.operation]
    case Some(n) => [e.operation] + Steps(n)
  }

  /** The chain that performs `ops` in order. */
  function FromSteps(ops: seq<Operation>): (e: Expr)
    requires |ops| >= 1
    ensures e.operation == ops[0]
    ensures e.next.None? <==> |ops| == 1
  {
    if |ops| == 1 then Expr(ops[0], None) else Expr(ops[0], Some(FromSteps(ops[1..])))
  }

  /** A chain is determined by its steps, and every non-empty sequence of
      steps is the steps of a chain. */
  lemma {:induction false} StepsOfFromSteps(ops: seq<Operation>)
    requires |ops| >= 1
    ensures Steps(FromSteps(ops)) == ops
  {
    if |ops| > 1 {
      StepsOfFromSteps(ops[1..]);
    }
  }

  lemma {:induction false} FromStepsOfSteps(e: Expr)
    ensures FromSteps(Steps(e)) == e
  {
    match e.next
    case None =>
    case Some(n) =>
      FromStepsOfSteps(n);
      assert Steps(e)[1..] == Steps(n);
  }

  /** The last step of a chain. */
  function Tail(e: Expr): (t: Expr)
    ensures t.next.None?
    ensures t.operation == Steps(e)[|Steps(e)| - 1]
  {
    match e.next
    case None => e
    case Some(n) => Tail(n)
  }

  /** `a` with the chain `b` hung behind its last step, as parseSelector does
      through `expressionTail(expr)->next`. */
  function Link(a: Expr, b: Option<Expr>): (e: Expr)
    ensures Steps(e) == Steps(a) + (if b.Some? then Steps(b.value) else [])
  {
    match a.next
    case None => Expr(a.operation, b)
    case Some(n) => Expr(a.operation, Some(Link(n, b)))
  }

  /** expressionTail (search.c:319-326): the last step of a chain, or null
      for the empty chain. */
  method ExpressionTail(expr: Option<Expr>) returns (last: Option<Expr>)
    ensures expr.None? ==> last.None?
    ensures expr.Some? ==> last == Some(Tail(expr.value))
  {
    last := expr;
    while last.Some? && last.value.next.Some?
      invariant expr.None? ==> last.None?
      invariant expr.Some? ==> last.Some? && Tail(last.value) == Tail(expr.value)
      decreases last
    {
      last := last.value.next;
    }
  }

  /** xmlstrpos (search.c:167-175): the first index of `needle` in the C
      string `haystack`, or -1 when it does not occur before the terminator. */
  method StrPos(haystack: string, needle: char) returns (pos: int)
    ensures pos == -1 <==> forall i :: 0 <= i < NulIndex(haystack, 0) ==> haystack[i] != needle
    ensures pos != -1 ==> 0 <= pos < NulIndex(haystack, 0) && haystack[pos] == needle
    ensures pos != -1 ==> forall i :: 0 <= i < pos ==> haystack[i] != needle
  {
    var i := 0;
    while At(haystack, i) != '\0'
      invariant 0 <= i <= NulIndex(haystack, 0)
      invariant forall j :: 0 <= j < i ==> haystack[j] != needle
      decreases |haystack| - i
    {
      if haystack[i] == needle {
        return i;
      }
      i := i + 1;
    }
    return -1;
  }
}

=== FILE: search_grammar.dfy ===
/**
 * The selector language the compiler of search.c accepts, stated as a
 * grammar: a selector is a list of compound selectors separated by white
 * space, each an element name (after a `>` for the child combinator)
 * followed by attribute tests `[name="value"]` or `[name=value]`.
 *
 * Render writes a selector out, SelectorSteps gives the steps it stands for,
 * and the token predicates describe what nextToken reads from the rendered
 * text. The round-trip lemma SearchRoundTrip.CompileRender shows the
 * compiler turns every rendered selector into the steps the grammar gives it.
 */
module SearchGrammar {
  import opened LibXQ
  import opened SearchChars
  import opened SearchTokens
  import opened SearchExprs
  import opened SearchCompile

  datatype Combinator = Descendant | Child

  /** `[name=value]`, the value written quoted with '"' or bare. */
  datatype AttrTest = AttrTest(name: string, value: string, quoted: bool)

  datatype Compound = Compound(combinator: Combinator, element: string, tests: seq<AttrTest>)

  predicate WellFormedTest(t: AttrTest) {
    && IsIdent(t.name)
    && (if t.quoted then '\0' !in t.value else IsIdent(t.value))
  }

  predicate WellFormedTests(ts: seq<AttrTest>) {
    ts != [] ==> WellFormedTest(ts[0]) && WellFormedTests(ts[1..])
  }

  predicate WellFormedCompound(c: Compound) {
    IsIdent(c.element) && WellFormedTests(c.tests)
  }

  /** A selector has at least one compound, and every compound is well
      formed. */
  predicate WellFormed(cs: seq<Compound>) {
    cs != [] && WellFormedCompound(cs[0]) && (|cs| > 1 ==> WellFormed(cs[1..]))
  }

  function RenderValue(t: AttrTest): string {
    if t.quoted then Quote(t.value, '"') else t.value
  }

  function RenderTest(t: AttrTest): string {
    "[" + t.name + "=" + RenderValue(t) + "]"
  }

  function RenderTests(ts: seq<AttrTest>): string {
    if ts == [] then "" else RenderTest(ts[0]) + RenderTests(ts[1..])
  }

  function RenderCompound(c: Compound): string {
    (if c.combinator == Child then "> " else "") + c.element + RenderTests(c.tests)
  }

  /** The text that follows the compound `cs[0]` of a rendered selector. */
  function RenderAfter(cs: seq<Compound>): string
    requires cs != []
    decreases |cs|, 0
  {
    if |cs| == 1 then "" else " " + Render(cs[1..])
  }

  /** A selector written out, compounds separated by one space. */
  function Render(cs: seq<Compound>): string
    requires cs != []
    decreases |cs|, 1
  {
    RenderCompound(cs[0]) + RenderAfter(cs)
  }

  /** The steps the grammar gives a test, a compound and a selector. */
  function TestSteps(ts: seq<AttrTest>): seq<Operation> {
    if ts == [] then [] else [FilterAttributeEquals(ts[0].name, ts[0].value)] + TestSteps(ts[1..])
  }

  function ElementStep(c: Compound): Operation {
    if c.combinator == Child then FindChildrenByName(c.element) else FindDescendantsByName(c.element)
  }

  function SelectorSteps(cs: seq<Compound>): seq<Operation> {
    if cs == [] then [] else [ElementStep(cs[0])] + TestSteps(cs[0].tests) + SelectorSteps(cs[1..])
  }

  // The tokens nextToken reads from a rendered selector.

  /** The five tokens of attribute test `t` written at `q`: '[', the name,
      '=', the value (a string when quoted) and ']'. */
  predicate TestTokens(toks: seq<Lexed>, q: nat, t: AttrTest) {
    var pe := q + 1 + |t.name|;
    var pc := pe + 1 + |RenderValue(t)|;
    && pc < |toks|
    && toks[q] == Lexed(Ok, Token(TtToken, "[", q + 1))
    && toks[q + 1] == Lexed(Ok, Token(TtIdent, t.name, pe))
    && toks[pe] == Lexed(Ok, Token(TtToken, "=", pe + 1))
    && toks[pe + 1] == Lexed(Ok, Token(if t.quoted then TtString else TtIdent, t.value, pc))
    && toks[pc] == Lexed(Ok, Token(TtToken, "]", pc + 1))
  }

  /** The tokens of the tests `ts`, one test after the other from `q` on. */
  predicate TestsTokens(toks: seq<Lexed>, q: nat, ts: seq<AttrTest>)
    decreases |ts|
  {
    ts != [] ==> TestTokens(toks, q, ts[0]) && TestsTokens(toks, q + |RenderTest(ts[0])|, ts[1..])
  }

  /** Where the element name of a compound written at `p` ends. */
  function NameEnd(p: nat, c: Compound): nat {
    p + (if c.combinator == Child then 2 else 0) + |c.element|
  }

  /** Where a compound written at `p` ends. */
  function CompoundEnd(p: nat, c: Compound): nat {
    NameEnd(p, c) + |RenderTests(c.tests)|
  }

  /** The first tokens of compound `c` at `p`: `>` and the element name, or
      the element name alone. */
  predicate HeadTokens(toks: seq<Lexed>, p: nat, c: Compound) {
    var q := NameEnd(p, c);
    && q < |toks|
    && if c.combinator == Child then
      && toks[p] == Lexed(Ok, Token(TtToken, ">", p + 1))
      && toks[p + 1] == Lexed(Ok, Token(TtIdent, c.element, q))
    else
      toks[p] == Lexed(Ok, Token(TtIdent, c.element, q))
  }

  /** The tokens of compound `c` at `p`. */
  predicate CompoundTokens(toks: seq<Lexed>, p: nat, c: Compound) {
    HeadTokens(toks, p, c) && TestsTokens(toks, NameEnd(p, c), c.tests)
  }

  /** The tokens of the compounds `cs` from `p` on: a blank between two
      compounds changes nothing, and no token follows the last. */
  predicate SelectorTokens(toks: seq<Lexed>, p: nat, cs: seq<Compound>)
    requires cs != []
    decreases |cs|
  {
    var e := CompoundEnd(p, cs[0]);
    && CompoundTokens(toks, p, cs[0])
    && e < |toks|
    && if |cs| == 1 then toks[e].status == NoToken
       else e + 1 < |toks| && toks[e] == toks[e + 1] && SelectorTokens(toks, e + 1, cs[1..])
  }

}

=== FILE: search_layout.dfy ===
/**
 * The text of a rendered selector, piece by piece: what Render writes, stated
 * as a piece followed by the rest, so that the tokenizer lemmas can read the
 * text one token at a time.
 */
module SearchLayout {
  import opened LibXQ
  import opened SearchTokens
  import opened SearchGrammar

  /** The character right behind a piece `x` of `s` at `p`. */
  lemma Behind(s: string, p: nat, x: string, rest: string)
    requires p <= |s| && s[p..] == x + rest
    ensures At(s, p + |x|) == if rest == [] then '\0' else rest[0]
  {
    Suffix(s, p, x, rest);
    if rest != [] {
      assert s[p + |x|..][0] == rest[0];
    }
  }

  /** An attribute test written out, piece by piece. */
  lemma TestText(t: AttrTest, more: string)
    ensures RenderTest(t) + more == "[" + (t.name + ("=" + (RenderValue(t) + ("]" + more))))
    ensures |RenderTest(t)| == |t.name| + |RenderValue(t)| + 3
  {
  }

  /** Tests written out: the first, then the others. */
  lemma TestsText(ts: seq<AttrTest>, after: string)
    requires ts != []
    ensures RenderTests(ts) + after == RenderTest(ts[0]) + (RenderTests(ts[1..]) + after)
  {
    var head, others := RenderTest(ts[0]), RenderTests(ts[1..]);
    assert RenderTests(ts) == head + others;
    ConcatAssociative(head, others, after);
  }

  lemma TestsLength(ts: seq<AttrTest>)
    requires ts != []
    ensures |RenderTests(ts)| == |RenderTest(ts[0])| + |RenderTests(ts[1..])|
  {
  }

  /** A compound written out: its prefix, its element name, and the text
      after the name. */
  lemma CompoundText(c: Compound, more: string)
    ensures c.combinator == Child ==>
      RenderCompound(c) + more == ">" + (" " + (c.element + (RenderTests(c.tests) + more)))
    ensures c.combinator == Descendant ==>
      RenderCompound(c) + more == c.element + (RenderTests(c.tests) + more)
  {
    if c.combinator == Descendant {
      assert RenderCompound(c) == c.element + RenderTests(c.tests);
    }
  }

  /** A selector written out: its first compound, then a blank and the
      others. */
  lemma SelectorText(cs: seq<Compound>)
    requires cs != []
    ensures Render(cs) == RenderCompound(cs[0]) + RenderAfter(cs)
    ensures |cs| > 1 ==> RenderAfter(cs) == " " + Render(cs[1..])
    ensures |cs| == 1 ==> RenderAfter(cs) == []
  {
  }

  /** What follows an element name in a rendered selector cannot continue
      the name: a '[', a blank, or nothing. */
  lemma NameFollows(ts: seq<AttrTest>, more: string)
    requires more == [] || more[0] == ' '
    ensures var tail := RenderTests(ts) + more;
      tail == [] || tail[0] == '[' || tail[0] == ' '
  {
    if ts != [] {
      TestsText(ts, more);
      TestText(ts[0], RenderTests(ts[1..]) + more);
    }
  }
}

=== FILE: search_reading.dfy ===
/**
 * The tokens nextToken reads from a rendered selector, cursor by cursor.
 *
 * Each lemma reads one piece of the text, given as `s[q..] == piece + rest`,
 * and gives the token read at `q` and the text behind the piece; together
 * they show that the text Render writes has the token table SelectorTokens
 * describes.
 */
module SearchReading {
  import opened LibXQ
  import opened SearchChars
  import opened SearchTokens
  import opened SearchCompile
  import opened SearchGrammar
  import opened SearchLayout

  /** `toks` holds the token nextToken reads from every cursor of `s`. An
      entry is tied to nextToken only at the cursors a proof reads with Lex,
      so that the other proofs work on the table alone. */
  ghost predicate TokensOf(s: string, toks: seq<Lexed>) {
    && |toks| == |s| + 1
    && forall i {:trigger Lex(s, i)} :: 0 <= i <= |s| ==> toks[i] == Lex(s, i)
  }

  lemma TokenTable(s: string)
    ensures TokensOf(s, Tokens(s))
  {
  }

  /** A one-character token. */
  lemma ReadPunct(s: string, toks: seq<Lexed>, q: nat, c: char, rest: string)
    requires TokensOf(s, toks) && q <= |s| && s[q..] == [c] + rest
    requires IsTokenChar(c) && c != '"' && c != '\''
    ensures toks[q] == Lexed(Ok, Token(TtToken, [c], q + 1))
    ensures q + 1 <= |s| && s[q + 1..] == rest
  {
    Suffix(s, q, [c], rest);
    assert s[q] == s[q..][0];
    LexPunct(s, q, c);
  }

  /** An identifier, followed by a character that cannot continue it. */
  lemma ReadIdent(s: string, toks: seq<Lexed>, q: nat, w: string, rest: string)
    requires TokensOf(s, toks) && q <= |s| && s[q..] == w + rest && IsIdent(w)
    requires rest == [] || !IsIdentChar(rest[0])
    ensures toks[q] == Lexed(Ok, Token(TtIdent, w, q + |w|))
    ensures q + |w| <= |s| && s[q + |w|..] == rest
  {
    Suffix(s, q, w, rest);
    Piece(s, q, w, rest);
    Behind(s, q, w, rest);
    LexIdent(s, q, q + |w|);
  }

  /** A string quoted with '"'. */
  lemma ReadQuoted(s: string, toks: seq<Lexed>, q: nat, v: string, rest: string)
    requires TokensOf(s, toks) && q <= |s| && s[q..] == Quote(v, '"') + rest && '\0' !in v
    ensures toks[q] == Lexed(Ok, Token(TtString, v, q + |Quote(v, '"')|))
    ensures q + |Quote(v, '"')| <= |s| && s[q + |Quote(v, '"')|..] == rest
  {
    Suffix(s, q, Quote(v, '"'), rest);
    LexQuoted(s, q, v, '"', rest);
  }

  /** nextToken reads the same token from a blank as from behind it. */
  lemma ReadBlank(s: string, toks: seq<Lexed>, q: nat, rest: string)
    requires TokensOf(s, toks) && q <= |s| && s[q..] == " " + rest
    ensures toks[q] == toks[q + 1]
    ensures q + 1 <= |s| && s[q + 1..] == rest
  {
    Suffix(s, q, " ", rest);
    assert s[q] == s[q..][0];
    LexSkipsSpace(s, q);
  }

  /** nextToken reads no token at the end of the selector. */
  lemma ReadEnd(s: string, toks: seq<Lexed>, q: nat)
    requires TokensOf(s, toks) && q <= |s| && s[q..] == []
    ensures q == |s| && toks[q].status == NoToken
  {
    LexAtEnd(s);
  }

  /** The '[', the name and the '=' of an attribute test. */
  lemma ReadTestHead(s: string, toks: seq<Lexed>, q: nat, name: string, tail: string)
    requires TokensOf(s, toks) && IsIdent(name) && q <= |s| && s[q..] == "[" + (name + ("=" + tail))
    ensures toks[q] == Lexed(Ok, Token(TtToken, "[", q + 1))
    ensures toks[q + 1] == Lexed(Ok, Token(TtIdent, name, q + 1 + |name|))
    ensures toks[q + 1 + |name|] == Lexed(Ok, Token(TtToken, "=", q + 2 + |name|))
    ensures q + 2 + |name| <= |s| && s[q + 2 + |name|..] == tail
  {
    ReadPunct(s, toks, q, '[', name + ("=" + tail));
    ReadIdent(s, toks, q + 1, name, "=" + tail);
    ReadPunct(s, toks, q + 1 + |name|, '=', tail);
  }

  /** The value and the ']' of an attribute test. */
  lemma ReadTestValue(s: string, toks: seq<Lexed>, r: nat, t: AttrTest, more: string)
    requires TokensOf(s, toks) && WellFormedTest(t) && r <= |s| && s[r..] == RenderValue(t) + ("]" + more)
    ensures toks[r] == Lexed(Ok, Token(if t.quoted then TtString else TtIdent, t.value, r + |RenderValue(t)|))
    ensures toks[r + |RenderValue(t)|] == Lexed(Ok, Token(TtToken, "]", r + |RenderValue(t)| + 1))
    ensures r + |RenderValue(t)| + 1 <= |s| && s[r + |RenderValue(t)| + 1..] == more
  {
    if t.quoted {
      ReadQuoted(s, toks, r, t.value, "]" + more);
    } else {
      ReadIdent(s, toks, r, t.value, "]" + more);
    }
    ReadPunct(s, toks, r + |RenderValue(t)|, ']', more);
  }

  /** nextToken reads a well-formed attribute test as its five tokens. */
  lemma ReadTest(s: string, toks: seq<Lexed>, q: nat, t: AttrTest, more: string)
    requires TokensOf(s, toks) && WellFormedTest(t) && q <= |s| && s[q..] == RenderTest(t) + more
    ensures TestTokens(toks, q, t)
    ensures q + |RenderTest(t)| <= |s| && s[q + |RenderTest(t)|..] == more
  {
    TestText(t, more);
    ReadTestHead(s, toks, q, t.name, RenderValue(t) + ("]" + more));
    ReadTestValue(s, toks, q + 2 + |t.name|, t, more);
  }

  /** Well-formed tests are read as their tokens. */
  lemma {:induction false} ReadTests(s: string, toks: seq<Lexed>, q: nat, ts: seq<AttrTest>, after: string)
    requires TokensOf(s, toks) && WellFormedTests(ts)
    requires q <= |s| && s[q..] == RenderTests(ts) + after
    ensures TestsTokens(toks, q, ts)
    ensures q + |RenderTests(ts)| <= |s| && s[q + |RenderTests(ts)|..] == after
    decreases |ts|
  {
    if ts == [] {
      assert RenderTests(ts) + after == after;
    } else {
      var next := ReadFirstTest(s, toks, q, ts, after);
      ReadTests(s, toks, next, ts[1..], after);
      TestsTokensCons(toks, q, ts);
    }
  }

  /** The first of several tests, and the text of the others behind it. */
  lemma ReadFirstTest(s: string, toks: seq<Lexed>, q: nat, ts: seq<AttrTest>, after: string) returns (next: nat)
    requires TokensOf(s, toks) && ts != [] && WellFormedTests(ts)
    requires q <= |s| && s[q..] == RenderTests(ts) + after
    ensures TestTokens(toks, q, ts[0]) && WellFormedTests(ts[1..])
    ensures next == q + |RenderTest(ts[0])| && |RenderTests(ts)| == |RenderTest(ts[0])| + |RenderTests(ts[1..])|
    ensures next <= |s| && s[next..] == RenderTests(ts[1..]) + after
  {
    next := q + |RenderTest(ts[0])|;
    TestsText(ts, after);
    TestsLength(ts);
    ReadTest(s, toks, q, ts[0], RenderTests(ts[1..]) + after);
  }

  lemma TestsTokensCons(toks: seq<Lexed>, q: nat, ts: seq<AttrTest>)
    requires ts != [] && TestTokens(toks, q, ts[0])
    requires var others := TestsTokens(toks, q + |RenderTest(ts[0])|, ts[1..]); others
    ensures TestsTokens(toks, q, ts)
  {
  }

  /** The head of a well-formed compound: `>` and a blank before the
      element name of a child step. */
  lemma ReadHead(s: string, toks: seq<Lexed>, p: nat, c: Compound, more: string)
    requires TokensOf(s, toks) && IsIdent(c.element) && p <= |s| && s[p..] == RenderCompound(c) + more
    requires more == [] || more[0] == ' '
    ensures HeadTokens(toks, p, c)
    ensures NameEnd(p, c) <= |s| && s[NameEnd(p, c)..] == RenderTests(c.tests) + more
  {
    var tail := RenderTests(c.tests) + more;
    CompoundText(c, more);
    NameFollows(c.tests, more);
    if c.combinator == Child {
      ReadPunct(s, toks, p, '>', " " + (c.element + tail));
      ReadBlank(s, toks, p + 1, c.element + tail);
      ReadIdent(s, toks, p + 2, c.element, tail);
    } else {
      ReadIdent(s, toks, p, c.element, tail);
    }
  }

  /** A well-formed compound is read as its tokens. */
  lemma ReadCompound(s: string, toks: seq<Lexed>, p: nat, c: Compound, more: string)
    requires TokensOf(s, toks) && WellFormedCompound(c) && p <= |s| && s[p..] == RenderCompound(c) + more
    requires more == [] || more[0] == ' '
    ensures CompoundTokens(toks, p, c)
    ensures CompoundEnd(p, c) <= |s| && s[CompoundEnd(p, c)..] == more
  {
    ReadHead(s, toks, p, c, more);
    ReadTests(s, toks, NameEnd(p, c), c.tests, more);
  }

  /** A well-formed selector written at `p` up to the end of `s` is read as
      the tokens of its compounds. */
  lemma {:induction false} ReadSelector(s: string, toks: seq<Lexed>, p: nat, cs: seq<Compound>)
    requires TokensOf(s, toks) && WellFormed(cs) && p <= |s| && s[p..] == Render(cs)
    ensures SelectorTokens(toks, p, cs)
    decreases |cs|
  {
    if |cs| == 1 {
      ReadLastCompound(s, toks, p, cs);
    } else {
      var e := ReadFirstCompound(s, toks, p, cs);
      ReadSelector(s, toks, e + 1, cs[1..]);
      SelectorTokensMore(toks, p, cs, e);
    }
  }

  /** A selector of one compound. */
  lemma ReadLastCompound(s: string, toks: seq<Lexed>, p: nat, cs: seq<Compound>)
    requires TokensOf(s, toks) && WellFormed(cs) && |cs| == 1 && p <= |s| && s[p..] == Render(cs)
    ensures SelectorTokens(toks, p, cs)
  {
    var e := ReadFirstCompound(s, toks, p, cs);
    SelectorTokensLast(toks, p, cs, e);
  }

  /** The first compound of a selector, and what follows it: the end of the
      text, or a blank and the text of the others. */
  lemma ReadFirstCompound(s: string, toks: seq<Lexed>, p: nat, cs: seq<Compound>) returns (e: nat)
    requires TokensOf(s, toks) && WellFormed(cs) && p <= |s| && s[p..] == Render(cs)
    ensures e == CompoundEnd(p, cs[0]) && CompoundTokens(toks, p, cs[0]) && e < |toks|
    ensures |cs| == 1 ==> toks[e].status == NoToken
    ensures |cs| > 1 ==>
      && e + 1 < |toks| && toks[e] == toks[e + 1] && WellFormed(cs[1..])
      && e + 1 <= |s| && s[e + 1..] == Render(cs[1..])
  {
    e := CompoundEnd(p, cs[0]);
    SelectorText(cs);
    ReadCompound(s, toks, p, cs[0], RenderAfter(cs));
    if |cs| == 1 {
      ReadEnd(s, toks, e);
    } else {
      ReadBlank(s, toks, e, Render(cs[1..]));
    }
  }

  lemma SelectorTokensLast(toks: seq<Lexed>, p: nat, cs: seq<Compound>, e: nat)
    requires |cs| == 1 && CompoundTokens(toks, p, cs[0]) && e == CompoundEnd(p, cs[0])
    requires e < |toks| && toks[e].status == NoToken
    ensures SelectorTokens(toks, p, cs)
  {
  }

  lemma SelectorTokensMore(toks: seq<Lexed>, p: nat, cs: seq<Compound>, e: nat)
    requires |cs| > 1 && CompoundTokens(toks, p, cs[0]) && e == CompoundEnd(p, cs[0])
    requires e + 1 < |toks| && toks[e] == toks[e + 1]
    requires var others := SelectorTokens(toks, e + 1, cs[1..]); others
    ensures SelectorTokens(toks, p, cs)
  {
  }
}

=== FILE: search_roundtrip.dfy ===
/**
 * The compiler of search.c reads every selector of the grammar in
 * SearchGrammar as the grammar says: CompileRender.
 *
 * The proof goes in two stages. SearchReading reads the rendered text into
 * the tokens nextToken returns, piece by piece, and here the parse routines
 * are run over those tokens, one attribute test and one compound at a time. The parse lemmas hold for every
 * token table with those tokens.
 */
module SearchRoundTrip {
  import opened LibXQ
  import opened SearchTokens
  import opened SearchExprs
  import opened SearchCompile
  import opened SearchGrammar
  import opened SearchLayout
  import opened SearchReading

  /** The part of an attribute test after its '[' is read as one filter
      step. */
  lemma AttribOfTokens(toks: seq<Lexed>, q: nat, t: AttrTest)
    requires IsTokenTable(toks) && TestTokens(toks, q, t)
    ensures Attrib(toks, q + 1) == Parsed(Ok, [FilterAttributeEquals(t.name, t.value)], q + |RenderTest(t)|)
  {
  }

  /** parseAttrib reads one test and goes on behind it. */
  lemma AttribsCons(toks: seq<Lexed>, q: nat, t: AttrTest, x: seq<Operation>, st: StatusCode, end: nat)
    requires IsTokenTable(toks) && TestTokens(toks, q, t)
    requires q + |RenderTest(t)| < |toks| && Attribs(toks, q + |RenderTest(t)|) == Parsed(st, x, end)
    ensures Attribs(toks, q) == Parsed(st, [FilterAttributeEquals(t.name, t.value)] + x, end)
  {
    AttribOfTokens(toks, q, t);
  }

  /** parseAttrib in front of a token that is not '['. */
  lemma AttribsNil(toks: seq<Lexed>, q: nat)
    requires IsTokenTable(toks) && q < |toks| && !IsPunct(toks[q], '[')
    ensures Attribs(toks, q) == Parsed(toks[q].status, [], q)
  {
  }

  lemma TestStepsCons(ts: seq<AttrTest>)
    requires ts != []
    ensures TestSteps(ts) == [FilterAttributeEquals(ts[0].name, ts[0].value)] + TestSteps(ts[1..])
  {
  }

  /** The tokens of the first test, and those of the others behind it. */
  lemma TestsSplit(toks: seq<Lexed>, q: nat, ts: seq<AttrTest>, end: nat) returns (next: nat)
    requires TestsTokens(toks, q, ts) && ts != [] && end == q + |RenderTests(ts)|
    ensures next == q + |RenderTest(ts[0])| && next <= end
    ensures TestTokens(toks, q, ts[0]) && TestsTokens(toks, next, ts[1..])
    ensures end == next + |RenderTests(ts[1..])|
  {
    next := q + |RenderTest(ts[0])|;
    TestsLength(ts);
  }

  /** parseAttrib reads the tokens of attribute tests as their filter steps,
      and stops in front of the first token that is not a '['. */
  lemma {:induction false} TestsParse(toks: seq<Lexed>, q: nat, ts: seq<AttrTest>, end: nat)
    requires IsTokenTable(toks) && TestsTokens(toks, q, ts)
    requires end == q + |RenderTests(ts)| && end < |toks| && !IsPunct(toks[end], '[')
    ensures Attribs(toks, q) == Parsed(toks[end].status, TestSteps(ts), end)
    decreases |ts|
  {
    if ts == [] {
      AttribsNil(toks, q);
    } else {
      var next := TestsSplit(toks, q, ts, end);
      var st, x := toks[end].status, TestSteps(ts[1..]);
      TestsParse(toks, next, ts[1..], end);
      AttribsCons(toks, q, ts[0], x, st, end);
      TestStepsCons(ts);
    }
  }

  /** parseSelector on the head of a compound: its element step, and the
      rest of the selector from behind the name. */
  lemma SelectorOnHead(d: Dialect, toks: seq<Lexed>, p: nat, c: Compound)
    requires IsTokenTable(toks) && p < |toks| && HeadTokens(toks, p, c)
    ensures Selector(d, toks, p) == Rest(d, toks, ElementStep(c), NameEnd(p, c))
  {
  }

  /** A blank in front of a head reads as the head's first token, which is
      never a '['. */
  lemma BlankBeforeHead(toks: seq<Lexed>, e: nat, c: Compound)
    requires e + 1 < |toks| && toks[e] == toks[e + 1] && HeadTokens(toks, e + 1, c)
    ensures toks[e].status == Ok && !IsPunct(toks[e], '[')
  {
  }

  /** The last compound: its tests end the selector. */
  lemma RestLast(d: Dialect, toks: seq<Lexed>, op: Operation, q: nat, x: seq<Operation>, e: nat)
    requires IsTokenTable(toks) && q < |toks| && Attribs(toks, q) == Parsed(NoToken, x, e)
    ensures Rest(d, toks, op, q) == Parsed(Ok, [op] + x, e)
  {
  }

  /** A compound followed by more of the selector. */
  lemma RestMore(d: Dialect, toks: seq<Lexed>, op: Operation, q: nat, x: seq<Operation>, e: nat, y: seq<Operation>)
    requires IsTokenTable(toks) && q < |toks| && Attribs(toks, q) == Parsed(Ok, x, e)
    requires Selector(d, toks, e).status == Ok && Selector(d, toks, e).steps == y
    ensures Rest(d, toks, op, q).status == Ok && Rest(d, toks, op, q).steps == [op] + x + y
  {
  }

  /** parseSelector reads the same from a blank as from behind it. */
  lemma SelectorAfterBlank(d: Dialect, toks: seq<Lexed>, e: nat)
    requires IsTokenTable(toks) && e + 1 < |toks| && toks[e] == toks[e + 1]
    ensures Selector(d, toks, e) == Selector(d, toks, e + 1)
  {
  }

  lemma SelectorStepsCons(cs: seq<Compound>)
    requires cs != []
    ensures SelectorSteps(cs) == [ElementStep(cs[0])] + TestSteps(cs[0].tests) + SelectorSteps(cs[1..])
  {
  }

  /** parseSelector on a compound that ends the selector. */
  lemma LastCompound(d: Dialect, toks: seq<Lexed>, p: nat, cs: seq<Compound>)
    requires IsTokenTable(toks) && p < |toks| && |cs| == 1 && CompoundTokens(toks, p, cs[0])
    requires CompoundEnd(p, cs[0]) < |toks| && toks[CompoundEnd(p, cs[0])].status == NoToken
    ensures Selector(d, toks, p).status == Ok && Selector(d, toks, p).steps == SelectorSteps(cs)
  {
    SelectorOnHead(d, toks, p, cs[0]);
    TestsParse(toks, NameEnd(p, cs[0]), cs[0].tests, CompoundEnd(p, cs[0]));
    RestLast(d, toks, ElementStep(cs[0]), NameEnd(p, cs[0]), TestSteps(cs[0].tests), CompoundEnd(p, cs[0]));
    SelectorStepsCons(cs);
    assert SelectorSteps(cs[1..]) == [];
  }

  /** The tests of a compound that ends at `e`, where a blank and another
      compound follow. */
  lemma TestsBeforeMore(toks: seq<Lexed>, p: nat, c: Compound, next: Compound, e: nat)
    requires IsTokenTable(toks) && p < |toks| && CompoundTokens(toks, p, c)
    requires e == CompoundEnd(p, c) && e + 1 < |toks| && toks[e] == toks[e + 1]
    requires HeadTokens(toks, e + 1, next)
    ensures Attribs(toks, NameEnd(p, c)) == Parsed(Ok, TestSteps(c.tests), e)
  {
    BlankBeforeHead(toks, e, next);
    TestsParse(toks, NameEnd(p, c), c.tests, e);
  }

  /** parseSelector on compound `c`, which ends at `e`, where a blank and
      more of the selector follow. */
  lemma CompoundThenMore(d: Dialect, toks: seq<Lexed>, p: nat, c: Compound, next: Compound, e: nat, y: seq<Operation>)
    requires IsTokenTable(toks) && p < |toks| && CompoundTokens(toks, p, c)
    requires e == CompoundEnd(p, c) && e + 1 < |toks| && toks[e] == toks[e + 1]
    requires HeadTokens(toks, e + 1, next)
    requires Selector(d, toks, e + 1).status == Ok && Selector(d, toks, e + 1).steps == y
    ensures Selector(d, toks, p).status == Ok && Selector(d, toks, p).steps == [ElementStep(c)] + TestSteps(c.tests) + y
  {
    SelectorOnHead(d, toks, p, c);
    TestsBeforeMore(toks, p, c, next, e);
    SelectorAfterBlank(d, toks, e);
    RestMore(d, toks, ElementStep(c), NameEnd(p, c), TestSteps(c.tests), e, y);
  }

  /** parseSelector on a compound that other compounds follow: its steps,
      then those of the others. */
  lemma MoreCompounds(d: Dialect, toks: seq<Lexed>, p: nat, cs: seq<Compound>)
    requires IsTokenTable(toks) && p < |toks| && |cs| > 1 && CompoundTokens(toks, p, cs[0])
    requires CompoundEnd(p, cs[0]) + 1 < |toks| && toks[CompoundEnd(p, cs[0])] == toks[CompoundEnd(p, cs[0]) + 1]
    requires HeadTokens(toks, CompoundEnd(p, cs[0]) + 1, cs[1])
    requires Selector(d, toks, CompoundEnd(p, cs[0]) + 1).status == Ok
    requires Selector(d, toks, CompoundEnd(p, cs[0]) + 1).steps == SelectorSteps(cs[1..])
    ensures Selector(d, toks, p).status == Ok && Selector(d, toks, p).steps == SelectorSteps(cs)
  {
    CompoundThenMore(d, toks, p, cs[0], cs[1], CompoundEnd(p, cs[0]), SelectorSteps(cs[1..]));
    SelectorStepsCons(cs);
  }

  /** The parts of the tokens of a selector: those of its first compound,
      and a blank and the tokens of the others, or nothing. */
  lemma SelectorTokensParts(toks: seq<Lexed>, p: nat, cs: seq<Compound>)
    requires cs != [] && SelectorTokens(toks, p, cs)
    ensures CompoundTokens(toks, p, cs[0]) && CompoundEnd(p, cs[0]) < |toks|
    ensures |cs| == 1 ==> toks[CompoundEnd(p, cs[0])].status == NoToken
    ensures |cs| > 1 ==>
      var e := CompoundEnd(p, cs[0]);
      && e + 1 < |toks| && toks[e] == toks[e + 1]
      && SelectorTokens(toks, e + 1, cs[1..])
      && HeadTokens(toks, e + 1, cs[1])
  {
    if |cs| > 1 {
      assert cs[1..][0] == cs[1];
    }
  }

  /** parseSelector reads the tokens of compounds as their steps. */
  lemma {:induction false} SelectorParse(d: Dialect, toks: seq<Lexed>, p: nat, cs: seq<Compound>)
    requires IsTokenTable(toks) && p < |toks| && cs != [] && SelectorTokens(toks, p, cs)
    ensures Selector(d, toks, p).status == Ok && Selector(d, toks, p).steps == SelectorSteps(cs)
    decreases |cs|
  {
    SelectorTokensParts(toks, p, cs);
    if |cs| == 1 {
      LastCompound(d, toks, p, cs);
    } else {
      SelectorParse(d, toks, CompoundEnd(p, cs[0]) + 1, cs[1..]);
      MoreCompounds(d, toks, p, cs);
    }
  }

  /** Round trip: compiling a rendered selector gives the chain of its
      steps, in either dialect. */
  lemma CompileRender(d: Dialect, cs: seq<Compound>)
    requires WellFormed(cs)
    ensures Compile(d, Render(cs)) == Success(FromSteps(SelectorSteps(cs)))
    ensures Steps(Compile(d, Render(cs)).value) == SelectorSteps(cs)
  {
    var s := Render(cs);
    var toks := Tokens(s);
    TokenTable(s);
    assert s[0..] == s;
    ReadSelector(s, toks, 0, cs);
    SelectorParse(d, toks, 0, cs);
    StepsOfFromSteps(SelectorSteps(cs));
  }
}

=== FILE: search_tokens.dfy ===
/**
 * The selector tokenizer of search.c: `nextToken` reads one token from a
 * NUL-terminated string and leaves the token's cursor just behind it.
 *
 * The selector is a `string`; reading at or past its end gives NUL, as the C
 * terminator does, and an embedded NUL ends the selector there as it does in C.
 * A cursor (`strPtr`) is an index into the string.
 */
module SearchTokens {
  import opened LibXQ
  import opened SearchChars

  /** xQTokenType */
  datatype TokenType = TtToken | TtIdent | TtString | TtNone

  /** xQToken: the kind of the last token, its text, and the cursor behind it. */
  datatype Token = Token(kind: TokenType, content: string, strPtr: nat)

  /** What nextToken returns together with the token it leaves behind. */
  datatype Lexed = Lexed(status: StatusCode, token: Token)

  /** The character at index `i` of the C string `s`. */
  function At(s: string, i: nat): char {
    if i < |s| then s[i] else '\0'
  }

  /** The index of the first NUL at or after `p`, so that xmlStrlen of the
      string from `p` is `NulIndex(s, p) - p`. */
  function NulIndex(s: string, p: nat): (q: nat)
    requires p <= |s|
    decreases |s| - p
    ensures p <= q <= |s| && At(s, q) == '\0'
    ensures forall i :: p <= i < q ==> At(s, i) != '\0'
  {
    if At(s, p) == '\0' then p else NulIndex(s, p + 1)
  }

  /** The first index at or after `p` that does not hold white space. */
  function SkipSpace(s: string, p: nat): (q: nat)
    requires p <= |s|
    decreases |s| - p
    ensures p <= q <= |s| && !IsSpace(At(s, q))
  {
    if IsSpace(At(s, p)) then SkipSpace(s, p + 1) else p
  }

  /** Everything SkipSpace skips is white space. */
  lemma {:induction false} SkipSpaceSpan(s: string, p: nat)
    requires p <= |s|
    decreases |s| - p
    ensures forall i :: p <= i < SkipSpace(s, p) ==> IsSpace(At(s, i))
  {
    if IsSpace(At(s, p)) {
      SkipSpaceSpan(s, p + 1);
    }
  }

  /** The first index at or after `p` that does not hold an identifier
      character. */
  function IdentEnd(s: string, p: nat): (q: nat)
    requires p <= |s|
    decreases |s| - p
    ensures p <= q <= |s| && !IsNotSpace(At(s, q))
  {
    if IsNotSpace(At(s, p)) then SkipIdentChar(s, p) else p
  }

  /** Everything IdentEnd runs over is an identifier character. */
  lemma {:induction false} IdentEndSpan(s: string, p: nat)
    requires p <= |s|
    decreases |s| - p
    ensures forall i :: p <= i < IdentEnd(s, p) ==> IsNotSpace(At(s, i))
  {
    if IsNotSpace(At(s, p)) {
      CharacterClasses(At(s, p));
      IdentEndSpan(s, p + 1);
    }
  }

  /** One identifier character is never the terminator. */
  function SkipIdentChar(s: string, p: nat): (q: nat)
    requires p <= |s| && IsNotSpace(At(s, p))
    decreases |s| - p, 0
    ensures p < q <= |s| && !IsNotSpace(At(s, q))
  {
    CharacterClasses(At(s, p));
    IdentEnd(s, p + 1)
  }

  /** The body of a quoted string from index `q` on, with `acc` already
      copied: characters that need no escape are copied; a backslash before a
      character that needs no escape is copied together with it; a backslash
      before a backslash or a quote is dropped and the character after it
      copied; the other quote is copied; the closing quote ends the token; NUL
      ends it with XQ_INVALID_SEL_UNTERMINATED_STR. A backslash just before
      the NUL is unterminated as well (see StringLoopAsWritten). */
  function ScanString(s: string, quote: char, q: nat, acc: string): (r: Lexed)
    requires q <= |s|
    decreases |s| - q
    ensures r.status == Ok || r.status == UnterminatedStr
    ensures q <= r.token.strPtr <= |s|
    ensures r.status == Ok ==> r.token.kind == TtString && q < r.token.strPtr && At(s, r.token.strPtr - 1) == quote
    ensures r.status != Ok ==> r.token == Token(TtNone, "", r.token.strPtr) && At(s, r.token.strPtr) == '\0'
  {
    var c := At(s, q);
    CharacterClasses(c);
    if c == '\0' then Lexed(UnterminatedStr, Token(TtNone, "", q))
    else if IsNotQuote(c) then ScanString(s, quote, q + 1, acc + [c])
    else if c == '\\' then
      var d := At(s, q + 1);
      CharacterClasses(d);
      if IsNotQuote(d) then ScanString(s, quote, q + 2, acc + [c, d])
      else if d != '\0' then ScanString(s, quote, q + 2, acc + [d])
      else Lexed(UnterminatedStr, Token(TtNone, "", q + 1))
    else if c != quote then ScanString(s, quote, q + 1, acc + [c])
    else Lexed(Ok, Token(TtString, acc, q + 1))
  }

  /** nextToken from cursor `p`: skip white space, then read a quoted string,
      a one-character token, or an identifier; XQ_NO_TOKEN at the end. */
  function Lex(s: string, p: nat): (r: Lexed)
    requires p <= |s|
    ensures r.status == Ok || r.status == UnterminatedStr || r.status == NoToken
    ensures p <= r.token.strPtr <= |s|
    ensures r.status == Ok ==> p < r.token.strPtr && r.token.kind != TtNone
    ensures r.status == Ok && r.token.kind != TtString ==> r.token.content != []
    ensures r.status != Ok ==> r.token.kind == TtNone && r.token.content == []
  {
    var start := SkipSpace(s, p);
    var c := At(s, start);
    CharacterClasses(c);
    if c == '"' || c == '\'' then ScanString(s, c, start + 1, [])
    else if IsToken(c) then Lexed(Ok, Token(TtToken, [c], start + 1))
    else if c != '\0' then
      var e := SkipIdentChar(s, start);
      Lexed(Ok, Token(TtIdent, s[start..e], e))
    else Lexed(NoToken, Token(TtNone, "", start))
  }

  /** nextToken (search.c:180-257) on the token `tok`: only its cursor is read.
      The string branch copies into a buffer of xmlStrlen bytes, one byte or
      an escape at a time. */
  method NextToken(s: string, tok: Token) returns (status: StatusCode, next: Token)
    requires tok.strPtr <= |s|
    ensures Lexed(status, next) == Lex(s, tok.strPtr)
  {
    var start := tok.strPtr;
    while At(s, start) != '\0' && IsSpace(At(s, start))
      invariant tok.strPtr <= start <= |s|
      invariant SkipSpace(s, start) == SkipSpace(s, tok.strPtr)
      decreases |s| - start
    {
      start := start + 1;
    }
    var c := At(s, start);
    CharacterClasses(c);
    if c == '"' || c == '\'' {
      status, next := ReadString(s, c, start + 1);
    } else if IsToken(c) {
      status, next := Ok, Token(TtToken, [c], start + 1);
    } else if c != '\0' {
      var ptr := start;
      while IsNotSpace(At(s, ptr))
        invariant start <= ptr <= |s|
        invariant ptr == start || IdentEnd(s, ptr) == SkipIdentChar(s, start)
        decreases |s| - ptr
      {
        CharacterClasses(At(s, ptr));
        ptr := ptr + 1;
      }
      status, next := Ok, Token(TtIdent, s[start..ptr], ptr);
    } else {
      status, next := NoToken, Token(TtNone, "", start);
    }
  }

  /** The state of the string branch of nextToken: `buf` is the buffer of
      xmlStrlen bytes, `buf[..k]` has been copied, `ptr` is the cursor, and
      scanning on from there gives what scanning from `from` gives. */
  ghost predicate Scanning(s: string, quote: char, from: nat, buf: array<char>, k: nat, ptr: nat)
    reads buf
  {
    && from <= |s|
    && from <= ptr <= NulIndex(s, from)
    && buf.Length == NulIndex(s, from) - from
    && k <= ptr - from
    && ScanString(s, quote, ptr, buf[..k]) == ScanString(s, quote, from, [])
  }

  /** The string branch of nextToken (search.c:193-236), from just behind the
      opening quote `quote`, with the missing advance past a backslash just
      before the NUL put in (see StringLoopAsWritten). */
  method ReadString(s: string, quote: char, from: nat) returns (status: StatusCode, next: Token)
    requires from <= |s|
    ensures Lexed(status, next) == ScanString(s, quote, from, [])
  {
    var buf := new char[NulIndex(s, from) - from];  // malloc(xmlStrlen(strPtr))
    var k: nat := 0;
    var ptr: nat := from;
    while At(s, ptr) != '\0'
      invariant Scanning(s, quote, from, buf, k, ptr)
      decreases |s| - ptr
    {
      ghost var ptr0 := ptr;
      k, ptr := CopyUnquoted(s, quote, from, buf, k, ptr);
      var closed;
      k, ptr, closed := CopyEscapeOrQuote(s, quote, from, buf, k, ptr);
      if closed {
        return Ok, Token(TtString, buf[..k], ptr);
      }
    }
    return UnterminatedStr, Token(TtNone, "", ptr);
  }

  /** The branches of the string loop after the inner loop (search.c:209-230):
      an escape, the other quote, or the closing quote, which ends the string
      (`closed`). At NUL nothing happens. */
  method CopyEscapeOrQuote(s: string, quote: char, from: nat, buf: array<char>, k: nat, ptr: nat)
    returns (k': nat, ptr': nat, closed: bool)
    requires Scanning(s, quote, from, buf, k, ptr) && !IsNotQuote(At(s, ptr))
    modifies buf
    ensures ptr <= ptr' && k' <= buf.Length
    ensures closed ==> ScanString(s, quote, from, []) == Lexed(Ok, Token(TtString, buf[..k'], ptr'))
    ensures !closed ==> Scanning(s, quote, from, buf, k', ptr')
    ensures !closed && At(s, ptr) != '\0' ==> ptr < ptr'
  {
    k', ptr', closed := k, ptr, false;
    var c := At(s, ptr);
    CharacterClasses(c);
    if c == '\\' {
      var d := At(s, ptr + 1);
      CharacterClasses(d);
      if IsNotQuote(d) {
        buf[k] := c;
        buf[k + 1] := d;
        assert buf[..k + 2] == buf[..k] + [c, d];
        k', ptr' := k + 2, ptr + 2;
      } else if d != '\0' {
        buf[k] := d;
        assert buf[..k + 1] == buf[..k] + [d];
        k', ptr' := k + 1, ptr + 2;
      } else {
        ptr' := ptr + 1;
      }
    } else if c != '\0' && c != quote {
      buf[k] := c;
      assert buf[..k + 1] == buf[..k] + [c];
      k', ptr' := k + 1, ptr + 1;
    } else if c != '\0' {
      k', ptr', closed := k, ptr + 1, true;
    }
  }

  /** The inner loop of the string branch (search.c:205-206): copy the
      characters that need no escape. */
  method CopyUnquoted(s: string, quote: char, from: nat, buf: array<char>, k: nat, ptr: nat)
    returns (k': nat, ptr': nat)
    requires Scanning(s, quote, from, buf, k, ptr)
    modifies buf
    ensures Scanning(s, quote, from, buf, k', ptr')
    ensures ptr <= ptr' && !IsNotQuote(At(s, ptr'))
  {
    k', ptr' := k, ptr;
    while IsNotQuote(At(s, ptr'))
      invariant ptr <= ptr' && Scanning(s, quote, from, buf, k', ptr')
      decreases |s| - ptr'
    {
      CharacterClasses(At(s, ptr'));
      buf[k'] := At(s, ptr');
      assert buf[..k' + 1] == buf[..k'] + [At(s, ptr')];
      k', ptr' := k' + 1, ptr' + 1;
    }
  }

  /** Nothing but white space remains before the terminator. */
  ghost predicate OnlySpaceLeft(s: string, p: nat)
    requires p <= |s|
  {
    forall i :: p <= i < NulIndex(s, p) ==> IsWhiteSpaceChar(At(s, i))
  }

  /** nextToken answers XQ_NO_TOKEN exactly when only white space is left. */
  lemma LexNoTokenIffOnlySpace(s: string, p: nat)
    requires p <= |s|
    ensures Lex(s, p).status == NoToken <==> OnlySpaceLeft(s, p)
  {
    var q := SkipSpace(s, p);
    var n := NulIndex(s, p);
    SkipSpaceSpan(s, p);
    CharacterClasses(At(s, q));
    CharacterClasses('\0');
    if At(s, q) == '\0' {
      assert q == n;
      forall i | p <= i < n ensures IsWhiteSpaceChar(At(s, i)) {
        CharacterClasses(At(s, i));
      }
    }
    if OnlySpaceLeft(s, p) {
      assert q == n;
    }
  }

  /** Identifier characters: neither white space, NUL nor a token. */
  predicate IsIdentChar(c: char) {
    c != '\0' && !IsWhiteSpaceChar(c) && !IsTokenChar(c)
  }

  /** What nextToken reads after the white space at `p`: the quotes open a
      string; each of '=', '>', '[', backslash and ']' is a token of its own;
      any other character but NUL starts an identifier, which is the longest
      run of identifier characters there. */
  lemma LexTokensAndIdents(s: string, p: nat)
    requires p <= |s|
    ensures var start := SkipSpace(s, p);
      var c := At(s, start);
      var r := Lex(s, p);
      && (IsTokenChar(c) && c != '"' && c != '\'' <==> r.status == Ok && r.token.kind == TtToken)
      && (IsIdentChar(c) <==> r.status == Ok && r.token.kind == TtIdent)
      && (r.status == Ok && r.token.kind == TtToken ==> r.token == Token(TtToken, [c], start + 1))
      && (r.status == Ok && r.token.kind == TtIdent ==>
            && r.token.content == s[start..r.token.strPtr]
            && (forall i :: start <= i < r.token.strPtr ==> IsIdentChar(s[i]))
            && !IsIdentChar(At(s, r.token.strPtr)))
  {
    var start := SkipSpace(s, p);
    var c := At(s, start);
    CharacterClasses(c);
    if IsIdentChar(c) {
      var e := SkipIdentChar(s, start);
      IdentEndSpan(s, start);
      CharacterClasses(At(s, e));
      forall i | start <= i < e ensures IsIdentChar(s[i]) {
        CharacterClasses(At(s, i));
      }
    }
  }

  /** The body of a quoted string holding `v`: a backslash or the quote itself
      is written with a backslash before it. */
  function Escape(v: string, quote: char): (e: string)
    ensures |v| <= |e|
  {
    if v == [] then []
    else (if v[0] == '\\' || v[0] == quote then ['\\', v[0]] else [v[0]]) + Escape(v[1..], quote)
  }

  /** `v` written as a quoted string. */
  function Quote(v: string, quote: char): string {
    [quote] + Escape(v, quote) + [quote]
  }

  /** A string with no backslash and no quote in it is written as it is. */
  lemma {:induction false} EscapePlain(v: string, quote: char)
    requires forall i :: 0 <= i < |v| ==> v[i] != '\\' && v[i] != quote
    ensures Escape(v, quote) == v
  {
    if v != [] {
      EscapePlain(v[1..], quote);
    }
  }

  /** Scanning an escaped body followed by the closing quote gives back the
      string that was escaped. */
  lemma {:induction false} ScanEscaped(s: string, quote: char, q: nat, acc: string, v: string, rest: string)
    requires quote == '"' || quote == '\''
    requires '\0' !in v
    requires q <= |s| && s[q..] == Escape(v, quote) + ([quote] + rest)
    ensures ScanString(s, quote, q, acc) == Lexed(Ok, Token(TtString, acc + v, q + |Escape(v, quote)| + 1))
    decreases |v|
  {
    if v == [] {
      assert s[q] == s[q..][0] == quote;
      CharacterClasses(quote);
      assert acc + v == acc;
    } else {
      var ch := v[0];
      var k := EscapedHead(s, quote, q, v, rest);
      ScanOne(s, quote, q, acc, ch);
      ScanEscaped(s, quote, q + k, acc + [ch], v[1..], rest);
      MoveHead(acc, v);
    }
  }

  /** The first character of an escaped body takes `k` characters of the
      text, a backslash first when it needs one; the rest of the body
      follows. */
  lemma EscapedHead(s: string, quote: char, q: nat, v: string, rest: string) returns (k: nat)
    requires v != [] && '\0' !in v
    requires q <= |s| && s[q..] == Escape(v, quote) + ([quote] + rest)
    ensures v[0] != '\0'
    ensures k == if v[0] == '\\' || v[0] == quote then 2 else 1
    ensures k == |Escape(v, quote)| - |Escape(v[1..], quote)|
    ensures v[0] == '\\' || v[0] == quote ==> q + 1 < |s| && s[q] == '\\' && s[q + 1] == v[0]
    ensures v[0] != '\\' && v[0] != quote ==> q < |s| && s[q] == v[0]
    ensures q + k <= |s| && s[q + k..] == Escape(v[1..], quote) + ([quote] + rest)
  {
    assert v[0] != '\0' by { assert v[0] in v; }
    var e := Escape(v[1..], quote);
    var head := if v[0] == '\\' || v[0] == quote then ['\\', v[0]] else [v[0]];
    assert Escape(v, quote) == head + e;
    ConcatAssociative(head, e, [quote] + rest);
    var tail := e + ([quote] + rest);
    if v[0] == '\\' || v[0] == quote {
      k := 2;
      EscapedPair(s, q, v[0], tail);
    } else {
      k := 1;
      EscapedPlain(s, q, v[0], tail);
    }
  }

  /** A backslash and `ch` at the front of the text. */
  lemma EscapedPair(s: string, q: nat, ch: char, tail: string)
    requires q <= |s| && s[q..] == ['\\', ch] + tail
    ensures q + 1 < |s| && s[q] == '\\' && s[q + 1] == ch
    ensures s[q + 2..] == tail
  {
    assert s[q..] == ['\\'] + ([ch] + tail);
    Suffix(s, q, ['\\'], [ch] + tail);
    Suffix(s, q + 1, [ch], tail);
    assert s[q] == s[q..][0] && s[q + 1] == s[q + 1..][0];
  }

  /** `ch` alone at the front of the text. */
  lemma EscapedPlain(s: string, q: nat, ch: char, tail: string)
    requires q <= |s| && s[q..] == [ch] + tail
    ensures q < |s| && s[q] == ch && s[q + 1..] == tail
  {
    Suffix(s, q, [ch], tail);
    assert s[q] == s[q..][0];
  }

  /** ScanString over one character of an escaped body: `ch` itself, or a
      backslash and `ch` when `ch` is a backslash or the quote. */
  lemma ScanOne(s: string, quote: char, q: nat, acc: string, ch: char)
    requires (quote == '"' || quote == '\'') && ch != '\0'
    requires ch == '\\' || ch == quote ==> q + 1 < |s| && s[q] == '\\' && s[q + 1] == ch
    requires ch != '\\' && ch != quote ==> q < |s| && s[q] == ch
    ensures var k := if ch == '\\' || ch == quote then 2 else 1;
      q + k <= |s| && ScanString(s, quote, q, acc) == ScanString(s, quote, q + k, acc + [ch])
  {
    CharacterClasses(ch);
    CharacterClasses('\\');
  }

  /** One character of a string body as a writer may put it: as it is, or
      with a backslash before it. */
  datatype BodyChar = Plain(c: char) | Escaped(c: char)

  /** What the writer may put inside quotes: no NUL anywhere, and a bare
      character is neither a backslash nor the enclosing quote. */
  predicate WritableBody(b: seq<BodyChar>, quote: char) {
    forall i :: 0 <= i < |b| ==>
      b[i].c != '\0' && (b[i].Plain? ==> b[i].c != '\\' && b[i].c != quote)
  }

  /** The characters one body character is written as. */
  function CharText(x: BodyChar): (t: string)
    ensures 1 <= |t| <= 2
  {
    match x
    case Plain(c) => [c]
    case Escaped(c) => ['\\', c]
  }

  /** What one body character stands for, by the copy rules of the string
      branch: a bare character is kept; a backslash before a backslash or
      either quote is dropped and that character kept; a backslash before any
      other character is kept together with it. */
  function CharValue(x: BodyChar): (v: string)
    ensures x.Plain? ==> v == [x.c]
    ensures x.Escaped? && (x.c == '\\' || x.c == '"' || x.c == '\'') ==> v == [x.c]
    ensures x.Escaped? && x.c != '\\' && x.c != '"' && x.c != '\'' ==> v == ['\\', x.c]
  {
    match x
    case Plain(c) => [c]
    case Escaped(c) => if c == '\\' || c == '"' || c == '\'' then [c] else ['\\', c]
  }

  /** The characters of a written body. */
  function BodyText(b: seq<BodyChar>): (t: string)
    ensures |b| <= |t|
  {
    if b == [] then [] else CharText(b[0]) + BodyText(b[1..])
  }

  /** The string a written body stands for. */
  function BodyValue(b: seq<BodyChar>): (v: string)
    ensures |v| <= |BodyText(b)|
  {
    if b == [] then [] else CharValue(b[0]) + BodyValue(b[1..])
  }

  /** Scanning any written body followed by the closing quote gives the
      value the copy rules assign to it, and ends just after that quote. */
  lemma {:induction false} ScanWritten(s: string, quote: char, q: nat, acc: string, b: seq<BodyChar>, rest: string)
    requires quote == '"' || quote == '\''
    requires WritableBody(b, quote)
    requires q <= |s| && s[q..] == BodyText(b) + ([quote] + rest)
    ensures ScanString(s, quote, q, acc) == Lexed(Ok, Token(TtString, acc + BodyValue(b), q + |BodyText(b)| + 1))
    decreases |b|
  {
    if b == [] {
      assert s[q] == s[q..][0] == quote;
      CharacterClasses(quote);
      assert acc + BodyValue(b) == acc;
    } else {
      var x, t := b[0], BodyText(b[1..]);
      ConcatAssociative(CharText(x), t, [quote] + rest);
      ScanChar(s, quote, q, acc, x, t + ([quote] + rest));
      assert WritableBody(b[1..], quote) by {
        assert forall i :: 0 <= i < |b[1..]| ==> b[1..][i] == b[i + 1];
      }
      ScanWritten(s, quote, q + |CharText(x)|, acc + CharValue(x), b[1..], rest);
      ConcatAssociative(acc, CharValue(x), BodyValue(b[1..]));
    }
  }

  /** ScanString over one written body character: it moves past the
      character's text and copies its value. */
  lemma ScanChar(s: string, quote: char, q: nat, acc: string, x: BodyChar, tail: string)
    requires quote == '"' || quote == '\''
    requires x.c != '\0' && (x.Plain? ==> x.c != '\\' && x.c != quote)
    requires q <= |s| && s[q..] == CharText(x) + tail
    ensures q + |CharText(x)| <= |s| && s[q + |CharText(x)|..] == tail
    ensures ScanString(s, quote, q, acc) == ScanString(s, quote, q + |CharText(x)|, acc + CharValue(x))
  {
    CharacterClasses(x.c);
    CharacterClasses('\\');
    if x.Plain? {
      EscapedPlain(s, q, x.c, tail);
    } else {
      EscapedPair(s, q, x.c, tail);
    }
  }

  /** nextToken reads a quoted string back: Lex inverts Quote, whatever
      follows the closing quote. */
  lemma LexQuoted(s: string, p: nat, v: string, quote: char, rest: string)
    requires p <= |s| && s[p..] == Quote(v, quote) + rest
    requires quote == '"' || quote == '\''
    requires '\0' !in v
    ensures Lex(s, p) == Lexed(Ok, Token(TtString, v, p + |Quote(v, quote)|))
  {
    var e := Escape(v, quote);
    CharacterClasses(quote);
    assert s[p..] == [quote] + (e + ([quote] + rest));
    assert s[p] == s[p..][0] == quote;
    assert SkipSpace(s, p) == p;
    Suffix(s, p, [quote], e + ([quote] + rest));
    ScanEscaped(s, quote, p + 1, [], v, rest);
  }

  /** nextToken reads any written body between quotes as the value the copy
      rules give it, whatever follows the closing quote. */
  lemma LexWritten(s: string, p: nat, quote: char, b: seq<BodyChar>, rest: string)
    requires quote == '"' || quote == '\''
    requires WritableBody(b, quote)
    requires p <= |s| && s[p..] == [quote] + BodyText(b) + ([quote] + rest)
    ensures Lex(s, p) == Lexed(Ok, Token(TtString, BodyValue(b), p + |BodyText(b)| + 2))
  {
    var t := BodyText(b);
    CharacterClasses(quote);
    assert s[p..] == [quote] + (t + ([quote] + rest));
    assert s[p] == s[p..][0] == quote;
    assert SkipSpace(s, p) == p;
    Suffix(s, p, [quote], t + ([quote] + rest));
    ScanWritten(s, quote, p + 1, [], b, rest);
  }

  /** A backslash before a plain character is kept with it (`"a\xb"` reads
      as `a\xb`), and one before the other quote is dropped (`"\'"` reads as
      `'`). */
  lemma BackslashCopyRules()
    ensures Lex("\"a\\xb\"", 0) == Lexed(Ok, Token(TtString, "a\\xb", 6))
    ensures Lex("\"\\'\"", 0) == Lexed(Ok, Token(TtString, "'", 4))
  {
    var b1 := [Plain('a'), Escaped('x'), Plain('b')];
    assert BodyText(b1) == "a\\xb" && BodyValue(b1) == "a\\xb";
    LexWritten("\"a\\xb\"", 0, '"', b1, "");
    var b2 := [Escaped('\'')];
    assert BodyText(b2) == "\\'" && BodyValue(b2) == "'";
    LexWritten("\"\\'\"", 0, '"', b2, "");
  }

  /** White space in front of a token does not change it. */
  lemma LexSkipsSpace(s: string, p: nat)
    requires p < |s| && IsWhiteSpaceChar(s[p])
    ensures Lex(s, p) == Lex(s, p + 1)
  {
    CharacterClasses(s[p]);
    assert SkipSpace(s, p) == SkipSpace(s, p + 1);
  }

  /** At the terminator there is no token. */
  lemma LexAtEnd(s: string)
    ensures Lex(s, |s|) == Lexed(NoToken, Token(TtNone, "", |s|))
  {
    CharacterClasses('\0');
    assert SkipSpace(s, |s|) == |s|;
  }

  /** A non-empty run of identifier characters. */
  predicate IsIdent(w: string) {
    w != [] && forall i :: 0 <= i < |w| ==> IsIdentChar(w[i])
  }

  /** An identifier ends at the first character that cannot continue it. */
  lemma {:induction false} IdentRun(s: string, k: nat, e: nat)
    requires k <= e <= |s|
    requires forall i :: k <= i < e ==> IsIdentChar(s[i])
    requires !IsIdentChar(At(s, e))
    ensures IdentEnd(s, k) == e
    decreases e - k
  {
    CharacterClasses(At(s, k));
    if k < e {
      IdentRun(s, k + 1, e);
    }
  }

  /** nextToken reads an identifier that is followed by anything that cannot
      continue it. */
  lemma LexIdent(s: string, p: nat, e: nat)
    requires p < e <= |s| && IsIdent(s[p..e]) && !IsIdentChar(At(s, e))
    ensures Lex(s, p) == Lexed(Ok, Token(TtIdent, s[p..e], e))
  {
    assert s[p] == s[p..e][0];
    CharacterClasses(s[p]);
    assert SkipSpace(s, p) == p;
    forall i | p <= i < e ensures IsIdentChar(s[i]) {
      assert s[i] == s[p..e][i - p];
    }
    IdentRun(s, p, e);
    assert SkipIdentChar(s, p) == IdentEnd(s, p);
  }

  /** nextToken reads '=', '>', '[', backslash and ']' as tokens of their own. */
  lemma LexPunct(s: string, p: nat, c: char)
    requires p < |s| && s[p] == c
    requires IsTokenChar(c) && c != '"' && c != '\''
    ensures Lex(s, p) == Lexed(Ok, Token(TtToken, [c], p + 1))
  {
    CharacterClasses(c);
    assert SkipSpace(s, p) == p;
  }

  /** A string whose quote never comes back is unterminated. */
  lemma {:induction false} ScanUnterminated(s: string, quote: char, q: nat, acc: string)
    requires q <= |s|
    requires forall i :: q <= i < |s| ==> s[i] != quote
    ensures ScanString(s, quote, q, acc).status == UnterminatedStr
    decreases |s| - q
  {
    var c := At(s, q);
    CharacterClasses(c);
    if c == '\0' {
    } else if IsNotQuote(c) {
      ScanUnterminated(s, quote, q + 1, acc + [c]);
    } else if c == '\\' {
      var d := At(s, q + 1);
      CharacterClasses(d);
      if IsNotQuote(d) {
        ScanUnterminated(s, quote, q + 2, acc + [c, d]);
      } else if d != '\0' {
        ScanUnterminated(s, quote, q + 2, acc + [d]);
      }
    } else {
      ScanUnterminated(s, quote, q + 1, acc + [c]);
    }
  }

  /** nextToken on a quote that never comes back: an unterminated string. */
  lemma LexUnterminated(s: string, p: nat)
    requires p < |s| && (s[p] == '"' || s[p] == '\'')
    requires forall i :: p < i < |s| ==> s[i] != s[p]
    ensures Lex(s, p).status == UnterminatedStr
  {
    CharacterClasses(s[p]);
    assert SkipSpace(s, p) == p;
    ScanUnterminated(s, s[p], p + 1, []);
  }

  /** The first index at or after `p` that the inner copy loop of the string
      branch (search.c:205-206) stops at: it runs over plain string
      characters. */
  function NotQuoteEnd(s: string, p: nat): (q: nat)
    requires p <= |s|
    decreases |s| - p
    ensures p <= q <= |s| && !IsNotQuote(At(s, q))
    ensures forall i :: p <= i < q ==> IsNotQuote(s[i])
  {
    CharacterClasses(At(s, p));
    if IsNotQuote(At(s, p)) then NotQuoteEnd(s, p + 1) else p
  }

  /** The loop of the string branch as written (search.c:204-232), cursor
      only, run for at most `passes` passes; `exited` tells whether the loop
      was left. A backslash just before the terminator takes neither escape
      branch and the cursor stays on it, so the loop never ends. */
  method StringLoopAsWritten(s: string, quote: char, q: nat, passes: nat) returns (ptr: nat, exited: bool)
    requires q <= |s|
    ensures At(s, q) == '\\' && At(s, q + 1) == '\0' ==> !exited && ptr == q
    ensures var b := NotQuoteEnd(s, q);
      At(s, b) == '\\' && At(s, b + 1) == '\0' ==> !exited && ptr == (if passes == 0 then q else b)
  {
    ptr, exited := q, false;
    var pass := 0;
    while pass < passes && !exited
      invariant pass <= passes && ptr <= |s|
      invariant At(s, q) == '\\' && At(s, q + 1) == '\0' ==> !exited && ptr == q
      invariant var b := NotQuoteEnd(s, q);
        At(s, b) == '\\' && At(s, b + 1) == '\0' ==> !exited && ptr == (if pass == 0 then q else b)
    {
      if At(s, ptr) == '\0' {
        exited := true;
      } else {
        while IsNotQuote(At(s, ptr))
          invariant ptr <= |s|
          invariant At(s, q) == '\\' && At(s, q + 1) == '\0' ==> ptr == q
          invariant var b := NotQuoteEnd(s, q);
            At(s, b) == '\\' && At(s, b + 1) == '\0' ==> q <= ptr <= b && (pass > 0 ==> ptr == b)
          decreases |s| - ptr
        {
          CharacterClasses(At(s, ptr));
          ptr := ptr + 1;
        }
        var c := At(s, ptr);
        var d := At(s, ptr + 1);
        CharacterClasses(c);
        CharacterClasses(d);
        if c == '\\' {
          if IsNotQuote(d) || d != '\0' {
            ptr := ptr + 2;
          }
        } else if c != '\0' && c != quote {
          ptr := ptr + 1;
        } else if c != '\0' {
          ptr, exited := ptr + 1, true;
        }
      }
      pass := pass + 1;
    }
  }

  /** In `'a\`, the string loop enters on `a`, and the inner copy loop brings
      the cursor to the backslash that stands just before the terminator:
      from there StringLoopAsWritten never moves or exits. */
  lemma StringLoopReachesTrailingBackslash()
    ensures var s := "'a\\"; NotQuoteEnd(s, 1) == 2 && At(s, 2) == '\\' && At(s, 3) == '\0'
  {
    var s := "'a\\";
    CharacterClasses('a');
    CharacterClasses('\\');
    assert NotQuoteEnd(s, 2) == 2;
  }

  /** A selector that ends in a backslash inside a string: the loop as
      written keeps its cursor on the backslash, while the model reports an
      unterminated string. */
  lemma TrailingBackslashIsUnterminated()
    ensures Lex("'a\\", 0) == Lexed(UnterminatedStr, Token(TtNone, "", 3))
  {
    CharacterClasses('\'');
    CharacterClasses('a');
    CharacterClasses('\\');
    CharacterClasses('\0');
    assert SkipSpace("'a\\", 0) == 0;
  }
}

=== FILE: traverse.dfy ===
/**
 * The axis operations of libxq (traverse.c). Each one looks at a node of the
 * tree and pushes what it finds onto an output list, stopping at the first
 * push that fails.
 *
 * Each operation has a reference definition of what it appends (a function of
 * the tree) and a method that does the walk the way the C code does; the
 * method's contract says it appends exactly the reference result.
 */
module Traverse {
  import opened LibXQ
  import opened XmlTree
  import opened NodeLists

  /** The element nodes strictly below `n`, in document preorder (a node before
      its children, siblings left to right), descending only through elements:
      the children of a text or comment node are never visited. */
  function Descendants(t: Tree, n: NodeId): (r: seq<NodeId>)
    requires ValidTree(t) && n < |t|
    decreases |t| - n, 1, 0
    ensures forall k :: 0 <= k < |r| ==> r[k] < |t| && IsElement(t, r[k])
  {
    DescendantsFrom(t, n, 0)
  }

  /** The part of Descendants(t, n) that lies under children i, i+1, ... of n. */
  function DescendantsFrom(t: Tree, n: NodeId, i: nat): (r: seq<NodeId>)
    requires ValidTree(t) && n < |t| && i <= |t[n].children|
    decreases |t| - n, 0, |t[n].children| - i
    ensures forall k :: 0 <= k < |r| ==> r[k] < |t| && IsElement(t, r[k])
  {
    if i == |t[n].children| then [] else ElementSubtree(t, t[n].children[i]) + DescendantsFrom(t, n, i + 1)
  }

  /** What one child `c` contributes to the preorder: an element and its
      Descendants, or nothing for any other kind of node. */
  function ElementSubtree(t: Tree, c: NodeId): (r: seq<NodeId>)
    requires ValidTree(t) && c < |t|
    decreases |t| - c, 2, 0
    ensures forall k :: 0 <= k < |r| ==> r[k] < |t| && IsElement(t, r[k])
  {
    if IsElement(t, c) then [c] + Descendants(t, c) else []
  }

  /** What _xQ_findDescendantsByName appends, following its recursion: the
      elements named `name` among the Descendants of `n`, in the same order.
      Its search goes on beneath elements of any name. */
  function DescendantsByName(t: Tree, n: NodeId, name: string): (r: seq<NodeId>)
    requires ValidTree(t) && n < |t|
    decreases |t| - n, 1, 0
  {
    DescendantsByNameFrom(t, n, name, 0)
  }

  function DescendantsByNameFrom(t: Tree, n: NodeId, name: string, i: nat): (r: seq<NodeId>)
    requires ValidTree(t) && n < |t| && i <= |t[n].children|
    decreases |t| - n, 0, |t[n].children| - i
  {
    if i == |t[n].children| then []
    else NamedSubtree(t, t[n].children[i], name) + DescendantsByNameFrom(t, n, name, i + 1)
  }

  /** What one child `c` contributes to DescendantsByName: for an element,
      itself if it is named `name`, then its own DescendantsByName. */
  function NamedSubtree(t: Tree, c: NodeId, name: string): (r: seq<NodeId>)
    requires ValidTree(t) && c < |t|
    decreases |t| - c, 2, 0
  {
    if IsElement(t, c) then (if t[c].name == name then [c] else []) + DescendantsByName(t, c, name) else []
  }

  /** `x` is reached from `n` by stepping down through elements only: its
      parent is `n`, or its parent is itself such an element. */
  ghost predicate ElementBelow(t: Tree, x: NodeId, n: NodeId)
    requires ValidTree(t)
    decreases x
  {
    && x < |t|
    && IsElement(t, x)
    && t[x].parent.Some?
    && (t[x].parent.value == n || ElementBelow(t, t[x].parent.value, n))
  }

  /** The elements of `ns` named `name`, in the order of `ns` (the effect of
      the xmlStrcmp(name, cur->name) == 0 tests). */
  function NamedElements(t: Tree, ns: seq<NodeId>, name: string): (r: seq<NodeId>)
    requires AllNodesIn(t, ns)
    ensures |r| <= |ns|
    ensures forall k :: 0 <= k < |r| ==> r[k] < |t| && IsElement(t, r[k]) && t[r[k]].name == name
  {
    if ns == [] then []
    else
      (if IsElement(t, ns[0]) && t[ns[0]].name == name then [ns[0]] else [])
        + NamedElements(t, ns[1..], name)
  }

  /** The element children of `n` named `name`, in sibling order. */
  function ChildrenByName(t: Tree, n: NodeId, name: string): (r: seq<NodeId>)
    requires n < |t| && AllNodesIn(t, t[n].children)
    ensures forall k :: 0 <= k < |r| ==> r[k] < |t| && IsElement(t, r[k]) && t[r[k]].name == name
  {
    NamedElements(t, t[n].children, name)
  }

  lemma ChildrenInTree(t: Tree, n: NodeId)
    requires ValidTree(t) && n < |t|
    ensures AllNodesIn(t, t[n].children)
  {
    var cs := t[n].children;
    forall k | 0 <= k < |cs| ensures cs[k] < |t| {
      assert t[n].children[k] == cs[k];
    }
  }

  /** What _xQ_findNextSiblingByName appends: the next element sibling of an
      element node, when it is named `name`. */
  function NextSiblingByName(t: Tree, n: NodeId, name: string): (r: seq<NodeId>)
    requires ValidTree(t) && n < |t|
    ensures |r| <= 1
    ensures r != [] ==> IsElement(t, n) && NextElementSibling(t, n) == Some(r[0])
    ensures r != [] ==> r[0] < |t| && IsElement(t, r[0]) && t[r[0]].name == name
    ensures r != [] ==> t[n].parent.Some? && t[r[0]].parent == t[n].parent
    ensures r == [] ==> !IsElement(t, n) || match NextElementSibling(t, n)
                                            case None => true
                                            case Some(s) => t[s].name != name
  {
    if !IsElement(t, n) then []
    else match NextElementSibling(t, n)
      case None => []
      case Some(s) => if t[s].name == name then [s] else []
  }

  /** What _xQ_filterAttributeEquals appends: `n` itself when it has attribute
      `name` with exactly the value `value`; a missing attribute is no match. */
  function AttributeEquals(t: Tree, n: NodeId, name: string, value: string): (r: seq<NodeId>)
    requires n < |t|
    ensures r == [] || r == [n]
    ensures r == [n] <==> IsElement(t, n) && name in t[n].attributes && t[n].attributes[name] == value
  {
    if GetProp(t, n, name) == Some(value) then [n] else []
  }

  /** What _xQ_filterByName appends: `n` itself when it is an element named
      `name`. */
  function SelfByName(t: Tree, n: NodeId, name: string): (r: seq<NodeId>)
    requires n < |t|
    ensures r == NamedElements(t, [n], name)
  {
    if IsElement(t, n) && t[n].name == name then [n] else []
  }

  /** NamedElements distributes over concatenation. */
  lemma {:induction false} NamedElementsConcat(t: Tree, a: seq<NodeId>, b: seq<NodeId>, name: string)
    requires AllNodesIn(t, a) && AllNodesIn(t, b)
    ensures AllNodesIn(t, a + b)
    ensures NamedElements(t, a + b, name) == NamedElements(t, a, name) + NamedElements(t, b, name)
    decreases |a|
  {
    if a == [] {
      assert a + b == b;
    } else {
      assert (a + b)[1..] == a[1..] + b;
      NamedElementsConcat(t, a[1..], b, name);
    }
  }

  /** One step of a walk along `ns`: the head decides on its own, the rest
      of the walk is a suffix. */
  lemma NamedElementsStep(t: Tree, ns: seq<NodeId>, i: nat, name: string)
    requires i < |ns| && AllNodesIn(t, ns[i..])
    ensures ns[i] < |t| && AllNodesIn(t, ns[i + 1..])
    ensures NamedElements(t, ns[i..], name) == SelfByName(t, ns[i], name) + NamedElements(t, ns[i + 1..], name)
  {
    assert ns[i..][0] == ns[i];
    assert ns[i..][1..] == ns[i + 1..];
    var rest := ns[i + 1..];
    forall k | 0 <= k < |rest| ensures rest[k] < |t| {
      assert rest[k] == ns[i..][k + 1];
    }
  }

  /** The list NamedElements keeps holds exactly the named elements of `ns`. */
  lemma {:induction false} NamedElementsMembership(t: Tree, ns: seq<NodeId>, name: string, x: NodeId)
    requires AllNodesIn(t, ns)
    ensures x in NamedElements(t, ns, name) <==> x in ns && x < |t| && IsElement(t, x) && t[x].name == name
    decreases |ns|
  {
    if ns != [] {
      NamedElementsMembership(t, ns[1..], name, x);
      assert ns == [ns[0]] + ns[1..];
    }
  }

  /** _xQ_findChildrenByName finds exactly the element children of `n` named
      `name`, and nothing deeper. */
  lemma ChildrenByNameMembership(t: Tree, n: NodeId, name: string, x: NodeId)
    requires ValidTree(t) && n < |t|
    ensures x in ChildrenByName(t, n, name) <==>
      x < |t| && IsElement(t, x) && t[x].name == name && t[x].parent == Some(n)
  {
    ChildrenInTree(t, n);
    NamedElementsMembership(t, t[n].children, name, x);
    if x in t[n].children {
      var k := IndexOf(t[n].children, x);
    }
  }

  /** Under a child: an element below `c`, where `c` is an element child of
      `n`, is an element below `n`. */
  lemma {:induction false} BelowThroughChild(t: Tree, x: NodeId, c: NodeId, n: NodeId)
    requires ValidTree(t) && c < |t| && IsElement(t, c) && t[c].parent == Some(n)
    requires ElementBelow(t, x, c)
    ensures ElementBelow(t, x, n)
    decreases x
  {
    assert ElementBelow(t, c, n);
    if t[x].parent.value != c {
      BelowThroughChild(t, t[x].parent.value, c, n);
    }
  }

  lemma {:induction false} DescendantsFromBelow(t: Tree, n: NodeId, i: nat, x: NodeId)
    requires ValidTree(t) && n < |t| && i <= |t[n].children|
    requires x in DescendantsFrom(t, n, i)
    ensures ElementBelow(t, x, n)
    decreases |t| - n, |t[n].children| - i
  {
    var c := t[n].children[i];
    if IsElement(t, c) && x == c {
      assert t[x].parent == Some(n);
    } else if IsElement(t, c) && x in Descendants(t, c) {
      DescendantsFromBelow(t, c, 0, x);
      BelowThroughChild(t, x, c, n);
    } else {
      DescendantsFromBelow(t, n, i + 1, x);
    }
  }

  /** An element child j >= i of `n` and everything below it occur in
      DescendantsFrom(t, n, i). */
  lemma {:induction false} SubtreeInDescendantsFrom(t: Tree, n: NodeId, i: nat, j: nat)
    requires ValidTree(t) && n < |t| && i <= j < |t[n].children|
    requires IsElement(t, t[n].children[j])
    ensures t[n].children[j] in DescendantsFrom(t, n, i)
    ensures forall y :: y in Descendants(t, t[n].children[j]) ==> y in DescendantsFrom(t, n, i)
    decreases j - i
  {
    if i < j {
      SubtreeInDescendantsFrom(t, n, i + 1, j);
    }
  }

  lemma {:induction false} DescendantsFromTransitive(t: Tree, n: NodeId, i: nat, p: NodeId, y: NodeId)
    requires ValidTree(t) && n < |t| && i <= |t[n].children|
    requires p in DescendantsFrom(t, n, i) && p < |t| && y in Descendants(t, p)
    ensures y in DescendantsFrom(t, n, i)
    decreases |t| - n, |t[n].children| - i
  {
    var c := t[n].children[i];
    if IsElement(t, c) && p == c {
    } else if IsElement(t, c) && p in Descendants(t, c) {
      DescendantsFromTransitive(t, c, 0, p, y);
    } else {
      DescendantsFromTransitive(t, n, i + 1, p, y);
    }
  }

  lemma {:induction false} BelowInDescendants(t: Tree, x: NodeId, n: NodeId)
    requires ValidTree(t) && n < |t| && ElementBelow(t, x, n)
    ensures x in Descendants(t, n)
    decreases x
  {
    var p := t[x].parent.value;
    var j := IndexOf(t[p].children, x);
    if p == n {
      SubtreeInDescendantsFrom(t, n, 0, j);
    } else {
      BelowInDescendants(t, p, n);
      SubtreeInDescendantsFrom(t, p, 0, j);
      DescendantsFromTransitive(t, n, 0, p, x);
    }
  }

  /** _xQ_findDescendants finds exactly the elements reached from `n` by
      stepping down through elements. */
  lemma DescendantsMembership(t: Tree, n: NodeId, x: NodeId)
    requires ValidTree(t) && n < |t|
    ensures x in Descendants(t, n) <==> ElementBelow(t, x, n)
  {
    if x in Descendants(t, n) {
      DescendantsFromBelow(t, n, 0, x);
    }
    if ElementBelow(t, x, n) {
      BelowInDescendants(t, x, n);
    }
  }

  lemma NamedSingleton(t: Tree, x: NodeId, name: string)
    requires x < |t|
    ensures NamedElements(t, [x], name) == if IsElement(t, x) && t[x].name == name then [x] else []
  {
    assert [x][1..] == [];
  }

  /** One sibling step of the filtered preorder. */
  lemma NamedDescendantsStep(t: Tree, n: NodeId, i: nat, name: string)
    requires ValidTree(t) && n < |t| && i < |t[n].children|
    ensures NamedElements(t, DescendantsFrom(t, n, i), name) ==
      NamedElements(t, ElementSubtree(t, t[n].children[i]), name) + NamedElements(t, DescendantsFrom(t, n, i + 1), name)
  {
    NamedElementsConcat(t, ElementSubtree(t, t[n].children[i]), DescendantsFrom(t, n, i + 1), name);
  }

  lemma {:induction false} DescendantsByNameFromFiltered(t: Tree, n: NodeId, name: string, i: nat)
    requires ValidTree(t) && n < |t| && i <= |t[n].children|
    ensures DescendantsByNameFrom(t, n, name, i) == NamedElements(t, DescendantsFrom(t, n, i), name)
    decreases |t| - n, 0, |t[n].children| - i
  {
    if i < |t[n].children| {
      NamedDescendantsStep(t, n, i, name);
      NamedSubtreeFiltered(t, t[n].children[i], name);
      DescendantsByNameFromFiltered(t, n, name, i + 1);
    }
  }

  lemma {:induction false} NamedSubtreeFiltered(t: Tree, c: NodeId, name: string)
    requires ValidTree(t) && c < |t|
    ensures NamedSubtree(t, c, name) == NamedElements(t, ElementSubtree(t, c), name)
    decreases |t| - c, 1, 0
  {
    if IsElement(t, c) {
      NamedSingleton(t, c, name);
      NamedElementsConcat(t, [c], Descendants(t, c), name);
      DescendantsByNameFromFiltered(t, c, name, 0);
    }
  }

  /** The recursion of _xQ_findDescendantsByName appends the same nodes, in the
      same order, as filtering the preorder of _xQ_findDescendants by name. */
  lemma DescendantsByNameFiltered(t: Tree, n: NodeId, name: string)
    requires ValidTree(t) && n < |t|
    ensures DescendantsByName(t, n, name) == NamedElements(t, Descendants(t, n), name)
  {
    DescendantsByNameFromFiltered(t, n, name, 0);
  }

  /** _xQ_findDescendantsByName finds exactly the elements named `name`
      reached from `n` through elements of any name. */
  lemma DescendantsByNameMembership(t: Tree, n: NodeId, name: string, x: NodeId)
    requires ValidTree(t) && n < |t|
    ensures x in DescendantsByName(t, n, name) <==> ElementBelow(t, x, n) && t[x].name == name
  {
    DescendantsByNameFiltered(t, n, name);
    DescendantsMembership(t, n, x);
    NamedElementsMembership(t, Descendants(t, n), name, x);
  }

  /** _xQ_findDescendants (traverse.c:15-32): walk the children of `node`,
      visiting each in turn, until one visit fails. */
  method FindDescendants(t: Tree, node: NodeId, outList: NodeList) returns (status: StatusCode)
    requires ValidTree(t) && node < |t| && outList.Valid()
    modifies outList.Repr
    ensures outList.Valid() && fresh(outList.Repr - old(outList.Repr))
    ensures Appended(old(outList.Contents()), outList.Contents(), Descendants(t, node), status)
    decreases |t| - node, 1
  {
    ghost var before := outList.Contents();
    ghost var done: seq<NodeId> := [];
    var cs := t[node].children;
    var i := 0;
    status := Ok;
    AppendedNothing(before);
    while i < |cs| && status == Ok
      invariant 0 <= i <= |cs|
      invariant outList.Valid() && fresh(outList.Repr - old(outList.Repr))
      invariant Appended(before, outList.Contents(), done, status)
      invariant done + DescendantsFrom(t, node, i) == Descendants(t, node)
    {
      var cur := cs[i];
      assert t[node].children[i] == cur;
      ghost var prior := outList.Contents();
      status := VisitForDescendants(t, cur, outList);
      AppendedThen(before, prior, outList.Contents(), done, ElementSubtree(t, cur), Ok, status);
      ConcatAssociative(done, ElementSubtree(t, cur), DescendantsFrom(t, node, i + 1));
      done := done + ElementSubtree(t, cur);
      i := i + 1;
    }
    if status != Ok {
      AppendedWithin(before, outList.Contents(), done, Descendants(t, node), status);
    } else {
      assert done == done + DescendantsFrom(t, node, i);
    }
  }

  /** The loop body of _xQ_findDescendants for one child `cur` (traverse.c:21-26):
      an element is pushed, and then, if that succeeded and it has children,
      searched in turn. */
  method VisitForDescendants(t: Tree, cur: NodeId, outList: NodeList) returns (status: StatusCode)
    requires ValidTree(t) && cur < |t| && outList.Valid()
    modifies outList.Repr
    ensures outList.Valid() && fresh(outList.Repr - old(outList.Repr))
    ensures Appended(old(outList.Contents()), outList.Contents(), ElementSubtree(t, cur), status)
    decreases |t| - cur, 2
  {
    status := Ok;
    if t[cur].kind == ElementNode {
      var pushed := outList.Push(cur);
      ghost var mid := outList.Contents();
      status := pushed;
      if |t[cur].children| > 0 && status == Ok {
        status := FindDescendants(t, cur, outList);
      } else if status == Ok {
        assert Descendants(t, cur) == [];
        AppendedNothing(mid);
      }
      AppendedThen(old(outList.Contents()), mid, outList.Contents(), [cur], Descendants(t, cur), pushed, status);
    } else {
      AppendedNothing(outList.Contents());
    }
  }

  /** _xQ_findDescendantsByName (traverse.c:40-59): walk the children of
      `node`, visiting each in turn, until one visit fails. */
  method FindDescendantsByName(t: Tree, name: string, node: NodeId, outList: NodeList) returns (status: StatusCode)
    requires ValidTree(t) && node < |t| && outList.Valid()
    modifies outList.Repr
    ensures outList.Valid() && fresh(outList.Repr - old(outList.Repr))
    ensures Appended(old(outList.Contents()), outList.Contents(), DescendantsByName(t, node, name), status)
    decreases |t| - node, 1
  {
    ghost var before := outList.Contents();
    ghost var done: seq<NodeId> := [];
    var cs := t[node].children;
    var i := 0;
    status := Ok;
    AppendedNothing(before);
    while i < |cs| && status == Ok
      invariant 0 <= i <= |cs|
      invariant outList.Valid() && fresh(outList.Repr - old(outList.Repr))
      invariant Appended(before, outList.Contents(), done, status)
      invariant done + DescendantsByNameFrom(t, node, name, i) == DescendantsByName(t, node, name)
    {
      var cur := cs[i];
      assert t[node].children[i] == cur;
      ghost var prior := outList.Contents();
      status := VisitForDescendantsByName(t, name, cur, outList);
      AppendedThen(before, prior, outList.Contents(), done, NamedSubtree(t, cur, name), Ok, status);
      ConcatAssociative(done, NamedSubtree(t, cur, name), DescendantsByNameFrom(t, node, name, i + 1));
      done := done + NamedSubtree(t, cur, name);
      i := i + 1;
    }
    if status != Ok {
      AppendedWithin(before, outList.Contents(), done, DescendantsByName(t, node, name), status);
    } else {
      assert done == done + DescendantsByNameFrom(t, node, name, i);
    }
  }

  /** The loop body of _xQ_findDescendantsByName for one child `cur`
      (traverse.c:47-53): an element is pushed if its name matches, and then,
      whatever its name, searched in turn if it has children. */
  method VisitForDescendantsByName(t: Tree, name: string, cur: NodeId, outList: NodeList) returns (status: StatusCode)
    requires ValidTree(t) && cur < |t| && outList.Valid()
    modifies outList.Repr
    ensures outList.Valid() && fresh(outList.Repr - old(outList.Repr))
    ensures Appended(old(outList.Contents()), outList.Contents(), NamedSubtree(t, cur, name), status)
    decreases |t| - cur, 2
  {
    status := Ok;
    if t[cur].kind == ElementNode {
      ghost var self: seq<NodeId> := if t[cur].name == name then [cur] else [];
      var pushed := Ok;
      if name == t[cur].name {
        pushed := outList.Push(cur);
      } else {
        AppendedNothing(outList.Contents());
      }
      ghost var mid := outList.Contents();
      status := pushed;
      if |t[cur].children| > 0 && status == Ok {
        status := FindDescendantsByName(t, name, cur, outList);
      } else if status == Ok {
        assert DescendantsByName(t, cur, name) == [];
        AppendedNothing(mid);
      }
      AppendedThen(old(outList.Contents()), mid, outList.Contents(), self, DescendantsByName(t, cur, name), pushed, status);
    } else {
      AppendedNothing(outList.Contents());
    }
  }

  /** One more node's share `self` appended, out of `self + rest`, behind
      what `done` appended already. */
  lemma AppendedStep(before: seq<NodeId>, prior: seq<NodeId>, after: seq<NodeId>,
                     done: seq<NodeId>, self: seq<NodeId>, rest: seq<NodeId>, all: seq<NodeId>, status: StatusCode)
    requires Appended(before, prior, done, Ok) && Appended(prior, after, self, status)
    requires done + (self + rest) == all
    ensures Appended(before, after, done + self, status) && done + self + rest == all
  {
    AppendedThen(before, prior, after, done, self, Ok, status);
    ConcatAssociative(done, self, rest);
  }

  /** _xQ_findChildrenByName (traverse.c:67-83). */
  method FindChildrenByName(t: Tree, name: string, node: NodeId, outList: NodeList) returns (status: StatusCode)
    requires node < |t| && AllNodesIn(t, t[node].children) && outList.Valid()
    modifies outList.Repr
    ensures outList.Valid() && fresh(outList.Repr - old(outList.Repr))
    ensures Appended(old(outList.Contents()), outList.Contents(), ChildrenByName(t, node, name), status)
  {
    ghost var before := outList.Contents();
    ghost var done: seq<NodeId> := [];
    var cs := t[node].children;
    assert cs[0..] == cs;
    var i := 0;
    status := Ok;
    AppendedNothing(before);
    while i < |cs| && status == Ok
      invariant 0 <= i <= |cs|
      invariant outList.Valid() && fresh(outList.Repr - old(outList.Repr))
      invariant Appended(before, outList.Contents(), done, status)
      invariant AllNodesIn(t, cs[i..])
      invariant done + NamedElements(t, cs[i..], name) == ChildrenByName(t, node, name)
    {
      var cur := cs[i];
      ghost var prior := outList.Contents();
      NamedElementsStep(t, cs, i, name);
      // The body pushes `cur` when it is an element named `name`, which is
      // what _xQ_filterByName does to one node.
      status := FilterByName(t, name, cur, outList);
      AppendedStep(before, prior, outList.Contents(), done, SelfByName(t, cur, name),
                   NamedElements(t, cs[i + 1..], name), ChildrenByName(t, node, name), status);
      done := done + SelfByName(t, cur, name);
      i := i + 1;
    }
    if status != Ok {
      AppendedWithin(before, outList.Contents(), done, ChildrenByName(t, node, name), status);
    } else {
      assert cs[i..] == [];
      assert done == done + NamedElements(t, cs[i..], name);
    }
  }

  /** _xQ_findNextSiblingByName (traverse.c:91-102). */
  method FindNextSiblingByName(t: Tree, name: string, node: NodeId, outList: NodeList) returns (status: StatusCode)
    requires ValidTree(t) && node < |t| && outList.Valid()
    modifies outList.Repr
    ensures outList.Valid() && fresh(outList.Repr - old(outList.Repr))
    ensures Appended(old(outList.Contents()), outList.Contents(), NextSiblingByName(t, node, name), status)
  {
    status := Ok;
    AppendedNothing(outList.Contents());
    if t[node].kind == ElementNode {
      var sibling := NextElementSibling(t, node);
      if sibling.Some? && name == t[sibling.value].name {
        status := outList.Push(sibling.value);
      }
    }
  }

  /** _xQ_addToOutput (traverse.c:109-111): the copy step. */
  method AddToOutput(t: Tree, node: NodeId, outList: NodeList) returns (status: StatusCode)
    requires node < |t| && outList.Valid()
    modifies outList.Repr
    ensures outList.Valid() && fresh(outList.Repr - old(outList.Repr))
    ensures Appended(old(outList.Contents()), outList.Contents(), [node], status)
  {
    status := outList.Push(node);
  }

  /** _xQ_filterAttributeEquals (traverse.c:119-137). */
  method FilterAttributeEquals(t: Tree, name: string, value: string, node: NodeId, outList: NodeList)
    returns (status: StatusCode)
    requires node < |t| && outList.Valid()
    modifies outList.Repr
    ensures outList.Valid() && fresh(outList.Repr - old(outList.Repr))
    ensures Appended(old(outList.Contents()), outList.Contents(), AttributeEquals(t, node, name, value), status)
  {
    status := Ok;
    AppendedNothing(outList.Contents());
    var thisValue := GetProp(t, node, name);
    if thisValue.Some? {
      if thisValue.value == value {
        status := outList.Push(node);
      }
    }
  }

  /** _xQ_filterByName (traverse.c:144-159). */
  method FilterByName(t: Tree, name: string, node: NodeId, outList: NodeList) returns (status: StatusCode)
    requires node < |t| && outList.Valid()
    modifies outList.Repr
    ensures outList.Valid() && fresh(outList.Repr - old(outList.Repr))
    ensures Appended(old(outList.Contents()), outList.Contents(), SelfByName(t, node, name), status)
  {
    status := Ok;
    AppendedNothing(outList.Contents());
    if t[node].kind == ElementNode {
      if name == t[node].name {
        status := outList.Push(node);
      }
    }
  }
}

=== FILE: xml_tree.dfy ===
/**
 * The parts of a libxml2 document tree that libxq reads, as an immutable arena.
 *
 * A node pointer becomes an index into the arena, so node identity survives in
 * every list of results. libxml2's accessors (xmlGetProp, xmlNextElementSibling,
 * xmlStrcmp) become pure functions over the arena.
 */
module XmlTree {
  import opened LibXQ

  type NodeId = nat

  datatype NodeKind = DocumentNode | ElementNode | TextNode | CDataNode | CommentNode

  /** One xmlNode: its type, tag name, attributes, ordered children and parent. */
  datatype Node = Node(
    kind: NodeKind,
    name: string,
    attributes: map<string, string>,
    children: seq<NodeId>,
    parent: Option<NodeId>)

  type Tree = seq<Node>

  /** The arena is a tree: every child lies after its parent (so there are no
      cycles), the parent links agree with the children lists, and no node
      appears twice in one children list (a sibling chain visits each node
      once). */
  ghost predicate ValidTree(t: Tree) {
    && (forall n, i {:trigger t[n].children[i]} ::
          0 <= n < |t| && 0 <= i < |t[n].children| ==>
            n < t[n].children[i] < |t| && t[t[n].children[i]].parent == Some(n))
    && (forall n {:trigger t[n].parent} :: 0 <= n < |t| && t[n].parent.Some? ==>
          t[n].parent.value < n && n in t[t[n].parent.value].children)
    && (forall n, i, j {:trigger t[n].children[i], t[n].children[j]} ::
          0 <= n < |t| && 0 <= i < j < |t[n].children| ==> t[n].children[i] != t[n].children[j])
  }

  /** Every id in `ns` names a node of the arena. */
  ghost predicate AllNodesIn(t: Tree, ns: seq<NodeId>) {
    forall i :: 0 <= i < |ns| ==> ns[i] < |t|
  }

  predicate IsElement(t: Tree, n: NodeId)
    requires n < |t|
  {
    t[n].kind == ElementNode
  }

  /** xmlGetProp: the value of attribute `name` of `n`, or null. Only element
      nodes carry attributes. */
  function GetProp(t: Tree, n: NodeId, name: string): (v: Option<string>)
    requires n < |t|
    ensures v.Some? <==> IsElement(t, n) && name in t[n].attributes
    ensures v.Some? ==> v.value == t[n].attributes[name]
  {
    if t[n].kind == ElementNode && name in t[n].attributes then Some(t[n].attributes[name]) else None
  }

  /** The first position of `x` in `cs`. */
  function IndexOf(cs: seq<NodeId>, x: NodeId): (k: nat)
    requires x in cs
    ensures k < |cs| && cs[k] == x
    ensures forall j :: 0 <= j < k ==> cs[j] != x
  {
    if cs[0] == x then 0 else 1 + IndexOf(cs[1..], x)
  }

  /** In a valid tree the i-th child of `p` has `p` as its parent and is found
      at position i, so xmlNextElementSibling starts from the node itself and
      not from an earlier copy of it. */
  lemma ChildPosition(t: Tree, p: NodeId, i: nat)
    requires ValidTree(t) && p < |t| && i < |t[p].children|
    ensures t[t[p].children[i]].parent == Some(p)
    ensures IndexOf(t[p].children, t[p].children[i]) == i
  {
  }

  /** The first position at or after `j` in `cs` that holds an element. */
  function FirstElementIndex(t: Tree, cs: seq<NodeId>, j: nat): (k: Option<nat>)
    requires AllNodesIn(t, cs)
    requires j <= |cs|
    decreases |cs| - j
    ensures k.Some? ==> j <= k.value < |cs| && IsElement(t, cs[k.value])
    ensures k.Some? ==> forall i :: j <= i < k.value ==> !IsElement(t, cs[i])
    ensures k.None? ==> forall i :: j <= i < |cs| ==> !IsElement(t, cs[i])
  {
    if j == |cs| then None
    else if t[cs[j]].kind == ElementNode then Some(j)
    else FirstElementIndex(t, cs, j + 1)
  }

  /** xmlNextElementSibling: the first element that follows `n` among the
      children of its parent, or null. */
  function NextElementSibling(t: Tree, n: NodeId): (r: Option<NodeId>)
    requires ValidTree(t) && n < |t|
    ensures r.Some? ==> r.value < |t| && IsElement(t, r.value) && t[n].parent.Some?
    ensures r.Some? ==> t[r.value].parent == t[n].parent
  {
    match t[n].parent
    case None => None
    case Some(p) =>
      var cs := t[p].children;
      assert AllNodesIn(t, cs) by {
        forall i | 0 <= i < |cs| ensures cs[i] < |t| {
          assert t[p].children[i] == cs[i];
        }
      }
      var k := IndexOf(cs, n);
      match FirstElementIndex(t, cs, k + 1)
      case None => None
      case Some(j) =>
        assert t[p].children[j] == cs[j];
        Some(cs[j])
  }
}

=== FILE: xq.dfy ===
/**
 * The xQ object of xq.c: a document and a context list of nodes, which
 * xQ_find replaces by what a selector finds from them.
 *
 * The nodes of the context live in a libxml2 tree; Find is given that tree.
 * xQ_find never reads the `document` field, so the model keeps the field but
 * does not tie the tree to it.
 */
module Xq {
  import opened LibXQ
  import opened XmlTree
  import opened NodeLists
  import opened SearchTokens
  import opened SearchExprs
  import opened SearchCompile
  import opened SearchGrammar
  import opened SearchEval
  import SearchRoundTrip
  import SearchCases

  /** What xQ_find leaves as the context when no allocation fails: an
      empty context stays as it is; otherwise the compiled selector's
      results for every context node, in context order, or None when the
      selector does not compile. */
  function Found(t: Tree, selector: string, ctx: seq<NodeId>): (r: Option<seq<NodeId>>)
    requires ValidTree(t) && AllNodesIn(t, ctx)
    ensures r.Some? ==> AllNodesIn(t, r.value)
  {
    if ctx == [] then Some(ctx)
    else match Compile(Intended, selector)
      case Failure(_) => None
      case Success(e) => Some(EvaluateAll(t, e, ctx))
  }

  class XQ {
    var document: Option<Tree>
    var context: NodeList
    ghost var Repr: set<object>

    ghost predicate Valid()
      reads this, Repr
    {
      && this in Repr && context in Repr
      && context.Repr <= Repr && this !in context.Repr
      && Repr == {this} + context.Repr
      && context.Valid()
    }

    /** The nodes of the context, in order. */
    ghost function Contents(): seq<NodeId>
      reads this, Repr
      requires Valid()
    {
      context.Contents()
    }

    /** A zeroed struct. */
    constructor ()
      ensures Valid() && fresh(Repr)
      ensures document.None? && Contents() == []
    {
      document := None;
      context := new NodeList();
      new;
      Repr := {this} + context.Repr;
    }

    /** xQ_init (xq.c:133-136): no document, and an empty context with room
        for eight nodes. */
    method Init() returns (status: StatusCode)
      requires Valid()
      modifies Repr
      ensures Valid() && fresh(Repr - old(Repr))
      ensures document.None? && Contents() == []
      ensures status == Ok ==> context.Capacity() == 8
      ensures status != Ok ==> status == OutOfMemory
    {
      document := None;
      status := context.Init(8);
      Repr := {this} + context.Repr;
    }

    /** xQ_length (xq.c:156-158): the number of nodes in the context. */
    method Length() returns (n: nat)
      requires Valid()
      ensures n == |Contents()|
    {
      n := context.size;
    }

    /** xQ_find (xq.c:180-203). An empty context is left alone. Otherwise the
        selector is compiled; xq.c:189-191 call xQSearchExpr_alloc_init as a
        function that returns the chain or null, so a selector that does not
        compile makes xQ_find report XQ_OUT_OF_MEMORY. The chain is then
        evaluated on every context node in turn into a temporary list, and
        only if all of that succeeded is the context overwritten with it. */
    method Find(t: Tree, selector: string) returns (status: StatusCode)
      requires Valid() && ValidTree(t) && AllNodesIn(t, Contents())
      modifies Repr
      ensures Valid() && fresh(Repr - old(Repr)) && document == old(document)
      ensures status == Ok || status == OutOfMemory
      ensures old(Contents()) == [] ==> status == Ok
      ensures Found(t, selector, old(Contents())).None? ==> status == OutOfMemory
      ensures status == Ok ==> Found(t, selector, old(Contents())) == Some(Contents())
      ensures status != Ok ==> Contents() == old(Contents())
    {
      ghost var ctx := Contents();
      status := Ok;
      if context.size != 0 {
        var compiled, expr := AllocInit(selector);
        if expr.None? {
          status := OutOfMemory;
        } else {
          FoundCompiled(t, selector, ctx, expr.value);
          var tmpList;
          status, tmpList := EvalContext(t, expr.value);
          if status == Ok {
            assert tmpList.Contents() == EvaluateAll(t, expr.value, ctx);
            status := context.Assign(tmpList);
            Repr := {this} + context.Repr;
          }
        }
      }
    }

    /** The loop of xQ_find (xq.c:193-196): the chain `e` on every context
        node in turn, into a new temporary list, until one evaluation
        fails. The status of xQNodeList_init is not looked at: a list
        without a buffer gets one on its first push. */
    method EvalContext(t: Tree, e: Expr) returns (status: StatusCode, tmpList: NodeList)
      requires Valid() && ValidTree(t) && AllNodesIn(t, Contents())
      ensures tmpList.Valid() && fresh(tmpList.Repr)
      ensures AppendedAtMost([], tmpList.Contents(), EvaluateAll(t, e, Contents()), status)
    {
      ghost var ctx := Contents();
      tmpList := new NodeList();
      var _ := tmpList.Init(8);
      status := Ok;
      var i := 0;
      AtMostNothing([], status);
      while status == Ok && i < context.size
        invariant tmpList.Valid() && fresh(tmpList.Repr)
        invariant 0 <= i <= |ctx|
        invariant AppendedAtMost([], tmpList.Contents(), EvaluateAll(t, e, ctx[..i]), status)
      {
        ghost var prior := tmpList.Contents();
        EvaluateAllSnoc(t, e, ctx, i);
        status := Eval(t, e, context.list[i], tmpList);
        AtMostThen([], prior, tmpList.Contents(), EvaluateAll(t, e, ctx[..i]), Evaluate(t, e, ctx[i]), Ok, status);
        i := i + 1;
      }
      if status == Ok {
        assert ctx[..i] == ctx;
      } else {
        EvaluateAllPrefix(t, e, ctx[..i], ctx);
        AtMostWithin([], tmpList.Contents(), EvaluateAll(t, e, ctx[..i]), EvaluateAll(t, e, ctx), status);
      }
    }
  }

  lemma FoundCompiled(t: Tree, selector: string, ctx: seq<NodeId>, e: Expr)
    requires ValidTree(t) && AllNodesIn(t, ctx) && ctx != [] && Compile(Intended, selector) == Success(e)
    ensures Found(t, selector, ctx) == Some(EvaluateAll(t, e, ctx))
  {
  }

  /** xQ_find with an empty or blank selector keeps the same nodes in the
      same order: the selector compiles to the copy step. */
  lemma FindBlankKeeps(t: Tree, selector: string, ctx: seq<NodeId>)
    requires ValidTree(t) && AllNodesIn(t, ctx) && OnlySpaceLeft(selector, 0)
    ensures Found(t, selector, ctx) == Some(ctx)
  {
    SearchCases.BlankSelectorIsCopy(selector);
    EvaluateAllCopy(t, ctx);
  }

  /** xQ_find with a selector of the grammar runs its steps one after the
      other over the whole context: each step on every result of the step
      before, in order. */
  lemma FindRendered(t: Tree, cs: seq<Compound>, ctx: seq<NodeId>)
    requires ValidTree(t) && AllNodesIn(t, ctx) && WellFormed(cs)
    ensures Found(t, Render(cs), ctx) == Some(Pipeline(t, SelectorSteps(cs), ctx))
  {
    SearchRoundTrip.CompileRender(Intended, cs);
    if ctx != [] {
      EvaluateAllPipeline(t, FromSteps(SelectorSteps(cs)), ctx);
    } else {
      PipelineOfNothing(t, SelectorSteps(cs));
    }
  }
}
